=== FILE: README.md ===
# kodacad bookkeeping, modelled in Dafny

kodacad is a small 3D CAD program built on an OCAF/XCAF document. This
project models the bookkeeping layer around the geometry kernel:

- **Serial numbers.** `get_uid_from_entry` keeps a counter per label
  entry and issues the uid `entry.serial`. There is one copy in `DocModel`
  and one in `StepAnalyzer`; both are `Serial.GetUidFromEntry`.
- **`parse_doc` / `parse_components`.** These walk the label tree of the
  document and fill `uid_dict` and `part_dict` through the three stacks
  they keep (parent uid, assembly entry, assembly location).
- **Document edits.** `change_label_name`, `replaceShape` and
  `addComponent`, together with the uid `addComponent` returns.
- **`StepAnalyzer`.** Its `dump` / `find_components` write the indented
  outline of an assembly.
- **The main window's session.**
  - Units.
  - Workplane uids.
  - The draw list.
  - Transparency.
  - The input stacks.
  - The registered callback, and `appendToStack`, which feeds typed text to it.
- **Interactive commands.**
  - The 2-D sketch commands of `M2D` and their collectors.
  - The 3-D commands of `kodacad`: workplane by three points or on a face,
    extrude, revolve, fillet.
  - How the 3-D commands find the active assembly.

Modules follow the source files:

| module | what it holds |
|---|---|
| `Wrappers` | `Option`, `Result`, and the Python exceptions that can escape |
| `Text` | `str.split`, `str.join`, `int()`, `str()` on naturals |
| `OrderedDicts` | a Python dict with insertion order |
| `Serial` | the uid scheme |
| `LabelTree` | the document as a tree of root labels and components |
| `DocModel` | `parse_doc` |
| `DocEdit` | the three document edits |
| `StepAnalyzer` | `dump` |
| `MainWindow` | the session record and the window's methods |
| `M2D` | the sketch commands |
| `KodaCad` | the 3-D commands |
| `Dispatch` | how a selection or a typed line reaches the registered collector |

Kernel objects are modelled as handles:

- Shapes, colours and locations are data terms.
- A component holds no shape of its own. Like `GetShape` on a component label, its shape is read through its reference: the referred label's shape placed by the component's location.
- A location product is a `Mul` term and an inverse an `Inverted` term.
- The kernel calls the session depends on are fields of a `Kernel` record,
  treated as oracles: `float()`, a point in workplane coordinates,
  `makeWire`, the edges of a shape, and the fillet builder.

An exception that escapes a collector leaves the session as it was at the
raise and sets its `fault` field.

`parse_doc` and `find_components` have one defect in common, described
under Findings below. They take a `repaired` flag:

- `false` is the code as written.
- `true` is the evident intention.

Properties about the repaired walk are proved against an independent
recursive reference definition. Each is tied back to the code as written
by a lemma: the two coincide whenever no sub-assembly is empty.

## Model

| member | source | states |
|---|---|---|
| Serial.GetUidFromEntry | docmodel.py:158-167 | The serial is 0 for an entry not seen before and one more than the last one otherwise. The uid is `entry.serial`. Only that entry's counter changes. |
| Serial.SplitUid | docmodel.py:566 | A uid built from a dot-free entry splits at '.' into exactly the entry and the decimal serial, which is what `change_label_name` unpacks. |
| Serial.UidInjective | docmodel.py:158-167 | For dot-free entries, the uid text determines both the entry and the serial. |
| Serial.GetUidIsFresh | docmodel.py:158-167 | The uid returned is one the counters did not yet account for; afterwards they do, and nothing accounted for before is lost. |
| Serial.IssueAllDistinct | docmodel.py:158-167 | Any sequence of calls over dot-free entries hands out pairwise distinct uids, all of them new. |
| Serial.RepeatedEntryDistinct | stepanalyzer.py:75-88 | Repeated calls for one entry, whatever its text, return the consecutive serials n, n+1, … and therefore distinct uids. This tells apart several instances of shared data. |
| Text.SplitJoin | docmodel.py:566-567 | Splitting a join gives back the pieces, provided no piece holds the separator. |
| Text.JoinSplit | docmodel.py:566-567 | Joining the pieces of a split gives back the string. |
| Text.ParseInt | docmodel.py:572-573 | `int()` on an optional sign followed by ASCII decimal digits: it succeeds exactly on such text, and plain digits give a non-negative value. The other spellings Python accepts are listed under Left out. |
| Text.ParseNatToString | docmodel.py:572-573 | `int(str(n)) == n`. |
| Text.NatToStringInjective | docmodel.py:167 | Different serials have different decimal spellings. |
| OrderedDicts.Put | docmodel.py:252-255 | `d[k] = v` stores v under k. An existing key keeps its position and a new key goes last. |
| DocModel.AddLeaf | docmodel.py:242-287 | A component referring to a simple shape gets a non-assembly uid record under the given parent. Its part record holds the referred shape, placed by the component's location and then moved by the product of the location stack. The part's location is that product times the component's own location. |
| DocModel.Enter | docmodel.py:288-296 | Entering an assembly component files an assembly record under the current parent. It pushes the uid, the referred entry and the component's location, and popping undoes exactly that. |
| DocModel.ParseDoc | docmodel.py:169-224 | The parse raises exactly when the document has no root label. The tables it leaves are always well formed. |
| DocModel.ParseOneIsRef | docmodel.py:235-306 | One repaired loop step files exactly what the recursive reference walk files for that component, with parent and location path passed down, and leaves the stacks as they were. |
| DocModel.ParseSeqIsRef | docmodel.py:235-306 | The repaired loop over a component list equals the reference walk over it and leaves the stacks unchanged. |
| DocModel.ParseComponentsIsRef | docmodel.py:226-311 | Repaired `parse_components` equals the reference walk and ends with each stack popped exactly once. |
| DocModel.ParseOneBalanced | docmodel.py:288-306 | With no empty sub-assembly below a component, the code as written and the repaired walk coincide. |
| DocModel.ParseSeqBalanced | docmodel.py:288-306 | The same for a whole component list. |
| DocModel.ParseDocShare | docmodel.py:169-241 | The counters a parse leaves are those of issuing, from the seed `{'0:1:1': 0}`, one uid for every entry the walk visits, in visiting order. |
| DocModel.ParseDocUidsDistinct | docmodel.py:185-241 | With dot-free entries, all uids one parse hands out are pairwise distinct. |
| DocModel.ParseOneConsistent | docmodel.py:235-306 | Each loop step keeps the walk invariant and never changes or drops a record already filed. The invariant is: <br>• the root is the only record without a parent; <br>• every parent is an assembly record; <br>• exactly the non-assembly records have a part; <br>• the counters account for every recorded uid. |
| DocModel.ParseSeqConsistent | docmodel.py:235-306 | The loop over a component list keeps the invariant and every earlier record. |
| DocModel.ParseDocConsistent | docmodel.py:169-311 | After a parse, as written or repaired: <br>• the root record is the first root label's, and it is the only record without a parent; <br>• every parent is an assembly record filed earlier in `uid_dict` order, so following parents always ends at the root; <br>• exactly the non-assembly records have a part, so an empty sub-assembly is an assembly record with neither children nor part; <br>• no later uid can clash with a recorded one. |
| DocModel.ParseSeqFirst | docmodel.py:235-306 | The loop over a component list files every new record after its parent, so `uid_dict` order lists parents before children. |
| DocModel.ParseOneFirst | docmodel.py:241-296 | One loop step, leaf or assembly, files its record after the parent it names. |
| DocModel.ParseSeqAppend | docmodel.py:235 | Walking `a + b` is walking `a`, then `b` from where `a` stopped. |
| DocModel.ParseOneRecord | docmodel.py:241-289 | A component that refers to a label gets, under its own uid, the record with its entry, name, current parent, referred entry and assembly flag, and the walk below it keeps that record. |
| DocModel.LeafStep | docmodel.py:256-287 | A leaf component is filed under the top of the parent stack. Its part location is the product of the location stack times its own location. |
| DocModel.TopComponentRecord | docmodel.py:235-255 | The m-th component of the top assembly, if its entry was not met earlier, gets the uid `entry.0`, and after the whole parse its record names the root as parent. This holds for the repaired walk, and for the walk as written when no empty sub-assembly comes before that component. |
| DocModel.TopSplitAsWritten | docmodel.py:235-306 | As written, with no empty sub-assembly among the first m top components, the walk reaches the m-th component in the state the repaired walk reaches it in. |
| DocModel.EmptySubAssemblyMisplacesSibling | docmodel.py:294-311 | As written, after a component referring to an empty assembly, the next leaf is filed as that component's child and moved by its location. |
| DocModel.RepairedEmptyAssembly | docmodel.py:288-311 | Repaired, entering an empty assembly leaves all three stacks exactly as they were. |
| DocEdit.RelabelDocAgrees | docmodel.py:583-584 | After an edit, every reference to the edited label, at any depth, is the edited label, as `UpdateAssemblies` makes it. |
| DocEdit.EntryTarget | docmodel.py:566-573 | What `change_label_name` reads from the uid. <br>• Not exactly one '.': `ValueError`. <br>• Four ':' fields: exactly root label 1 with no component. <br>• Five fields: exactly label `int(f[3])` and component `int(f[4])`, or `ValueError` when either is not a number. <br>• Any other count: `UnboundLocalError`. |
| DocEdit.EntryTargetOfComponent | docmodel.py:566-573 | Any uid of the component entry `0:1:1:j:k` leads back to label j and component k. |
| DocEdit.EntryTargetOfRootLabel | docmodel.py:566-570 | Any uid of a root label entry `0:1:1:j` leads to label 1 with no component. |
| DocEdit.RenameComponent | docmodel.py:582-583 | Only the name of component k changes. |
| DocEdit.ChangeLabelName | docmodel.py:564-586 | As written: <br>• A bad uid raises what `EntryTarget` raises. <br>• A four-field uid raises `TypeError` exactly when a root label exists. <br>• A successful edit keeps the number of root labels. |
| DocEdit.ChangeLabelNameRenamesComponent | docmodel.py:571-586 | The uid of component k of root label j renames exactly that component, and every copy of the label agrees. |
| DocEdit.RenameTopAssemblyFails | docmodel.py:568-582 | As written, renaming the top assembly through the root uid `parse_doc` hands out always fails with `TypeError`. |
| DocEdit.ChangeLabelNameFixed | docmodel.py:564-586 | Corrected: it never raises `TypeError`, and on component uids it agrees with the code as written. |
| DocEdit.RenameTopAssemblyFixed | docmodel.py:568-570 | Corrected, the root uid renames root label 1 itself, and its uid is unchanged. |
| DocEdit.RenameTopAssemblyShowsInParse | docmodel.py:564-586 | Corrected, the parse that follows files the new name in the root record. |
| DocEdit.RenameTopComponentShowsInParse | docmodel.py:564-586 | Renaming a top-assembly component by its first uid shows in the following parse, under the same uid. This holds for the repaired parse, and for the parse as written when no empty sub-assembly comes before that component. |
| DocEdit.ReplaceShape | docmodel.py:508-528 | <br>• A uid without a record: `KeyError`. <br>• A record without a referred entry: `AttributeError`. <br>• Success needs a uid and a part record, and keeps the number of root labels. <br>The trailing `parse_doc` is the caller's `ParseDoc` on the result; see `ReplaceShapeReparsed`. |
| DocEdit.ReplaceShapeUpdatesEveryInstance | docmodel.py:518-528 | For a part referring to root label n, that label gets the new shape moved back by the inverse of the part's location. Every reference to that label, at any depth of the document, is then the new label. |
| DocEdit.ReplaceShapeReparsed | docmodel.py:508-530 | After `replaceShape` and the `parse_doc` it ends with, every part filed for an instance of label n, at any depth and in either walk, holds the new shape moved back to the root position. That shape is then placed by two locations whose product is the part's location. The model does not tie these two to the instance's own component location and the enclosing locations. |
| DocEdit.ParseDocInstances | docmodel.py:235-287 | When every reference to a simple label holds that label, the parse files each of its instances with the label's own shape, placed by two locations whose product is the part's location. |
| DocEdit.AddComponent | docmodel.py:532-556 | <br>• No root label: None. <br>• Otherwise the shape becomes a new last root label, referred to by a new last component of the top assembly carrying the name. <br>• The returned uid is the component's entry with serial 0. |
| DocEdit.AddComponentUidNamesNewPart | docmodel.py:553-556 | The uid `addComponent` returns is the uid the following parse files the new part under. The record carries the name, the top assembly as parent and the new root label as referred entry. This holds for the repaired parse, and for the parse as written when the top assembly had no empty sub-assembly. |
| StepAnalyzer.New | stepanalyzer.py:38-45 | A new analyzer has no indent, no text, and counters seeded with `{'0:1:1': 0}`. |
| StepAnalyzer.Tabs | stepanalyzer.py:148 | `'\t' * n` is n tabs, and none for a zero or negative count. |
| StepAnalyzer.Dump | stepanalyzer.py:90-128 | <br>• The dump raises exactly when there is no root label. <br>• It always appends the header. <br>• A simple first label adds nothing more. <br>• An assembly adds its root line followed by the component lines. <br>• Repaired, the text appended is exactly the header, the root line and the reference outline at indent 2, and the counters are those the outline leaves. |
| StepAnalyzer.FindOneIsOutline | stepanalyzer.py:138-158 | Repaired, one step over a component appends exactly the reference outline of its subtree and threads the counters. |
| StepAnalyzer.FindSeqIsOutline | stepanalyzer.py:130-160 | Repaired, the loop over a component list appends exactly the reference outline. |
| StepAnalyzer.OutSeqShare | stepanalyzer.py:138-158 | The outline consumes counters exactly as `parse_components` does for the same components. |
| StepAnalyzer.FindOneBalanced | stepanalyzer.py:151-160 | Repaired, a component's subtree leaves the indent where it found it. |
| StepAnalyzer.FindSeqBalanced | stepanalyzer.py:151-160 | The same for a whole component list. |
| StepAnalyzer.EmptyAssemblyRaisesIndent | stepanalyzer.py:151-160 | As written, an empty sub-assembly leaves the indent one higher; repaired it does not. |
| StepAnalyzer.FindOneAsWritten | stepanalyzer.py:151-160 | With no empty sub-assembly below a component, the code as written and the repaired step coincide. |
| StepAnalyzer.FindSeqAsWritten | stepanalyzer.py:151-160 | The same for a whole component list. |
| StepAnalyzer.FirstDump | stepanalyzer.py:90-128 | For a new analyzer over an assembly, the dump is: <br>• the header; <br>• the root line; <br>• the outline at indent 2. <br>The counters it leaves are exactly those `parse_doc` leaves. |
| StepAnalyzer.SecondDumpRenumbers | stepanalyzer.py:97-112 | Because the constructor seeds the counters once, a second dump keeps the first text in front and gives the root a different uid. |
| StepAnalyzer.FindOneLine | stepanalyzer.py:142-150 | A component that refers to a label writes its line at the current indent before anything below it. |
| StepAnalyzer.OverEmptyAssembly | stepanalyzer.py:151-160 | Stepping over an empty sub-assembly writes one line. The indent rises by one as written, and not at all repaired. |
| StepAnalyzer.EmptySubAssemblyIndentsSibling | stepanalyzer.py:138-160 | As written, the sibling after an empty sub-assembly is printed one level deeper, as if it were its child. |
| StepAnalyzer.RepairedIndentsSibling | stepanalyzer.py:138-160 | Repaired, that sibling is printed at the same level. |
| MainWindow.Start | mainwindow.py:170-212 | The window starts in mm with scale 1.0, workplane counter 1 and no callback. |
| MainWindow.StartValid | mainwindow.py:170-212 | The starting session satisfies the session invariant. |
| MainWindow.WpNameInjective | mainwindow.py:492 | Different counter values give different workplane names `wp<n>`. |
| MainWindow.IndexOf | mainwindow.py:696 | The position `list.index` finds holds the element, and no earlier position does. |
| MainWindow.RemoveFirst | mainwindow.py:695-696 | `list.remove` drops one occurrence, the first, and keeps the rest in order. A missing element changes nothing. |
| MainWindow.SetUnits | mainwindow.py:711-715 | "mm", "in" and "ft" set the unit with scale 1.0, 25.4 and 304.8. Any other name changes nothing, and nothing but unit and scale ever changes. |
| MainWindow.SetUnitsKeepsValid | mainwindow.py:711-715 | The scale always matches the unit name, and setting the same unit twice is setting it once. |
| MainWindow.GetWpUid | mainwindow.py:486-505 | The new workplane is stored under `wp<n>` for the current counter. The counter goes up, the workplane becomes active, its uid is appended to the draw list, and nothing else changes. |
| MainWindow.GetWpUidFresh | mainwindow.py:486-505 | That uid was not a workplane key before; it goes last in the dictionary's order and the session stays valid. |
| MainWindow.SuccessiveWpUidsDiffer | mainwindow.py:492-493 | Two workplanes made one after the other get different uids, `wp<n>` and `wp<n+1>`. |
| MainWindow.DrawAll | mainwindow.py:665-672 | The draw list becomes every part key in dictionary order followed by every workplane key, and nothing else changes. |
| MainWindow.DrawAllDrawsEverything | mainwindow.py:665-672 | After `drawAll`, exactly the parts and workplanes are drawn. When no part uid is a workplane uid, each is drawn once. |
| MainWindow.DrawAddPart | mainwindow.py:689-692 | The key is appended, even when it is already listed. |
| MainWindow.DrawHidePart | mainwindow.py:694-698 | A listed key loses its first occurrence; an unlisted key changes nothing. |
| MainWindow.HideUndoesAdd | mainwindow.py:689-698 | Hiding a key just added to a list that did not hold it restores the session. When the list already held it, the key stays drawn. |
| MainWindow.EraseAll | mainwindow.py:586-590 | The draw list is emptied and nothing else changes. |
| MainWindow.HideAfterEraseAll | mainwindow.py:586-590 | After `eraseAll` there is nothing left to hide. |
| MainWindow.ClearAllStacks | mainwindow.py:551-557 | Every input stack but `shapeStack` is emptied, and nothing else changes. |
| MainWindow.ClearCallback | mainwindow.py:567-575 | With no callback nothing happens. Otherwise the callback is dropped and the stacks are cleared. `shapeStack` survives either way. |
| MainWindow.ClearCallbackIdempotent | mainwindow.py:567-575 | Clearing twice is clearing once, and clearing a registered callback leaves no typed input or points behind. |
| MainWindow.RegisterCallback | mainwindow.py:559-565 | The new callback is registered; a registered one is cleared first, along with its stacks. |
| MainWindow.RegisterReplaces | mainwindow.py:559-575 | Registering over a registered callback is registering on a cleared session, with all stacks emptied; `clearCallback` then leaves none registered. |
| MainWindow.SetTransparent | mainwindow.py:445-452 | A clicked part gets transparency 0.6, a clicked non-part changes no transparency, and the click is consumed. |
| MainWindow.SetOpaque | mainwindow.py:454-461 | A clicked transparent part loses its entry. A clicked part with no entry raises `KeyError` from `pop`, with the click not consumed. No entry is ever added or changed. |
| MainWindow.OpaqueUndoesTransparent | mainwindow.py:445-461 | Transparent then opaque restores the transparency table; opaque alone on an opaque part raises `KeyError`. |
| Dispatch.Select | mainwindow.py:559-565 | A selection reaches the registered collector, through `Fire`, with the picked shapes; with none registered it changes nothing. |
| Dispatch.LineReceives | mainwindow.py:507-514 | While `lineC` is registered, a selection reaches it with the picks and typed text reaches it on the input stack with no picks. |
| Dispatch.ExtrudeReceives | mainwindow.py:507-514 | While `extrudeC` is registered, typed text reaches it on the input stack, and a selection runs it on the unchanged stacks. |
| Dispatch.RevolveReceives | mainwindow.py:507-514 | While `revolveC` is registered, a selection reaches it with the picks, and typed text reaches it on the input stack with no picks. |
| Dispatch.RevolveBySelectAndType | kodacad.py:266-280 | Two axis points selected one at a time, then the name typed: the name reaches `revolveC` with no picks, which fires `revolve` about the axis from the first pick to the second and clears the stacks and the callback. |
| Dispatch.AppendToStack | mainwindow.py:507-514 | With a callback, the text is pushed and the callback is called with no picks. Without one, the push is undone and the session is unchanged. |
| M2D.AddVertices | m2d.py:42-54 | Each picked vertex adds one 2-D point in the active workplane's coordinates, in pick order. Other picks add nothing. Vertices with no active workplane raise `AttributeError`. |
| M2D.VerticesAppend | m2d.py:42-54 | Picks delivered in two batches give the same points as one batch. |
| M2D.ProcessLineEdit | m2d.py:56-72 | The last input is popped and adds at most one value. Text with a comma can only add a point, text without one only a number, and nothing else changes. |
| M2D.TypedPoint | m2d.py:56-72 | `"x,y"` with two numbers pushes the point (x·scale, y·scale). |
| M2D.TypedPointCollected | m2d.py:56-72 | A typed `x,y` that reaches a collector with no picks adds exactly that point and empties the input stack. |
| M2D.TooManyCommas | m2d.py:56-72 | Text with two or more commas is dropped. |
| M2D.TypedNumber | m2d.py:56-72 | Text without a comma is pushed as a number, unscaled, when `float()` accepts it, and dropped otherwise. |
| M2D.ClineHCollect | m2d.py:91-101 | With an active workplane and no typed input or number waiting, the picked points are added and `clineH` runs exactly when there is at least one point; otherwise a vertex pick with no workplane raises `AttributeError`. |
| M2D.ClineVCollect | m2d.py:120-130 | The same for `clineV`. |
| M2D.ClineHVCollect | m2d.py:149-155 | With an active workplane and no typed input, the picked points are added and `clineHV` runs exactly when there is at least one point. A vertex pick with no workplane raises `AttributeError`. |
| M2D.Cline2PtsCollect | m2d.py:175-181 | With an active workplane and no typed input, the picked points are added and `cline2Pts` runs exactly when there are two. A vertex pick with no workplane raises `AttributeError`. |
| M2D.ClineAngCollect | m2d.py:203-210 | With an active workplane and no typed input, the picked points are added and `clineAng` runs exactly when there is a point and a number. A vertex pick with no workplane raises `AttributeError`. |
| M2D.ClineLinBisecCollect | m2d.py:231-235 | With an active workplane the picked points are added, typed input is not read, and `clineLinBisec` runs exactly when there are two points. A vertex pick with no workplane raises `AttributeError`. |
| M2D.CcircCollect | m2d.py:277-286 | With an active workplane and no typed input or number, the picked points are added and `ccirc` runs exactly when there are two. A vertex pick with no workplane raises `AttributeError`. |
| M2D.LineCollect | m2d.py:311-318 | With an active workplane and no typed input, the picked points are added and `line` runs exactly when there are two. A vertex pick with no workplane raises `AttributeError`. |
| M2D.RectCollect | m2d.py:337-344 | The same for `rect`. |
| M2D.CircleCollect | m2d.py:374-383 | The same as `ccircC`, for `circle`. |
| M2D.Arcc2pCollect | m2d.py:403-410 | With an active workplane and no typed input, the picked points are added and `arcc2p` runs exactly when there are three. A vertex pick with no workplane raises `AttributeError`. |
| M2D.Arc3pCollect | m2d.py:430-437 | The same for `arc3p`. |
| M2D.ClineH | m2d.py:74-89 | With a point, the horizontal construction line goes through the last point and the stack is emptied. Without one, `clineHC` is registered and the input stack cleared. |
| M2D.ClineHFromNumber | m2d.py:74-101 | A typed number y alone draws the horizontal line through (0, y·scale). |
| M2D.ClineV | m2d.py:103-118 | The same, vertical. |
| M2D.ClineVFromNumber | m2d.py:103-130 | A typed number x alone draws the vertical line through (x·scale, 0). |
| M2D.ClineHV | m2d.py:132-147 | The same, both lines through the last point. |
| M2D.ClineHVFromPick | m2d.py:132-155 | One picked point draws both construction lines through it, and the collector stays registered for the next point. |
| M2D.Cline2Pts | m2d.py:157-173 | With exactly two points, the line goes through them in pick order. Otherwise the collector is registered and the points are dropped. |
| M2D.Cline2PtsFromTwoPicks | m2d.py:157-181 | Two points picked one after the other give the construction line through them, first pick first. |
| M2D.ClineAng | m2d.py:183-201 | With a point and an angle, the line goes through the last point at the last angle, and the point stack is emptied. Otherwise the collector is registered with every stack cleared. |
| M2D.ClineAngFromPickAndAngle | m2d.py:183-210 | A pick alone only stores its point. The angle typed next, unscaled, then draws the line through that point, and every stack ends empty. |
| M2D.ClineLinBisec | m2d.py:218-229 | With exactly two points, their perpendicular bisector is drawn. Otherwise the collector is registered. |
| M2D.ClineLinBisecFromTwoPicks | m2d.py:218-235 | Two points picked one after the other give their bisector, first pick first, and typed input stays where it was. |
| M2D.CircleFrom | m2d.py:249-275 | With two points, the circle is centred at the first with radius the distance to the second. Otherwise it is centred at the last point with the last number, in mm, as radius. Both stacks end empty and only the active workplane changes. With no workplane, `AttributeError` after the pops. |
| M2D.Ccirc | m2d.py:249-275 | Two points, or a point and a number, give the construction circle `CircleFrom` describes. Otherwise `ccircC` is registered with the stacks cleared. |
| M2D.CcircFromPickAndNumber | m2d.py:249-286 | A picked centre and a typed radius give a construction circle of that radius in mm. |
| M2D.LineCmd | m2d.py:294-309 | With exactly two points, a line from the earlier to the later. Otherwise `lineC` is registered and the points are dropped. |
| M2D.LineFromTwoPicks | m2d.py:294-318 | Picking two end points one after the other draws the line between them in pick order. |
| M2D.LineEndTyped | m2d.py:294-318 | A point typed as `x,y` after one pick acts as the second end point. |
| M2D.RectCmd | m2d.py:320-335 | With exactly two points, the rectangle with them as corners. Otherwise `rectC` is registered. |
| M2D.RectFromTwoPicks | m2d.py:320-344 | Two corner picks draw that rectangle. |
| M2D.CircleCmd | m2d.py:346-372 | Two points, or a point and a number, give the profile circle `CircleFrom` describes. Otherwise `circleC` is registered with the stacks cleared. |
| M2D.CircleFromTwoPicks | m2d.py:346-383 | Two picked points give the circle centred at the first pick and passing through the second. |
| M2D.Arcc2pCmd | m2d.py:385-401 | With three points, an arc with centre, start and end in pick order. Otherwise `arcc2pC` is registered. |
| M2D.Arcc2pFromThreePicks | m2d.py:385-410 | Three single picks give the arc with centre, start and end in pick order. |
| M2D.Arc3pCmd | m2d.py:412-428 | With three points, popped so that the last point is the start, the second the end and the first the third point on the arc. Otherwise `arc3pC` is registered. |
| M2D.Arc3pFromThreePicks | m2d.py:412-437 | Three single picks give the arc that starts at the last pick, ends at the second and passes through the first. The status message at m2d.py:427 asks for the start point first, which the code takes as the third point. |
| M2D.DelEl | m2d.py:471-485 | <br>• With picks waiting, every picked element leaves the active workplane's edge list and the pick stack is emptied. <br>• With no workplane: `AttributeError`. <br>• With no picks, `delElC` is registered. |
| M2D.DrainIsWithout | m2d.py:476-482 | On an edge list without repeats, the pop-and-remove loop is filtering out the picked edges, in the original order. |
| M2D.DelElCollect | m2d.py:487-492 | Every pick goes on the pick stack, and then the deletion runs. |
| M2D.DelElRemovesPicked | m2d.py:471-492 | Picking elements to delete leaves exactly the unpicked edges, in order. |
| KodaCad.TagOfActiveAsy | kodacad.py:173-182 | <br>• With no active assembly, or one with no referred entry: 1. <br>• Otherwise exactly the number after the last ':' of the referred entry. <br>• A missing record raises `KeyError`, an unreadable number `ValueError`. |
| KodaCad.TagOfActiveAsyIsReferredLabel | kodacad.py:173-182 | An active assembly referring to `prefix:n` puts new parts under label n. |
| KodaCad.InvLocOfActiveAsy | kodacad.py:185-191 | The identity with no active assembly, else its recorded inverse location. A missing record raises `KeyError`. |
| KodaCad.ActiveTarget | kodacad.py:173-191 | Where new parts go: both the tag and the inverse location, or the first error among them. |
| KodaCad.NoActiveAsyTarget | kodacad.py:173-191 | With no active assembly, new parts go under label 1, unmoved. |
| KodaCad.PushPoints | kodacad.py:103-106 | Picked vertices go on the 3-D point stack in order. A non-vertex raises `RuntimeError`, with the points of the earlier picks already pushed and nothing else changed. |
| KodaCad.PushFaces | kodacad.py:135-146 | The same for faces on the face stack. |
| KodaCad.PushEdges | kodacad.py:443-450 | The same for edges on the edge stack. |
| KodaCad.WpBy3Pts | kodacad.py:72-98 | <br>• The last three points make the new active workplane `wp<n>`, and the callback is cleared. <br>• One or two points raise `IndexError`. <br>• None registers `wpBy3PtsC`. |
| KodaCad.WpBy3PtsCollect | kodacad.py:101-114 | A non-vertex raises with the earlier points pushed. Otherwise the points are pushed, and `wpBy3Pts` fires exactly when the stack then holds three points. |
| KodaCad.WpBy3PtsOneAtATime | kodacad.py:72-114 | Three vertices picked one at a time, as the prompts ask: the first two are only pushed, and the third places the workplane with p1, origin and u-point in pick order. |
| KodaCad.WpBy3PtsPickOrder | kodacad.py:72-114 | Three vertices picked together are taken, in pick order, as p1, origin and u-point. |
| KodaCad.WpOnFace | kodacad.py:117-132 | <br>• The last two faces make the new active workplane: the earlier face gives the plane and the later one the u direction. <br>• One face raises `IndexError`. <br>• None registers `wpOnFaceC`. |
| KodaCad.WpOnFaceCollect | kodacad.py:135-146 | A non-face raises with the earlier faces pushed. Otherwise the faces are pushed, and `wpOnFace` fires exactly when the stack then holds two faces. |
| KodaCad.WpOnFacePickOrder | kodacad.py:117-146 | Two faces picked one at a time: the first sets the plane, the second the u direction. |
| KodaCad.Extrude | kodacad.py:194-222 | <br>• An error finding the target escapes. <br>• Without exactly two inputs, `extrudeC` is registered. <br>• With two inputs, both are popped first. Then an unreadable length raises `ValueError`, no active workplane raises `AttributeError`, and a profile that does not close into a wire returns with nothing else changed and the callback as it was. <br>• The only document change is one extrusion with the first input as length in mm, the second as name, and the active workplane and target. |
| KodaCad.ExtrudeCollect | kodacad.py:225-229 | The collector runs the command only once there are two inputs. |
| KodaCad.ExtrudeNameIsLastInput | kodacad.py:194-229 | The length is entered first and the name second, and both reach the extrusion. |
| KodaCad.ExtrudeByTyping | kodacad.py:194-229 | Starting `extrude` registers the collector. One typed input is kept waiting; the second runs the extrusion. |
| KodaCad.Revolve | kodacad.py:232-263 | <br>• With input and exactly two points, the revolution axis runs from the first point to the second, the name is the last input, and the stacks are cleared. <br>• Otherwise `revolveC` is registered. <br>• A target error escapes. |
| KodaCad.RevolveCollect | kodacad.py:266-280 | A non-vertex pick raises `RuntimeError` with the earlier points pushed and nothing else changed. Otherwise the points are pushed, and `revolve` fires exactly when there is typed input and the stack then holds two points. |
| KodaCad.RevolveAxisFromPicks | kodacad.py:232-280 | Two axis points picked one at a time, then the name typed, revolve about the axis from the first pick to the second. |
| KodaCad.Fillet | kodacad.py:395-440 | <br>• Without a radius and edges, `filletC` is registered. <br>• An unreadable radius, no active part, or an edge not on the part each clear the callback and the stacks, with no document change. <br>• The only possible change is one fillet of the active part. <br>• The part keys never change. |
| KodaCad.FilletCollect | kodacad.py:443-450 | Edges go on the edge stack, and the fillet runs once there is a radius. |
| KodaCad.FilletReplacesActivePart | kodacad.py:395-440 | A successful fillet replaces the active part's shape under the same uid, keeps it active, and clears the stacks and callback. |
| KodaCad.FilletForeignEdgeAborts | kodacad.py:395-440 | An edge that is not on the active part stops the fillet: no document change, no part change, and the callback is cleared. |

## Left out

- Geometry. Shapes, locations, colours and workplane geometry are handles. In particular:
  - Products and inverses of locations are terms, not matrices.
  - `gp_Dir` errors for coincident points are not modelled.
  - What `wp.circle`, `wp.line` and the others draw is kept as a list of the calls a workplane received.
- Floating point. Parsing with `float()`, and the kernel calls used by the session, are oracles in the `Kernel` record. A length in mm is the typed value times the unit scale, in exact reals.
- The GUI:
  - the Qt tree view, `syncCheckedToDrawList`, `redraw`, `redraw_wp` and the status-bar labels;
  - the OCC display calls `register_select_callback` and `unregister_callback`;
  - the tree items' colours.
- Which part becomes active after `extrude` or `revolve`. `setActivePart` and `build_tree` are outside the model. A new extrusion or revolution is recorded as an event in the session log, with the workplane, name, length or axis, label tag and location.
- KodaCad.TagOfActiveAsy, KodaCad.InvLocOfActiveAsy, KodaCad.WpBy3Pts, KodaCad.WpOnFace, KodaCad.Extrude, KodaCad.Revolve, KodaCad.Fillet, M2D.Draw: these call names the document and window classes in mainwindow.py and docmodel.py never define. They are `doc.label_dict`, `add_component_to_asy`, `replace_shape`, `win.draw_wp`, `redraw_workplanes`, `hide_list`, `erase_shape`, `draw_shape` and `syncUncheckedToHideList`. As written each such call raises `AttributeError`, for example at kodacad.py:178, kodacad.py:160-163 and m2d.py:81. The model does not raise there. It takes the session's `labels` table as a free stand-in for `label_dict`, an input that no modelled operation fills or checks against `uid_dict`. The redraws that follow a drawing call are not modelled.
- KodaCad.Fillet: the document's `replace_shape` is not re-run. The part table entry and the active part are updated directly, and the call is logged.
- DocEdit.AddComponent: the `expand=True` flag at docmodel.py:543 is not modelled. With it, the kernel turns a compound shape into a sub-assembly; the model always adds a simple shape. The new component's location is taken to be `Identity`. That is what the kernel gives a shape added without a location; a shape that carries its own location is not modelled.
- The `doc_linter` round trip in `addComponent`. It is treated as the identity on the label tree, and the kernel's choice of new entries is the `NewLabels` parameter.
- DocEdit.ReplaceShape: when root label n is an assembly, the document is returned unchanged. A part's location is always treated as truthy, so the shape is always moved back.
- DocModel.ParseDoc:
  - A component location `c_loc` is assumed truthy, so a leaf's location is always the location product times `c_loc`.
  - The `res_loc = None` branch cannot occur, because the location stack always holds the root location.
  - `print` and `logger` calls are left out.
- StepAnalyzer.Dump: `read_file` (STEP reading) is left out.
- Text.ParseInt: Python's `int()` also accepts surrounding whitespace, `_` between digits and non-ASCII Unicode digits. The model rejects these. The uids it is applied to are built from entries of ASCII digits and ':', so these spellings do not arise.
- The other `M2D` commands (`clineRefAng`, `clineAngBisec`, `clinePara`, `clinePerp`, `clineTan1`, `clineTan2`, `geom`, `delCl`) and the other `kodacad` commands (`mill`, `pull`, `fuse`, `shell`, rotations, file I/O, print helpers). They are outside the modelled core.
- Exceptions. An exception that escapes a collector is kept as the session's `fault` field, holding the last exception. What Qt does with it afterwards is outside the model.
- The workplane dictionary. It is assumed well formed (a `Valid` requires on the commands that create workplanes). The window always keeps it so.

## Findings

| source | as written | input that shows it | evidently intended | confidence | as-written member | corrected member |
|---|---|---|---|---|---|---|
| docmodel.py:294-311, stepanalyzer.py:151-160 | An assembly component pushes its uid, entry and location (or raises the indent) before checking for sub-components. It only recurses, and so only pops, when there is at least one. | A top assembly with components [A, B], where A refers to an assembly with no components and B refers to a simple shape. | Entering a sub-assembly is undone when leaving it, whether or not it has components. B should be filed under the top assembly with the top location, and printed at A's indent. | not executed | DocModel.EmptySubAssemblyMisplacesSibling, StepAnalyzer.EmptySubAssemblyIndentsSibling | DocModel.RepairedEmptyAssembly, DocModel.ParseComponentsIsRef, StepAnalyzer.RepairedIndentsSibling, StepAnalyzer.FindOneBalanced |
| docmodel.py:564-586 | A four-field entry (the first root label) sets `k = None`. The code then calls `comps.Value(None)`, which the kernel rejects with a `TypeError`. | `change_label_name` with the root uid `0:1:1:1.0` that `parse_doc` hands out. | The comment says the four-field case is the first root label itself, so that label should be renamed. | not executed | DocEdit.RenameTopAssemblyFails | DocEdit.ChangeLabelNameFixed, DocEdit.RenameTopAssemblyFixed |

=== FILE: dispatch.dfy ===
/** How input reaches the registered collector: a selection in the 3D view
    calls it with the picked shapes, and <Return> in the line edit pushes
    the text and calls it with no shapes. */
module Dispatch {
  import opened Wrappers
  import opened MainWindow
  import opened M2D
  import opened KodaCad

  /** Calling the collector `op` with the picked shapes. */
  function Fire(op: Op, s: Session, picks: seq<Pick>, k: Kernel): Session
    requires s.wpDict.Valid()
  {
    match op
    case ClineHC => ClineHCollect(s, picks, k)
    case ClineVC => ClineVCollect(s, picks, k)
    case ClineHVC => ClineHVCollect(s, picks, k)
    case Cline2PtsC => Cline2PtsCollect(s, picks, k)
    case ClineAngC => ClineAngCollect(s, picks, k)
    case ClineLinBisecC => ClineLinBisecCollect(s, picks, k)
    case CcircC => CcircCollect(s, picks, k)
    case LineC => LineCollect(s, picks, k)
    case RectC => RectCollect(s, picks, k)
    case CircleC => CircleCollect(s, picks, k)
    case Arcc2pC => Arcc2pCollect(s, picks, k)
    case Arc3pC => Arc3pCollect(s, picks, k)
    case DelElC => DelElCollect(s, picks)
    case WpBy3PtsC => WpBy3PtsCollect(s, picks)
    case WpOnFaceC => WpOnFaceCollect(s, picks)
    case ExtrudeC => ExtrudeCollect(s, k)
    case RevolveC => RevolveCollect(s, picks, k)
    case FilletC => FilletCollect(s, picks, k)
  }

  /** A selection in the 3D view: the registered collector, if any, gets
      the picked shapes. */
  function Select(s: Session, picks: seq<Pick>, k: Kernel): (r: Session)
    requires s.wpDict.Valid()
    ensures s.callback.None? ==> r == s
    ensures s.callback.Some? ==> r == Fire(s.callback.value, s, picks, k)
  {
    match s.callback
    case None => s
    case Some(op) => Fire(op, s, picks, k)
  }

  /** `appendToStack`: the text is pushed and the collector called with no
      shapes; with no collector the text is popped again at once. */
  function AppendToStack(s: Session, text: string, k: Kernel): (r: Session)
    requires s.wpDict.Valid()
    ensures s.callback.None? ==> r == s
    ensures s.callback.Some? ==>
      r == Fire(s.callback.value, s.(lineEditStack := s.lineEditStack + [text]), [], k)
  {
    var t := s.(lineEditStack := s.lineEditStack + [text]);
    match s.callback
    case None => s
    case Some(op) => Fire(op, t, [], k)
  }

  /** While a line is being drawn, a selection reaches the line collector
      with the picks, and typed text reaches it on the input stack. */
  lemma LineReceives(s: Session, picks: seq<Pick>, text: string, k: Kernel)
    requires s.wpDict.Valid() && s.callback == Some(LineC)
    ensures Select(s, picks, k) == LineCollect(s, picks, k)
    ensures AppendToStack(s, text, k) == LineCollect(s.(lineEditStack := s.lineEditStack + [text]), [], k)
  {
  }

  /** While `extrude` waits for input, typed text reaches its collector on
      the input stack, and a selection changes nothing it reads. */
  lemma ExtrudeReceives(s: Session, picks: seq<Pick>, text: string, k: Kernel)
    requires s.wpDict.Valid() && s.callback == Some(ExtrudeC)
    ensures Select(s, picks, k) == ExtrudeCollect(s, k)
    ensures AppendToStack(s, text, k) == ExtrudeCollect(s.(lineEditStack := s.lineEditStack + [text]), k)
  {
  }

  /** While `revolve` waits, a selection reaches its collector with the
      picks, and typed text reaches it on the input stack with no picks. */
  lemma RevolveReceives(s: Session, picks: seq<Pick>, text: string, k: Kernel)
    requires s.wpDict.Valid() && s.callback == Some(RevolveC)
    ensures Select(s, picks, k) == RevolveCollect(s, picks, k)
    ensures AppendToStack(s, text, k) == RevolveCollect(s.(lineEditStack := s.lineEditStack + [text]), [], k)
  {
  }

  /** Two axis points selected one at a time and then the part name typed
      and entered: the name goes through `revolveC` with no picks, which
      fires `revolve` about the axis from the first pick to the second. */
  lemma {:induction false} RevolveBySelectAndType(s: Session, k: Kernel, a: Pnt, b: Pnt, name: string)
    requires s.wpDict.Valid() && s.callback == Some(RevolveC)
    requires |s.ptStack| == 0 && |s.lineEditStack| == 0
    requires ActiveTarget(s).Ok? && ActiveWp(s).Some? && k.makeWire(ActiveWp(s).value)
    ensures var s2 := Select(Select(s, [Vertex(a)], k), [Vertex(b)], k);
      && s2 == s.(ptStack := [a, b])
      && var r := AppendToStack(s2, name, k);
      && r.log == s.log + [Revolved(s.activeWpUID.value, name, a, b, ActiveTarget(s).value.tag, ActiveTarget(s).value.loc)]
      && r.callback.None? && r.ptStack == [] && r.lineEditStack == []
  {
    TwoAxisPicks(s, k, a, b);
    var s2 := s.(ptStack := [a, b]);
    var t := s2.(lineEditStack := [name]);
    assert Convertible([], VertexKind) == 0;
    assert Vertices([]) == [];
    assert RevolveCollect(t, [], k) == Revolve(t, k) by {
      assert t.(ptStack := t.ptStack + Vertices([])) == t;
    }
    assert ActiveTarget(t) == ActiveTarget(s);
  }

}

=== FILE: docedit.dfy ===
/** The edits `DocModel` makes to the document: renaming a component
    (`change_label_name`), replacing a part's shape (`replaceShape`) and
    adding a part to the top assembly (`addComponent`). Each edit changes
    one label at the document root; because the model holds referred labels
    by value, the edit is then carried to every reference to that label,
    which is what the kernel's shared label gives for free. The caller's
    tables are rebuilt by `DocModel.ParseDoc` on the edited document. */
module DocEdit {
  import opened Wrappers
  import opened Text
  import opened Serial
  import opened LabelTree
  import opened DocModel

  // Carrying an edited label to its references.

  /** `l` with every reference to `t.entry` inside it replaced by `t`. A
      reference that is replaced is not looked into again. */
  function RelabelLabel(l: Label, t: Label): (r: Label)
    ensures r.entry == l.entry && r.name == l.name && r.Simple? == l.Simple?
    ensures l.Simple? ==> r == l
    ensures l.Assembly? ==> |r.comps| == |l.comps|
    decreases l, 1
  {
    match l
    case Simple(_, _, _, _) => l
    case Assembly(e, n, cs) => Assembly(e, n, RelabelComps(cs, t))
  }

  function RelabelComps(cs: seq<Component>, t: Label): (r: seq<Component>)
    ensures |r| == |cs|
    ensures forall i :: 0 <= i < |cs| ==> r[i] == RelabelComp(cs[i], t)
    decreases cs, 0
  {
    if |cs| == 0 then [] else [RelabelComp(cs[0], t)] + RelabelComps(cs[1..], t)
  }

  /** Only the reference of a component changes, and it still names the
      same entry. */
  function RelabelComp(c: Component, t: Label): (r: Component)
    ensures r.(ref := c.ref) == c
    ensures r.ref.Some? == c.ref.Some?
    ensures c.ref.Some? ==> r.ref.value.entry == c.ref.value.entry
    decreases c, 2
  {
    match c.ref
    case None => c
    case Some(l) => if l.entry == t.entry then c.(ref := Some(t)) else c.(ref := Some(RelabelLabel(l, t)))
  }

  /** Every reference to `t.entry` inside `l`, looking through references
      to other labels, holds `t`. */
  predicate LabelAgrees(l: Label, t: Label)
    decreases l, 1
  {
    l.Assembly? ==> CompsAgree(l.comps, t)
  }

  predicate CompsAgree(cs: seq<Component>, t: Label)
    decreases cs, 0
  {
    forall i :: 0 <= i < |cs| ==> CompAgrees(cs[i], t)
  }

  predicate CompAgrees(c: Component, t: Label)
    decreases c, 2
  {
    c.ref.Some? ==> (if c.ref.value.entry == t.entry then c.ref.value == t else LabelAgrees(c.ref.value, t))
  }

  /** After relabelling, every reference agrees with `t`. */
  lemma {:induction false} RelabelLabelAgrees(l: Label, t: Label)
    ensures LabelAgrees(RelabelLabel(l, t), t)
    decreases l, 1
  {
    if l.Assembly? {
      RelabelCompsAgree(l.comps, t);
    }
  }

  lemma {:induction false} RelabelCompsAgree(cs: seq<Component>, t: Label)
    ensures CompsAgree(RelabelComps(cs, t), t)
    decreases cs, 0
  {
    forall i | 0 <= i < |cs|
      ensures CompAgrees(RelabelComps(cs, t)[i], t)
    {
      RelabelCompAgrees(cs[i], t);
    }
  }

  lemma {:induction false} RelabelCompAgrees(c: Component, t: Label)
    ensures CompAgrees(RelabelComp(c, t), t)
    decreases c, 2
  {
    if c.ref.Some? && c.ref.value.entry != t.entry {
      RelabelLabelAgrees(c.ref.value, t);
    }
  }

  /** Relabelling leaves a label alone exactly when it already agrees. */
  lemma {:induction false} RelabelLabelFixed(l: Label, t: Label)
    ensures RelabelLabel(l, t) == l <==> LabelAgrees(l, t)
    decreases l, 1
  {
    RelabelLabelAgrees(l, t);
    if l.Assembly? {
      RelabelCompsFixed(l.comps, t);
    }
  }

  lemma {:induction false} RelabelCompsFixed(cs: seq<Component>, t: Label)
    ensures RelabelComps(cs, t) == cs <==> CompsAgree(cs, t)
    decreases cs, 0
  {
    RelabelCompsAgree(cs, t);
    if CompsAgree(cs, t) {
      forall i | 0 <= i < |cs|
        ensures RelabelComps(cs, t)[i] == cs[i]
      {
        RelabelCompFixed(cs[i], t);
      }
    }
  }

  lemma {:induction false} RelabelCompFixed(c: Component, t: Label)
    ensures RelabelComp(c, t) == c <==> CompAgrees(c, t)
    decreases c, 2
  {
    RelabelCompAgrees(c, t);
    if c.ref.Some? && c.ref.value.entry != t.entry {
      RelabelLabelFixed(c.ref.value, t);
    }
  }

  /** The document after root label `idx` is replaced by `t`: every other
      root label is relabelled. */
  function RelabelDoc(doc: Doc, idx: nat, t: Label): (r: Doc)
    requires idx < |doc.labels|
    ensures |r.labels| == |doc.labels| && r.topLoc == doc.topLoc && r.labels[idx] == t
    ensures forall i :: 0 <= i < |doc.labels| ==> r.labels[i].entry == (if i == idx then t.entry else doc.labels[i].entry)
  {
    Doc(seq(|doc.labels|, i requires 0 <= i < |doc.labels| => if i == idx then t else RelabelLabel(doc.labels[i], t)),
        doc.topLoc)
  }

  /** Every root label agrees with `t`. */
  predicate DocAgrees(doc: Doc, t: Label) {
    forall i :: 0 <= i < |doc.labels| ==> LabelAgrees(doc.labels[i], t)
  }

  /** After an edit every copy of the edited label in the document is the
      edited label, provided the label does not contain a reference to a
      different version of itself. */
  lemma RelabelDocAgrees(doc: Doc, idx: nat, t: Label)
    requires idx < |doc.labels| && LabelAgrees(t, t)
    ensures DocAgrees(RelabelDoc(doc, idx, t), t)
  {
    var r := RelabelDoc(doc, idx, t);
    forall i | 0 <= i < |doc.labels|
      ensures LabelAgrees(r.labels[i], t)
    {
      if i != idx {
        RelabelLabelAgrees(doc.labels[i], t);
      }
    }
  }

  // Reading label numbers out of entries.

  /** The number after the last ':' of an entry, read with `int()`. */
  function TagOf(entry: string): Option<int> {
    ParseInt(Last(Split(entry, ':')))
  }

  /** The tag of `prefix:n` is n, whatever the prefix. */
  lemma TagOfChild(prefix: string, n: nat)
    ensures TagOf(prefix + ":" + NatToString(n)) == Some(n)
  {
    DigitsHaveNo(NatToString(n), ':');
    LastPiece(prefix, ':', NatToString(n));
    ParseNatToString(n);
  }

  /** Which label `change_label_name` edits: root label `j`, and component
      `k` of it (None when the entry has four fields). */
  datatype Target = Target(j: int, k: Option<int>)

  /** The first half of `change_label_name`: `uid.split('.')` must give
      exactly two pieces; an entry of four fields names root label 1; one of
      five fields names component `int(f[4])` of root label `int(f[3])`;
      with any other count `j` is never bound. */
  function EntryTarget(uid: string): (r: Result<Target>)
    ensures |Split(uid, '.')| != 2 ==> r == Err(ValueError)
    ensures r.Ok? ==> |Split(uid, '.')| == 2 && |Split(Split(uid, '.')[0], ':')| in {4, 5}
    ensures r.Ok? && r.value.k.None? <==> |Split(uid, '.')| == 2 && |Split(Split(uid, '.')[0], ':')| == 4
    ensures r == Err(UnboundLocalError) <==> |Split(uid, '.')| == 2 && |Split(Split(uid, '.')[0], ':')| !in {4, 5}
    ensures |Split(uid, '.')| == 2 && |Split(Split(uid, '.')[0], ':')| == 4 ==> r == Ok(Target(1, None))
    ensures |Split(uid, '.')| == 2 && |Split(Split(uid, '.')[0], ':')| == 5 ==>
      var f := Split(Split(uid, '.')[0], ':');
      && (ParseInt(f[3]).Some? && ParseInt(f[4]).Some? ==> r == Ok(Target(ParseInt(f[3]).value, Some(ParseInt(f[4]).value))))
      && (ParseInt(f[3]).None? || ParseInt(f[4]).None? ==> r == Err(ValueError))
  {
    var halves := Split(uid, '.');
    if |halves| != 2 then Err(ValueError)
    else
      var f := Split(halves[0], ':');
      if |f| == 4 then Ok(Target(1, None))
      else if |f| == 5 then
        var j := ParseInt(f[3]);
        var k := ParseInt(f[4]);
        if j.None? || k.None? then Err(ValueError) else Ok(Target(j.value, Some(k.value)))
      else Err(UnboundLocalError)
  }

  /** The entry `0:1:1:j:k` of component k of root label j. */
  function ComponentEntry(j: nat, k: nat): string {
    "0:1:1:" + NatToString(j) + ":" + NatToString(k)
  }

  /** The entry `0:1:1:j` of root label j. */
  function RootEntry(j: nat): string {
    "0:1:1:" + NatToString(j)
  }

  /** Any uid of component k of root label j leads back to j and k. */
  lemma EntryTargetOfComponent(j: nat, k: nat, s: nat)
    ensures EntryTarget(MakeUid(ComponentEntry(j, k), s)) == Ok(Target(j, Some(k)))
  {
    var parts := ["0", "1", "1", NatToString(j), NatToString(k)];
    DigitsHaveNo(NatToString(j), ':');
    DigitsHaveNo(NatToString(k), ':');
    DigitsHaveNo(NatToString(j), '.');
    DigitsHaveNo(NatToString(k), '.');
    var jk := [NatToString(j), NatToString(k)];
    assert jk[1..] == [NatToString(k)];
    assert Join(jk, ':') == NatToString(j) + ":" + NatToString(k);
    assert ["1"] + jk == ["1", NatToString(j), NatToString(k)];
    assert Join(["1"] + jk, ':') == "1:" + NatToString(j) + ":" + NatToString(k) by {
      assert (["1"] + jk)[1..] == jk;
    }
    assert Join(["1", "1"] + jk, ':') == "1:1:" + NatToString(j) + ":" + NatToString(k) by {
      assert (["1", "1"] + jk)[1..] == ["1"] + jk;
    }
    assert parts[1..] == ["1", "1"] + jk;
    assert Join(parts, ':') == ComponentEntry(j, k);
    SplitJoin(parts, ':');
    assert DotFree(ComponentEntry(j, k));
    SplitUid(ComponentEntry(j, k), s);
    ParseNatToString(j);
    ParseNatToString(k);
  }

  /** Any uid of root label j has four fields. */
  lemma EntryTargetOfRootLabel(j: nat, s: nat)
    ensures EntryTarget(MakeUid(RootEntry(j), s)) == Ok(Target(1, None))
  {
    var parts := ["0", "1", "1", NatToString(j)];
    DigitsHaveNo(NatToString(j), ':');
    DigitsHaveNo(NatToString(j), '.');
    var lj := ["1", NatToString(j)];
    assert lj[1..] == [NatToString(j)];
    assert Join(lj, ':') == "1:" + NatToString(j);
    assert Join(["1"] + lj, ':') == "1:1:" + NatToString(j) by {
      assert (["1"] + lj)[1..] == lj;
    }
    assert parts[1..] == ["1"] + lj;
    assert Join(parts, ':') == RootEntry(j);
    SplitJoin(parts, ':');
    assert DotFree(RootEntry(j));
    SplitUid(RootEntry(j), s);
  }

  // change_label_name

  /** Component `k` (1-based) of an assembly, renamed. */
  function RenameComponent(l: Label, k: nat, name: string): (r: Label)
    requires l.Assembly? && 1 <= k <= |l.comps|
    ensures r.Assembly? && r.entry == l.entry && r.name == l.name && |r.comps| == |l.comps|
    ensures r.comps[k - 1].name == name && r.comps[k - 1].(name := l.comps[k - 1].name) == l.comps[k - 1]
    ensures forall i :: 0 <= i < |l.comps| && i != k - 1 ==> r.comps[i] == l.comps[i]
  {
    l.(comps := l.comps[k - 1 := l.comps[k - 1].(name := name)])
  }

  /** `change_label_name` as written. Root label `j` and its component `k`
      are looked up by position (out of range is a kernel `RuntimeError`);
      for a uid with four fields `k` is None, which the kernel's `Value`
      rejects with a `TypeError`. */
  function ChangeLabelName(doc: Doc, uid: Uid, name: string): (r: Result<Doc>)
    ensures EntryTarget(uid).Err? ==> r == Err(EntryTarget(uid).error)
    ensures r == Err(TypeError) <==> EntryTarget(uid).Ok? && EntryTarget(uid).value.k.None? && |doc.labels| > 0
    ensures r.Ok? ==> |r.value.labels| == |doc.labels| && r.value.topLoc == doc.topLoc
  {
    match EntryTarget(uid)
    case Err(e) => Err(e)
    case Ok(Target(j, k)) =>
      if !(1 <= j <= |doc.labels|) then Err(RuntimeError)
      else
        var lb := doc.labels[j - 1];
        var comps := ComponentsOf(lb);
        if k.None? then Err(TypeError)
        else if !(1 <= k.value <= |comps|) then Err(RuntimeError)
        else Ok(RelabelDoc(doc, j - 1, RenameComponent(lb, k.value, name)))
  }

  /** `change_label_name` with the four-field case doing what its comment
      says: the uid names root label 1 itself, and that label is renamed. */
  function ChangeLabelNameFixed(doc: Doc, uid: Uid, name: string): (r: Result<Doc>)
    ensures EntryTarget(uid).Err? ==> r == Err(EntryTarget(uid).error)
    ensures r.Err? ==> r.error != TypeError
    ensures r.Ok? ==> |r.value.labels| == |doc.labels| && r.value.topLoc == doc.topLoc
    ensures EntryTarget(uid).Ok? && EntryTarget(uid).value.k.Some? ==> r == ChangeLabelName(doc, uid, name)
  {
    match EntryTarget(uid)
    case Err(e) => Err(e)
    case Ok(Target(j, k)) =>
      if !(1 <= j <= |doc.labels|) then Err(RuntimeError)
      else
        var lb := doc.labels[j - 1];
        var comps := ComponentsOf(lb);
        if k.None? then Ok(RelabelDoc(doc, j - 1, lb.(name := name)))
        else if !(1 <= k.value <= |comps|) then Err(RuntimeError)
        else Ok(RelabelDoc(doc, j - 1, RenameComponent(lb, k.value, name)))
  }

  /** When the component entries of root label j are numbered densely
      (`0:1:1:j:k` for the k-th), any uid of the k-th component renames
      exactly that component, and every copy of the label agrees. */
  lemma ChangeLabelNameRenamesComponent(doc: Doc, j: nat, k: nat, s: nat, name: string)
    requires 1 <= j <= |doc.labels| && doc.labels[j - 1].Assembly?
    requires 1 <= k <= |doc.labels[j - 1].comps|
    requires doc.labels[j - 1].comps[k - 1].entry == ComponentEntry(j, k)
    requires LabelAgrees(RenameComponent(doc.labels[j - 1], k, name), RenameComponent(doc.labels[j - 1], k, name))
    ensures var r := ChangeLabelName(doc, MakeUid(doc.labels[j - 1].comps[k - 1].entry, s), name);
      && r.Ok?
      && r.value.labels[j - 1] == RenameComponent(doc.labels[j - 1], k, name)
      && DocAgrees(r.value, r.value.labels[j - 1])
  {
    EntryTargetOfComponent(j, k, s);
    RelabelDocAgrees(doc, j - 1, RenameComponent(doc.labels[j - 1], k, name));
  }

  /** The document's own top assembly: first root label `0:1:1:1`, whose
      uid is `0:1:1:1.0`. */
  predicate TopIsFirst(doc: Doc) {
    |doc.labels| > 0 && doc.labels[0].entry == RootEntry(1)
  }

  /** As written, renaming the top assembly through the uid `parse_doc`
      gave it always fails. */
  lemma RenameTopAssemblyFails(doc: Doc, name: string)
    requires TopIsFirst(doc)
    ensures ChangeLabelName(doc, RootUid(doc), name) == Err(TypeError)
  {
    EntryTargetOfRootLabel(1, 0);
    assert RootEntry(1) != TopEntry by {
      assert NatToString(1) == "1";
    }
    assert RootUid(doc) == MakeUid(RootEntry(1), 0);
  }

  /** Fixed, the same call renames the top assembly, and every copy of it
      agrees. */
  lemma RenameTopAssemblyFixed(doc: Doc, name: string)
    requires TopIsFirst(doc) && EntriesDotFree(ComponentsOf(doc.labels[0]))
    requires LabelAgrees(doc.labels[0].(name := name), doc.labels[0].(name := name))
    ensures var r := ChangeLabelNameFixed(doc, RootUid(doc), name);
      && r.Ok? && r.value.labels[0] == doc.labels[0].(name := name)
      && DocAgrees(r.value, r.value.labels[0])
      && RootUid(r.value) == RootUid(doc)
  {
    var t := doc.labels[0].(name := name);
    var r := RelabelDoc(doc, 0, t);
    assert ChangeLabelNameFixed(doc, RootUid(doc), name) == Ok(r) by {
      EntryTargetOfRootLabel(1, 0);
      EntryFieldsDiffer(0);
      assert RootUid(doc) == MakeUid(RootEntry(1), 0);
    }
    RelabelDocAgrees(doc, 0, t);
    assert RootUid(r) == RootUid(doc);
  }

  /** ... and the re-parse files the new name in the root record. */
  lemma RenameTopAssemblyShowsInParse(doc: Doc, name: string)
    requires TopIsFirst(doc) && EntriesDotFree(ComponentsOf(doc.labels[0]))
    requires LabelAgrees(doc.labels[0].(name := name), doc.labels[0].(name := name))
    ensures ChangeLabelNameFixed(doc, RootUid(doc), name).Ok?
    ensures var d := ChangeLabelNameFixed(doc, RootUid(doc), name).value;
      RootUid(doc) in ParseDoc(d, true).w.t.uidDict.values && ParseDoc(d, true).w.t.uidDict.values[RootUid(doc)].name == name
  {
    RenameTopAssemblyFixed(doc, name);
    var d := ChangeLabelNameFixed(doc, RootUid(doc), name).value;
    RootRecordName(d);
  }

  /** The re-parse files the first root label's name in the root record. */
  lemma RootRecordName(doc: Doc)
    requires TopIsFirst(doc) && EntriesDotFree(ComponentsOf(doc.labels[0]))
    ensures RootUid(doc) in ParseDoc(doc, true).w.t.uidDict.values
    ensures ParseDoc(doc, true).w.t.uidDict.values[RootUid(doc)].name == doc.labels[0].name
  {
    EntryFieldsDiffer(0);
    ParseDocConsistent(doc, true);
  }

  /** Renaming a component of the top assembly shows in the re-parse: the
      record of its first instance carries the new name. */
  lemma RenameTopComponentShowsInParse(doc: Doc, k: nat, name: string)
    requires TopIsFirst(doc) && doc.labels[0].Assembly?
    requires 1 <= k <= |doc.labels[0].comps|
    requires doc.labels[0].comps[k - 1].entry == ComponentEntry(1, k)
    requires doc.labels[0].comps[k - 1].ref.Some?
    requires doc.labels[0].comps[k - 1].entry !in Visits(doc.labels[0].comps[..k - 1])
    requires EntriesDotFree(doc.labels[0].comps)
    ensures var e := ComponentEntry(1, k);
      var r := ChangeLabelName(doc, MakeUid(e, 0), name);
      && r.Ok?
      && MakeUid(e, 0) in ParseDoc(r.value, true).w.t.uidDict.values
      && ParseDoc(r.value, true).w.t.uidDict.values[MakeUid(e, 0)].name == name
    ensures NoEmptyAssembly(doc.labels[0].comps[..k - 1]) ==>
      var e := ComponentEntry(1, k);
      var r := ChangeLabelName(doc, MakeUid(e, 0), name);
      && r.Ok?
      && MakeUid(e, 0) in ParseDoc(r.value, false).w.t.uidDict.values
      && ParseDoc(r.value, false).w.t.uidDict.values[MakeUid(e, 0)].name == name
  {
    var e := ComponentEntry(1, k);
    EntryTargetOfComponent(1, k, 0);
    var t := RenameComponent(doc.labels[0], k, name);
    var r := RelabelDoc(doc, 0, t);
    assert ChangeLabelName(doc, MakeUid(e, 0), name) == Ok(r);
    assert t.comps[..k - 1] == doc.labels[0].comps[..k - 1];
    assert EntriesDotFree(t.comps) by {
      forall i | 0 <= i < |t.comps|
        ensures ComponentDotFree(t.comps[i])
      {
        assert ComponentDotFree(doc.labels[0].comps[i]);
      }
    }
    EntryFieldsDiffer(k);
    TopComponentRecord(r, k - 1);
  }

  /** A component entry of the top assembly is neither the top assembly's
      entry nor the document root entry, and holds no '.'. */
  lemma EntryFieldsDiffer(k: nat)
    ensures ComponentEntry(1, k) != RootEntry(1) && ComponentEntry(1, k) != TopEntry
    ensures DotFree(RootEntry(1)) && DotFree(ComponentEntry(1, k))
  {
    assert NatToString(1) == "1";
    DigitsHaveNo(NatToString(k), '.');
    assert |ComponentEntry(1, k)| > |RootEntry(1)| > |TopEntry|;
  }

  // replaceShape

  /** `replaceShape`: the part's referred label number is the tag of its
      recorded referred entry; that root label gets the new shape moved
      back by the inverse of the part's location. A missing record is a
      `KeyError`, a record without a referred entry (the root) has no
      `split`, an unreadable tag is a `ValueError` and a label number out
      of range a kernel `RuntimeError`. */
  function ReplaceShape(doc: Doc, t: Tables, uid: Uid, modshape: Shape): (r: Result<Doc>)
    ensures uid !in t.uidDict.values ==> r == Err(KeyError)
    ensures uid in t.uidDict.values && t.uidDict.values[uid].refEntry.None? ==> r == Err(AttributeError)
    ensures r.Ok? ==> uid in t.uidDict.values && uid in t.partDict.values
    ensures r.Ok? ==> |r.value.labels| == |doc.labels| && r.value.topLoc == doc.topLoc
  {
    if uid !in t.uidDict.values then Err(KeyError)
    else
      var refEntry := t.uidDict.values[uid].refEntry;
      if refEntry.None? then Err(AttributeError)
      else
        match TagOf(refEntry.value)
        case None => Err(ValueError)
        case Some(n) =>
          if !(1 <= n <= |doc.labels|) then Err(RuntimeError)
          else if uid !in t.partDict.values then Err(KeyError)
          else
            var lb := doc.labels[n - 1];
            var moved := Moved(modshape, Inverted(t.partDict.values[uid].loc));
            if lb.Simple? then Ok(RelabelDoc(doc, n - 1, lb.(shape := moved)))
            else Ok(doc)
  }

  /** A part recorded with referred entry `prefix:n`, where root label n is
      the simple shape it refers to: the label gets the new shape, moved
      back to the root position, and every reference to it in the document
      is the new label. What a re-parse then files is
      `ReplaceShapeReparsed`. */
  lemma ReplaceShapeUpdatesEveryInstance(doc: Doc, t: Tables, uid: Uid, modshape: Shape, prefix: string, n: nat)
    requires uid in t.uidDict.values && uid in t.partDict.values
    requires t.uidDict.values[uid].refEntry == Some(prefix + ":" + NatToString(n))
    requires 1 <= n <= |doc.labels| && doc.labels[n - 1].Simple?
    ensures var r := ReplaceShape(doc, t, uid, modshape);
      && r.Ok?
      && r.value.labels[n - 1] == doc.labels[n - 1].(shape := Moved(modshape, Inverted(t.partDict.values[uid].loc)))
      && DocAgrees(r.value, r.value.labels[n - 1])
  {
    TagOfChild(prefix, n);
    var lb := doc.labels[n - 1];
    RelabelDocAgrees(doc, n - 1, lb.(shape := Moved(modshape, Inverted(t.partDict.values[uid].loc))));
  }

  /** `p` is an instance of the shape `s`: its shape is `s` placed by one
      location and then by a second, and its location is the product of
      the second and the first. */
  ghost predicate Instance(p: PartRecord, s: Shape) {
    && p.shape.Moved? && p.shape.base.Moved? && p.shape.base.base == s
    && p.loc == Mul(p.shape.place, p.shape.base.place)
  }

  /** Every part filed for a component referring to entry `e` is an
      instance of `s`. */
  ghost predicate InstancesOf(t: Tables, e: string, s: Shape) {
    forall u :: u in t.partDict.values && u in t.uidDict.values && t.uidDict.values[u].refEntry == Some(e) ==>
      Instance(t.partDict.values[u], s)
  }

  /** A walk step over a component whose references to `l.entry` all hold
      the simple label `l` files only instances of `l`'s shape for them. */
  lemma {:induction false} ParseOneInstances(c: Component, w: Walk, l: Label, repaired: bool)
    requires Ready(w) && l.Simple? && CompAgrees(c, l) && InstancesOf(w.t, l.entry, l.shape)
    ensures InstancesOf(ParseOne(c, w, repaired).t, l.entry, l.shape)
    decreases c, 1
  {
    var iss := GetUidFromEntry(w.t.share, c.entry);
    var parent := w.parents[|w.parents| - 1];
    match c.ref
    case None =>
    case Some(ref) =>
      if ref.Simple? {
        var t2 := AddLeaf(w.t.(share := iss.share), iss.uid, c, ref, parent, w.assyLocs);
        assert ParseOne(c, w, repaired).t == t2;
        forall u | u in t2.partDict.values && u in t2.uidDict.values && t2.uidDict.values[u].refEntry == Some(l.entry)
          ensures Instance(t2.partDict.values[u], l.shape)
        {
          if u == iss.uid {
            assert ref == l;
          }
        }
      } else {
        var w2 := Enter(w, iss, c, ref);
        assert ref.entry != l.entry;
        assert InstancesOf(w2.t, l.entry, l.shape);
        AssemblyStep(c, w, repaired);
        if |ref.comps| > 0 || repaired {
          ParseComponentsInstances(ref.comps, w2, l, repaired);
        }
      }
  }

  lemma {:induction false} ParseSeqInstances(comps: seq<Component>, w: Walk, l: Label, repaired: bool)
    requires Ready(w) && l.Simple? && CompsAgree(comps, l) && InstancesOf(w.t, l.entry, l.shape)
    ensures InstancesOf(ParseSeq(comps, w, repaired).t, l.entry, l.shape)
    decreases comps, 0
  {
    if |comps| > 0 {
      ParseOneInstances(comps[0], w, l, repaired);
      assert CompsAgree(comps[1..], l) by {
        forall i | 0 <= i < |comps| - 1
          ensures CompAgrees(comps[1..][i], l)
        {
          assert comps[1..][i] == comps[i + 1];
        }
      }
      ParseSeqInstances(comps[1..], ParseOne(comps[0], w, repaired), l, repaired);
    }
  }

  lemma {:induction false} ParseComponentsInstances(comps: seq<Component>, w: Walk, l: Label, repaired: bool)
    requires Ready(w) && l.Simple? && CompsAgree(comps, l) && InstancesOf(w.t, l.entry, l.shape)
    ensures InstancesOf(ParseComponents(comps, w, repaired).t, l.entry, l.shape)
    decreases comps, 2
  {
    ParseSeqInstances(comps, w, l, repaired);
  }

  /** In a document whose every reference to the simple label `l` holds
      `l`, the parse files every instance of `l` with `l`'s shape. */
  lemma ParseDocInstances(doc: Doc, l: Label, repaired: bool)
    requires l.Simple? && DocAgrees(doc, l)
    ensures InstancesOf(ParseDoc(doc, repaired).w.t, l.entry, l.shape)
  {
    if |doc.labels| > 0 {
      var comps := ComponentsOf(doc.labels[0]);
      assert LabelAgrees(doc.labels[0], l);
      if |comps| > 0 {
        ParseComponentsInstances(comps, RootWalk(doc), l, repaired);
      }
    }
  }

  /** `replaceShape` followed by the `parse_doc` it ends with: every part
      filed for an instance of the replaced label, at any depth, holds the
      new shape, moved back to the root position and then placed by two
      locations whose product is that part's location. */
  lemma ReplaceShapeReparsed(doc: Doc, t: Tables, uid: Uid, modshape: Shape, prefix: string, n: nat, repaired: bool)
    requires uid in t.uidDict.values && uid in t.partDict.values
    requires t.uidDict.values[uid].refEntry == Some(prefix + ":" + NatToString(n))
    requires 1 <= n <= |doc.labels| && doc.labels[n - 1].Simple?
    ensures var r := ReplaceShape(doc, t, uid, modshape);
      && r.Ok?
      && InstancesOf(ParseDoc(r.value, repaired).w.t, doc.labels[n - 1].entry,
                     Moved(modshape, Inverted(t.partDict.values[uid].loc)))
  {
    ReplaceShapeUpdatesEveryInstance(doc, t, uid, modshape, prefix, n);
    var r := ReplaceShape(doc, t, uid, modshape).value;
    ParseDocInstances(r, r.labels[n - 1], repaired);
  }

  // addComponent

  /** What the kernel chooses when a shape is added: the new component's
      entry, and the entry and name of the new root label holding the
      shape. */
  datatype NewLabels = NewLabels(compEntry: string, refEntry: string, refName: string)

  datatype Added = Added(doc: Doc, uid: Uid)

  /** `addComponent`: with no root label it gives up (None); otherwise the
      shape becomes a new root label with the given colour, referred to by a
      new last component of the first root label carrying the given name,
      and the uid returned is the component's entry with serial 0. */
  function AddComponent(doc: Doc, shape: Shape, name: string, color: Color, kernel: NewLabels): (r: Option<Added>)
    ensures r.None? <==> |doc.labels| == 0
    ensures r.Some? ==> r.value.uid == MakeUid(kernel.compEntry, 0)
    ensures r.Some? ==> var d := r.value.doc;
      && |d.labels| == |doc.labels| + 1 && d.topLoc == doc.topLoc
      && d.labels[1..|doc.labels|] == doc.labels[1..]
      && d.labels[|doc.labels|] == Simple(kernel.refEntry, kernel.refName, shape, color)
      && d.labels[0].Assembly? && d.labels[0].entry == doc.labels[0].entry && d.labels[0].name == doc.labels[0].name
      && d.labels[0].comps == ComponentsOf(doc.labels[0]) + [Component(kernel.compEntry, name, Identity, Some(d.labels[|doc.labels|]))]
  {
    if |doc.labels| == 0 then None
    else
      var top := doc.labels[0];
      var ref := Simple(kernel.refEntry, kernel.refName, shape, color);
      var comp := Component(kernel.compEntry, name, Identity, Some(ref));
      assert NatToString(0) == "0";
      Some(Added(Doc([Assembly(top.entry, top.name, ComponentsOf(top) + [comp])] + doc.labels[1..] + [ref], doc.topLoc),
                 kernel.compEntry + ".0"))
  }

  /** The uid `addComponent` returns names the new part in the re-parsed
      tables, provided the kernel's new entry is one the walk had not met
      before: its record carries the given name, sits under the top
      assembly, refers to the new root label and is not an assembly. */
  lemma AddComponentUidNamesNewPart(doc: Doc, shape: Shape, name: string, color: Color, kernel: NewLabels)
    requires |doc.labels| > 0 && DotFree(doc.labels[0].entry)
    requires EntriesDotFree(ComponentsOf(doc.labels[0])) && DotFree(kernel.compEntry)
    requires kernel.compEntry !in Visits(ComponentsOf(doc.labels[0]))
    requires kernel.compEntry != doc.labels[0].entry && kernel.compEntry != TopEntry
    ensures var a := AddComponent(doc, shape, name, color, kernel).value;
      && RootUid(a.doc) == RootUid(doc)
      && a.uid in ParseDoc(a.doc, true).w.t.uidDict.values
      && ParseDoc(a.doc, true).w.t.uidDict.values[a.uid]
         == UidRecord(kernel.compEntry, name, Some(RootUid(doc)), Some(kernel.refEntry), false)
    ensures NoEmptyAssembly(ComponentsOf(doc.labels[0])) ==>
      var a := AddComponent(doc, shape, name, color, kernel).value;
      && a.uid in ParseDoc(a.doc, false).w.t.uidDict.values
      && ParseDoc(a.doc, false).w.t.uidDict.values[a.uid]
         == UidRecord(kernel.compEntry, name, Some(RootUid(doc)), Some(kernel.refEntry), false)
  {
    var a := AddComponent(doc, shape, name, color, kernel).value;
    var before := ComponentsOf(doc.labels[0]);
    var comps := ComponentsOf(a.doc.labels[0]);
    var m := |before|;
    assert comps[..m] == before;
    assert EntriesDotFree(comps) by {
      forall i | 0 <= i < |comps|
        ensures ComponentDotFree(comps[i])
      {
        if i < m {
          assert comps[i] == before[i];
        }
      }
    }
    TopComponentRecord(a.doc, m);
  }
}

=== FILE: docmodel.dfy ===
/** `DocModel.parse_doc` / `parse_components`: the depth-first walk over
    the label tree that rebuilds `uid_dict` (tree-view metadata per uid) and
    `part_dict` (displayable parts per uid), using three stacks for the
    enclosing assemblies' uids, entries and locations. */
module DocModel {
  import opened Wrappers
  import opened Text
  import opened Serial
  import opened OrderedDicts
  import opened LabelTree

  type Uid = string

  /** A `uid_dict` value: 'entry', 'name', 'parent_uid', 'ref_entry', 'is_assy'. */
  datatype UidRecord = UidRecord(entry: string, name: string, parentUid: Option<Uid>, refEntry: Option<string>, isAssy: bool)

  /** A `part_dict` value: 'shape', 'color', 'name', 'loc'. */
  datatype PartRecord = PartRecord(shape: Shape, color: Color, name: string, loc: Loc)

  /** The tables a parse builds: the serial counters and the two dictionaries. */
  datatype Tables = Tables(share: ShareDict, uidDict: Dict<Uid, UidRecord>, partDict: Dict<Uid, PartRecord>) {
    ghost predicate Valid() {
      uidDict.Valid() && partDict.Valid()
    }
  }

  /** The tables together with `parent_uid_stack`, `assy_entry_stack` and
      `assy_loc_stack` (last element = top). */
  datatype Walk = Walk(t: Tables, parents: seq<Uid>, assyEntries: seq<string>, assyLocs: seq<Loc>)

  /** All three stacks are non-empty, so their tops can be read and popped. */
  ghost predicate Ready(w: Walk) {
    w.t.Valid() && |w.parents| >= 1 && |w.assyEntries| >= 1 && |w.assyLocs| >= 1
  }

  /** Each stack of `b` starts with the corresponding stack of `a`. */
  ghost predicate Extends(a: Walk, b: Walk) {
    a.parents <= b.parents && a.assyEntries <= b.assyEntries && a.assyLocs <= b.assyLocs
  }

  ghost predicate SameStacks(a: Walk, b: Walk) {
    a.parents == b.parents && a.assyEntries == b.assyEntries && a.assyLocs == b.assyLocs
  }

  /** The three stacks with their top removed. */
  function Pop(w: Walk): (r: Walk)
    requires |w.parents| >= 1 && |w.assyEntries| >= 1 && |w.assyLocs| >= 1
    ensures r.t == w.t
    ensures r.parents + [w.parents[|w.parents| - 1]] == w.parents
    ensures r.assyEntries + [w.assyEntries[|w.assyEntries| - 1]] == w.assyEntries
    ensures r.assyLocs + [w.assyLocs[|w.assyLocs| - 1]] == w.assyLocs
  {
    Walk(w.t, w.parents[..|w.parents| - 1], w.assyEntries[..|w.assyEntries| - 1], w.assyLocs[..|w.assyLocs| - 1])
  }

  /** The left-to-right product l0 * l1 * ... of a non-empty location list. */
  function Compose(locs: seq<Loc>): Loc
    requires |locs| >= 1
    decreases |locs|
  {
    if |locs| == 1 then locs[0] else Mul(Compose(locs[..|locs| - 1]), locs[|locs| - 1])
  }

  /** Records for a component `c` (uid `uid`) that refers to the simple
      shape `ref`, placed under `parent` by the locations `path`: the
      component shape is moved by their product and the part's location is
      that product times the component's own location. */
  function AddLeaf(t: Tables, uid: Uid, c: Component, ref: Label, parent: Uid, path: seq<Loc>): (r: Tables)
    requires t.Valid() && ref.Simple? && |path| >= 1
    ensures r.Valid() && r.share == t.share
    ensures r.uidDict.values == t.uidDict.values[uid := UidRecord(c.entry, c.name, Some(parent), Some(ref.entry), false)]
    ensures r.partDict.values == t.partDict.values[uid := PartRecord(Moved(ComponentShape(c, ref), Compose(path)), ref.color, c.name, Mul(Compose(path), c.loc))]
  {
    var res := Compose(path);
    t.(uidDict := Put(t.uidDict, uid, UidRecord(c.entry, c.name, Some(parent), Some(ref.entry), false)),
       partDict := Put(t.partDict, uid, PartRecord(Moved(ComponentShape(c, ref), res), ref.color, c.name, Mul(res, c.loc))))
  }

  /** The record for a component `c` (uid `uid`) that refers to the
      assembly `ref`; assemblies get no part. */
  function AddAssembly(t: Tables, uid: Uid, c: Component, ref: Label, parent: Uid): (r: Tables)
    requires t.Valid() && ref.Assembly?
    ensures r.Valid() && r.share == t.share && r.partDict == t.partDict
    ensures r.uidDict.values == t.uidDict.values[uid := UidRecord(c.entry, c.name, Some(parent), Some(ref.entry), true)]
  {
    t.(uidDict := Put(t.uidDict, uid, UidRecord(c.entry, c.name, Some(parent), Some(ref.entry), true)))
  }

  /** Entering the assembly `ref` that component `c` refers to: its record
      (under the current top parent) is filed under the uid just issued, and
      that uid, the assembly's entry and `c`'s location are pushed. */
  function Enter(w: Walk, iss: Issue, c: Component, ref: Label): (r: Walk)
    requires Ready(w) && ref.Assembly?
    ensures Ready(r) && Extends(w, r)
    ensures r.parents == w.parents + [iss.uid]
    ensures r.assyEntries == w.assyEntries + [ref.entry]
    ensures r.assyLocs == w.assyLocs + [c.loc]
    ensures SameStacks(Pop(r), w)
    ensures r.t.share == iss.share && r.t.partDict == w.t.partDict
    ensures r.t.uidDict.values
         == w.t.uidDict.values[iss.uid := UidRecord(c.entry, c.name, Some(w.parents[|w.parents| - 1]), Some(ref.entry), true)]
  {
    Walk(AddAssembly(w.t.(share := iss.share), iss.uid, c, ref, w.parents[|w.parents| - 1]),
         w.parents + [iss.uid], w.assyEntries + [ref.entry], w.assyLocs + [c.loc])
  }

  /** One iteration of the loop in `parse_components`. With `repaired` false
      this is the code as written: a referred assembly with no components is
      pushed on the stacks but never descended into, so nothing pops it. */
  function ParseOne(c: Component, w: Walk, repaired: bool): (r: Walk)
    requires Ready(w)
    ensures Ready(r) && Extends(w, r)
    decreases c, 1
  {
    var iss := GetUidFromEntry(w.t.share, c.entry);
    var t1 := w.t.(share := iss.share);
    var parent := w.parents[|w.parents| - 1];
    match c.ref
    case None => w.(t := t1)
    case Some(ref) =>
      if ref.Simple? then
        w.(t := AddLeaf(t1, iss.uid, c, ref, parent, w.assyLocs))
      else
        var w2 := Enter(w, iss, c, ref);
        if |ref.comps| > 0 || repaired then ParseComponents(ref.comps, w2, repaired) else w2
  }

  /** The loop of `parse_components` over `comps`, before the final pops. */
  function ParseSeq(comps: seq<Component>, w: Walk, repaired: bool): (r: Walk)
    requires Ready(w)
    ensures Ready(r) && Extends(w, r)
    decreases comps, 0
  {
    if |comps| == 0 then w
    else ParseSeq(comps[1..], ParseOne(comps[0], w, repaired), repaired)
  }

  /** `parse_components(comps)`: the loop, then one pop from each stack. */
  function ParseComponents(comps: seq<Component>, w: Walk, repaired: bool): (r: Walk)
    requires Ready(w)
    ensures r.t.Valid() && Extends(Pop(w), r)
    decreases comps, 2
  {
    Pop(ParseSeq(comps, w, repaired))
  }

  /** One step into an assembly component: enter it, then walk its
      components unless the code as written skips an empty one. */
  lemma AssemblyStep(c: Component, w: Walk, repaired: bool)
    requires Ready(w) && c.ref.Some? && c.ref.value.Assembly?
    ensures var w2 := Enter(w, GetUidFromEntry(w.t.share, c.entry), c, c.ref.value);
      ParseOne(c, w, repaired)
        == if |c.ref.value.comps| > 0 || repaired then ParseComponents(c.ref.value.comps, w2, repaired) else w2
  {
  }

  /** What `parse_doc` leaves behind, and whether it raised (an empty
      document has no first root label to read). */
  datatype Parse = Parse(w: Walk, raised: bool)

  /** `parse_doc`: counters reset to the seed, dictionaries emptied, the
      root label recorded as an assembly with no parent, then its components
      parsed (when it has none, the code only prints a complaint). */
  function ParseDoc(doc: Doc, repaired: bool): (r: Parse)
    ensures r.raised <==> |doc.labels| == 0
    ensures r.raised ==> r.w == Walk(Tables(Seed, Empty(), Empty()), [], [TopEntry], [])
    ensures r.w.t.Valid()
  {
    if |doc.labels| == 0 then Parse(Walk(Tables(Seed, Empty(), Empty()), [], [TopEntry], []), true)
    else
      var comps := ComponentsOf(doc.labels[0]);
      if |comps| > 0 then Parse(ParseComponents(comps, RootWalk(doc), repaired), false)
      else Parse(RootWalk(doc), false)
  }

  /** The state once the root label is recorded, before its components:
      fresh counters, the root record alone, the root on every stack. */
  function RootWalk(doc: Doc): (w: Walk)
    requires |doc.labels| > 0
    ensures Ready(w)
  {
    var root := doc.labels[0];
    var iss := GetUidFromEntry(Seed, root.entry);
    Walk(Tables(iss.share, Put(Empty(), iss.uid, UidRecord(root.entry, root.name, None, None, true)), Empty()),
         [iss.uid], [TopEntry, root.entry], [doc.topLoc])
  }

  /** The uid `parse_doc` gives the first root label. */
  function RootUid(doc: Doc): Uid
    requires |doc.labels| > 0
  {
    GetUidFromEntry(Seed, doc.labels[0].entry).uid
  }

  // A reference definition of the walk without stacks: the parent uid and
  // the list of enclosing locations are passed down as arguments.

  function RefOne(c: Component, parent: Uid, path: seq<Loc>, t: Tables): (r: Tables)
    requires t.Valid() && |path| >= 1
    ensures r.Valid()
    decreases c, 1
  {
    var iss := GetUidFromEntry(t.share, c.entry);
    var t1 := t.(share := iss.share);
    match c.ref
    case None => t1
    case Some(ref) =>
      if ref.Simple? then AddLeaf(t1, iss.uid, c, ref, parent, path)
      else RefSeq(ref.comps, iss.uid, path + [c.loc], AddAssembly(t1, iss.uid, c, ref, parent))
  }

  function RefSeq(comps: seq<Component>, parent: Uid, path: seq<Loc>, t: Tables): (r: Tables)
    requires t.Valid() && |path| >= 1
    ensures r.Valid()
    decreases comps, 0
  {
    if |comps| == 0 then t else RefSeq(comps[1..], parent, path, RefOne(comps[0], parent, path, t))
  }

  /** The repaired walk is the reference walk: the top of the parent stack is
      the enclosing component's uid, the location stack is the path of
      enclosing locations, and every stack is back as it was afterwards. */
  lemma {:induction false} ParseOneIsRef(c: Component, w: Walk)
    requires Ready(w)
    ensures ParseOne(c, w, true).t == RefOne(c, w.parents[|w.parents| - 1], w.assyLocs, w.t)
    ensures SameStacks(ParseOne(c, w, true), w)
    decreases c, 2
  {
    var iss := GetUidFromEntry(w.t.share, c.entry);
    var t1 := w.t.(share := iss.share);
    var parent := w.parents[|w.parents| - 1];
    if c.ref.Some? && c.ref.value.Assembly? {
      AssemblyIsRef(c, w);
    } else if c.ref.Some? {
      assert ParseOne(c, w, true) == w.(t := AddLeaf(t1, iss.uid, c, c.ref.value, parent, w.assyLocs));
    } else {
      assert ParseOne(c, w, true) == w.(t := t1);
    }
  }

  lemma {:induction false} AssemblyIsRef(c: Component, w: Walk)
    requires Ready(w) && c.ref.Some? && c.ref.value.Assembly?
    ensures ParseOne(c, w, true).t == RefOne(c, w.parents[|w.parents| - 1], w.assyLocs, w.t)
    ensures SameStacks(ParseOne(c, w, true), w)
    decreases c, 1
  {
    AssemblyStep(c, w, true);
    EnterRefStep(c, w);
    ParseComponentsIsRef(c.ref.value.comps, Enter(w, GetUidFromEntry(w.t.share, c.entry), c, c.ref.value));
  }

  /** The reference walk passes down to an assembly's components what the
      stack walk pushes on entering it. */
  lemma {:induction false} EnterRefStep(c: Component, w: Walk)
    requires Ready(w) && c.ref.Some? && c.ref.value.Assembly?
    ensures var w2 := Enter(w, GetUidFromEntry(w.t.share, c.entry), c, c.ref.value);
      RefOne(c, w.parents[|w.parents| - 1], w.assyLocs, w.t)
        == RefSeq(c.ref.value.comps, w2.parents[|w2.parents| - 1], w2.assyLocs, w2.t)
  {
    var iss := GetUidFromEntry(w.t.share, c.entry);
    var parent := w.parents[|w.parents| - 1];
    RefAssemblyStep(c, parent, w.assyLocs, w.t);
    assert Enter(w, iss, c, c.ref.value).t == AddAssembly(w.t.(share := iss.share), iss.uid, c, c.ref.value, parent);
  }

  /** The reference walk enters an assembly component by recording it and
      walking the assembly's components under it, with its location added. */
  lemma {:induction false} RefAssemblyStep(c: Component, parent: Uid, path: seq<Loc>, t: Tables)
    requires t.Valid() && |path| >= 1 && c.ref.Some? && c.ref.value.Assembly?
    ensures var iss := GetUidFromEntry(t.share, c.entry);
      RefOne(c, parent, path, t)
        == RefSeq(c.ref.value.comps, iss.uid, path + [c.loc], AddAssembly(t.(share := iss.share), iss.uid, c, c.ref.value, parent))
  {
  }

  lemma {:induction false} ParseSeqIsRef(comps: seq<Component>, w: Walk)
    requires Ready(w)
    ensures ParseSeq(comps, w, true).t == RefSeq(comps, w.parents[|w.parents| - 1], w.assyLocs, w.t)
    ensures SameStacks(ParseSeq(comps, w, true), w)
    decreases comps, 0
  {
    if |comps| > 0 {
      var parent := w.parents[|w.parents| - 1];
      var w1 := ParseOne(comps[0], w, true);
      assert w1.t == RefOne(comps[0], parent, w.assyLocs, w.t) && SameStacks(w1, w) by {
        ParseOneIsRef(comps[0], w);
      }
      ParseSeqIsRef(comps[1..], w1);
      BothSeqStep(comps, w);
    }
  }

  lemma {:induction false} ParseSeqStep(comps: seq<Component>, w: Walk, repaired: bool)
    requires Ready(w) && |comps| > 0
    ensures ParseSeq(comps, w, repaired) == ParseSeq(comps[1..], ParseOne(comps[0], w, repaired), repaired)
  {
  }

  /** One step of the stack walk and of the reference walk together. */
  lemma {:induction false} BothSeqStep(comps: seq<Component>, w: Walk)
    requires Ready(w) && |comps| > 0
    ensures ParseSeq(comps, w, true) == ParseSeq(comps[1..], ParseOne(comps[0], w, true), true)
    ensures var parent := w.parents[|w.parents| - 1];
      RefSeq(comps, parent, w.assyLocs, w.t) == RefSeq(comps[1..], parent, w.assyLocs, RefOne(comps[0], parent, w.assyLocs, w.t))
  {
    ParseSeqStep(comps, w, true);
    RefSeqStep(comps, w.parents[|w.parents| - 1], w.assyLocs, w.t);
  }

  lemma {:induction false} RefSeqStep(comps: seq<Component>, parent: Uid, path: seq<Loc>, t: Tables)
    requires t.Valid() && |path| >= 1 && |comps| > 0
    ensures RefSeq(comps, parent, path, t) == RefSeq(comps[1..], parent, path, RefOne(comps[0], parent, path, t))
  {
  }

  lemma {:induction false} ParseComponentsIsRef(comps: seq<Component>, w: Walk)
    requires Ready(w)
    ensures ParseComponents(comps, w, true).t == RefSeq(comps, w.parents[|w.parents| - 1], w.assyLocs, w.t)
    ensures SameStacks(ParseComponents(comps, w, true), Pop(w))
    decreases comps, 2
  {
    ParseSeqIsRef(comps, w);
  }

  /** Without empty sub-assemblies the code as written and the repaired
      walk coincide. */
  lemma {:induction false} ParseOneBalanced(c: Component, w: Walk)
    requires Ready(w) && ComponentNoEmptyAssembly(c)
    ensures ParseOne(c, w, false) == ParseOne(c, w, true)
    decreases c, 1
  {
    match c.ref
    case None =>
    case Some(ref) =>
      if ref.Assembly? {
        var iss := GetUidFromEntry(w.t.share, c.entry);
        var t1 := w.t.(share := iss.share);
        var parent := w.parents[|w.parents| - 1];
        var w2 := Enter(w, iss, c, ref);
        assert ParseOne(c, w, true) == ParseComponents(ref.comps, w2, true);
        assert ParseOne(c, w, false) == ParseComponents(ref.comps, w2, false);
        ParseSeqBalanced(ref.comps, w2);
      }
  }

  lemma {:induction false} ParseSeqBalanced(comps: seq<Component>, w: Walk)
    requires Ready(w) && NoEmptyAssembly(comps)
    ensures ParseSeq(comps, w, false) == ParseSeq(comps, w, true)
    decreases comps, 0
  {
    if |comps| > 0 {
      ParseOneBalanced(comps[0], w);
      assert NoEmptyAssembly(comps[1..]) by {
        forall i | 0 <= i < |comps[1..]|
          ensures ComponentNoEmptyAssembly(comps[1..][i])
        {
          assert comps[1..][i] == comps[i + 1];
        }
      }
      ParseSeqBalanced(comps[1..], ParseOne(comps[0], w, true));
    }
  }

  /** The entries `get_uid_from_entry` is called with during a walk over
      `comps`, in call order: every component, then (for a reference to an
      assembly) the components of that assembly. */
  function Visits(comps: seq<Component>): seq<string>
    decreases comps, 0
  {
    if |comps| == 0 then [] else VisitsOne(comps[0]) + Visits(comps[1..])
  }

  function VisitsOne(c: Component): seq<string>
    decreases c, 1
  {
    if c.ref.Some? && c.ref.value.Assembly? then [c.entry] + Visits(c.ref.value.comps) else [c.entry]
  }

  /** The counters after a walk are those after issuing a uid for every
      visited entry in order, whether or not the walk is repaired. */
  lemma {:induction false} ParseOneShare(c: Component, w: Walk, repaired: bool)
    requires Ready(w)
    ensures ParseOne(c, w, repaired).t.share == IssueAll(w.t.share, VisitsOne(c)).share
    decreases c, 1
  {
    var iss := GetUidFromEntry(w.t.share, c.entry);
    IssueAllCons(w.t.share, VisitsOne(c));
    if c.ref.Some? && c.ref.value.Assembly? {
      var ref := c.ref.value;
      var w2 := Enter(w, iss, c, ref);
      assert VisitsOne(c)[1..] == Visits(ref.comps);
      AssemblyStep(c, w, repaired);
      if |ref.comps| > 0 || repaired {
        ParseSeqShare(ref.comps, w2, repaired);
      }
    } else {
      assert VisitsOne(c)[1..] == [];
      assert ParseOne(c, w, repaired).t.share == iss.share;
    }
  }

  lemma {:induction false} ParseSeqShare(comps: seq<Component>, w: Walk, repaired: bool)
    requires Ready(w)
    ensures ParseSeq(comps, w, repaired).t.share == IssueAll(w.t.share, Visits(comps)).share
    decreases comps, 0
  {
    if |comps| > 0 {
      var w1 := ParseOne(comps[0], w, repaired);
      ParseOneShare(comps[0], w, repaired);
      ParseSeqShare(comps[1..], w1, repaired);
      IssueAllAppend(w.t.share, VisitsOne(comps[0]), Visits(comps[1..]));
    }
  }

  /** The entries `parse_doc` asks uids for: the first root label, then the
      walk over its components. */
  function DocVisits(doc: Doc): seq<string>
    requires |doc.labels| > 0
  {
    [doc.labels[0].entry] + Visits(ComponentsOf(doc.labels[0]))
  }

  /** `parse_doc` leaves exactly the counters of issuing, from the seed, one
      uid per visited entry; when no entry holds a '.', those uids are
      pairwise distinct and none of them was accounted for by the seed. */
  lemma ParseDocShare(doc: Doc, repaired: bool)
    requires |doc.labels| > 0
    ensures ParseDoc(doc, repaired).w.t.share == IssueAll(Seed, DocVisits(doc)).share
  {
    var root := doc.labels[0];
    var comps := ComponentsOf(root);
    IssueAllAppend(Seed, [root.entry], Visits(comps));
    assert [root.entry][1..] == [];
    if |comps| > 0 {
      ParseSeqShare(comps, RootWalk(doc), repaired);
    }
  }

  /** No '.' in any entry the walk visits. */
  predicate VisitsDotFree(entries: seq<string>) {
    forall i :: 0 <= i < |entries| ==> DotFree(entries[i])
  }

  lemma {:induction false} VisitsAreDotFree(comps: seq<Component>)
    requires EntriesDotFree(comps)
    ensures VisitsDotFree(Visits(comps))
    decreases comps, 0
  {
    if |comps| > 0 {
      VisitsOneAreDotFree(comps[0]);
      assert EntriesDotFree(comps[1..]) by {
        forall i | 0 <= i < |comps[1..]|
          ensures ComponentDotFree(comps[1..][i])
        {
          assert comps[1..][i] == comps[i + 1];
        }
      }
      VisitsAreDotFree(comps[1..]);
    }
  }

  lemma {:induction false} VisitsOneAreDotFree(c: Component)
    requires ComponentDotFree(c)
    ensures VisitsDotFree(VisitsOne(c))
    decreases c, 1
  {
    if c.ref.Some? && c.ref.value.Assembly? {
      VisitsAreDotFree(c.ref.value.comps);
    }
  }

  /** With dot-free entries, every uid one parse hands out is distinct. */
  lemma ParseDocUidsDistinct(doc: Doc)
    requires |doc.labels| > 0 && DotFree(doc.labels[0].entry)
    requires EntriesDotFree(ComponentsOf(doc.labels[0]))
    ensures var uids := IssueAll(Seed, DocVisits(doc)).uids;
      forall i, j :: 0 <= i < j < |uids| ==> uids[i] != uids[j]
  {
    var root := doc.labels[0];
    VisitsAreDotFree(ComponentsOf(root));
    var vs := DocVisits(doc);
    forall i | 0 <= i < |vs|
      ensures DotFree(vs[i])
    {
      if i > 0 {
        assert vs[i] == Visits(ComponentsOf(root))[i - 1];
      }
    }
    IssueAllDistinct(Seed, vs);
  }

  type UidMap = map<Uid, UidRecord>
  type PartMap = map<Uid, PartRecord>

  /** `u` has a record marked as an assembly. */
  ghost predicate IsAssyRecord(ud: UidMap, u: Uid) {
    u in ud && ud[u].isAssy
  }

  /** The counters count only dot-free entries and account for every uid
      that has a record, so no uid they issue later can clash with one. */
  ghost predicate Counted(share: ShareDict, ud: UidMap) {
    DotFreeKeys(share) && forall u :: u in ud ==> u in Issued(share)
  }

  /** The parent uid recorded for `u`, None when `u` has no record. */
  function ParentOf(ud: UidMap, u: Uid): Option<Uid> {
    if u in ud then ud[u].parentUid else None
  }

  /** The shape of the records of a parse rooted at `root`: the root is an
      assembly and the only record without a parent; every parent is an
      assembly record; exactly the non-assembly records have a part. */
  ghost predicate RecordsOk(ud: UidMap, pd: PartMap, root: Uid) {
    && IsAssyRecord(ud, root)
    && (forall u :: u in ud ==> (ud[u].parentUid.None? <==> u == root))
    && (forall u :: ParentOf(ud, u).Some? ==> IsAssyRecord(ud, ParentOf(ud, u).value))
    && (forall u :: u in pd <==> u in ud && !ud[u].isAssy)
  }

  /** Every uid on the parent stack is an assembly record. */
  ghost predicate ParentsOk(parents: seq<Uid>, ud: UidMap) {
    forall i :: 0 <= i < |parents| ==> IsAssyRecord(ud, parents[i])
  }

  /** The invariant of the walk. */
  ghost predicate Consistent(w: Walk, root: Uid) {
    && Ready(w) && Counted(w.t.share, w.t.uidDict.values)
    && RecordsOk(w.t.uidDict.values, w.t.partDict.values, root)
    && ParentsOk(w.parents, w.t.uidDict.values)
  }

  /** Every record of `a` is still in `b`, unchanged. */
  ghost predicate Keeps(a: Tables, b: Tables) {
    && (forall u :: u in a.uidDict.values ==> u in b.uidDict.values && b.uidDict.values[u] == a.uidDict.values[u])
    && (forall u :: u in a.partDict.values ==> u in b.partDict.values && b.partDict.values[u] == a.partDict.values[u])
  }

  lemma {:induction false} KeepsTrans(a: Tables, b: Tables, c: Tables)
    requires Keeps(a, b) && Keeps(b, c)
    ensures Keeps(a, c)
  {
  }

  lemma {:induction false} ParentsOkPush(ps: seq<Uid>, a: UidMap, uid: Uid, rec: UidRecord)
    requires ParentsOk(ps, a) && uid !in a && rec.isAssy
    ensures ParentsOk(ps + [uid], a[uid := rec])
  {
    forall i | 0 <= i < |ps + [uid]|
      ensures IsAssyRecord(a[uid := rec], (ps + [uid])[i])
    {
      if i < |ps| {
        assert (ps + [uid])[i] == ps[i];
        assert IsAssyRecord(a, ps[i]);
      }
    }
  }

  lemma {:induction false} ParentsOkPut(ps: seq<Uid>, a: UidMap, uid: Uid, rec: UidRecord)
    requires ParentsOk(ps, a) && uid !in a
    ensures ParentsOk(ps, a[uid := rec])
  {
    forall i | 0 <= i < |ps|
      ensures IsAssyRecord(a[uid := rec], ps[i])
    {
      assert IsAssyRecord(a, ps[i]);
    }
  }

  lemma {:induction false} ParentsOkPrefix(ps: seq<Uid>, qs: seq<Uid>, ud: UidMap)
    requires ParentsOk(qs, ud) && ps <= qs
    ensures ParentsOk(ps, ud)
  {
    forall i | 0 <= i < |ps|
      ensures IsAssyRecord(ud, ps[i])
    {
      assert ps[i] == qs[i];
    }
  }

  /** Taking a uid from the counters: it has no record yet, and afterwards
      the counters account for it and everything they did before. */
  lemma {:induction false} TakeUid(share: ShareDict, ud: UidMap, entry: string)
    requires Counted(share, ud) && DotFree(entry)
    ensures var iss := GetUidFromEntry(share, entry);
      && Counted(iss.share, ud)
      && iss.uid !in ud
      && iss.uid in Issued(iss.share)
  {
    GetUidIsFresh(share, entry);
  }

  /** Filing a record under a uid with no record yet, below an existing
      assembly record, with a part exactly when it is not an assembly. */
  lemma {:induction false} PutRecord(ud: UidMap, pd: PartMap, root: Uid, uid: Uid, rec: UidRecord, part: Option<PartRecord>)
    requires RecordsOk(ud, pd, root) && uid !in ud
    requires rec.parentUid.Some? && IsAssyRecord(ud, rec.parentUid.value)
    requires part.Some? <==> !rec.isAssy
    ensures RecordsOk(ud[uid := rec], if part.Some? then pd[uid := part.value] else pd, root)
  {
    var u2 := ud[uid := rec];
    var p2 := if part.Some? then pd[uid := part.value] else pd;
    assert uid !in pd;
    assert IsAssyRecord(u2, root);
    forall u | u in u2
      ensures u2[u].parentUid.None? <==> u == root
    {
      if u != uid {
        assert u2[u] == ud[u];
      }
    }
    forall u | ParentOf(u2, u).Some?
      ensures IsAssyRecord(u2, ParentOf(u2, u).value)
    {
      if u != uid {
        assert ParentOf(u2, u) == ParentOf(ud, u);
      }
    }
  }

  lemma {:induction false} LeafConsistent(w: Walk, root: Uid, c: Component, ref: Label)
    requires Consistent(w, root) && ref.Simple? && DotFree(c.entry)
    ensures var iss := GetUidFromEntry(w.t.share, c.entry);
      var r := w.(t := AddLeaf(w.t.(share := iss.share), iss.uid, c, ref, w.parents[|w.parents| - 1], w.assyLocs));
      Consistent(r, root) && Keeps(w.t, r.t)
  {
    var iss := GetUidFromEntry(w.t.share, c.entry);
    var ud := w.t.uidDict.values;
    var pd := w.t.partDict.values;
    var parent := w.parents[|w.parents| - 1];
    var rec := UidRecord(c.entry, c.name, Some(parent), Some(ref.entry), false);
    var part := PartRecord(Moved(ComponentShape(c, ref), Compose(w.assyLocs)), ref.color, c.name, Mul(Compose(w.assyLocs), c.loc));
    var t2 := AddLeaf(w.t.(share := iss.share), iss.uid, c, ref, parent, w.assyLocs);
    assert t2.uidDict.values == ud[iss.uid := rec] && t2.partDict.values == pd[iss.uid := part];
    TakeUid(w.t.share, ud, c.entry);
    assert IsAssyRecord(ud, parent);
    PutRecord(ud, pd, root, iss.uid, rec, Some(part));
    ParentsOkPut(w.parents, ud, iss.uid, rec);
    CountedPut(iss.share, ud, iss.uid, rec);
  }

  lemma {:induction false} AssemblyConsistent(w: Walk, root: Uid, c: Component, ref: Label)
    requires Consistent(w, root) && ref.Assembly? && DotFree(c.entry)
    ensures var iss := GetUidFromEntry(w.t.share, c.entry);
      var r := Enter(w, iss, c, ref);
      Consistent(r, root) && Keeps(w.t, r.t)
  {
    var iss := GetUidFromEntry(w.t.share, c.entry);
    var r := Enter(w, iss, c, ref);
    assert iss.uid !in w.t.uidDict.values && Counted(r.t.share, r.t.uidDict.values) by {
      EnterCounted(w, c, ref);
    }
    assert RecordsOk(r.t.uidDict.values, r.t.partDict.values, root) && Keeps(w.t, r.t) by {
      EnterRecordsOk(w, root, iss, c, ref);
      EnterKeeps(w, iss, c, ref);
    }
    assert ParentsOk(r.parents, r.t.uidDict.values) by {
      EnterParentsOk(w, iss, c, ref);
    }
  }

  lemma {:induction false} EnterCounted(w: Walk, c: Component, ref: Label)
    requires Ready(w) && Counted(w.t.share, w.t.uidDict.values) && ref.Assembly? && DotFree(c.entry)
    ensures var iss := GetUidFromEntry(w.t.share, c.entry);
      iss.uid !in w.t.uidDict.values && Counted(Enter(w, iss, c, ref).t.share, Enter(w, iss, c, ref).t.uidDict.values)
  {
    var iss := GetUidFromEntry(w.t.share, c.entry);
    TakeUid(w.t.share, w.t.uidDict.values, c.entry);
    CountedPut(iss.share, w.t.uidDict.values, iss.uid,
               UidRecord(c.entry, c.name, Some(w.parents[|w.parents| - 1]), Some(ref.entry), true));
  }

  lemma {:induction false} EnterRecordsOk(w: Walk, root: Uid, iss: Issue, c: Component, ref: Label)
    requires Ready(w) && RecordsOk(w.t.uidDict.values, w.t.partDict.values, root) && ref.Assembly?
    requires iss.uid !in w.t.uidDict.values && IsAssyRecord(w.t.uidDict.values, w.parents[|w.parents| - 1])
    ensures RecordsOk(Enter(w, iss, c, ref).t.uidDict.values, Enter(w, iss, c, ref).t.partDict.values, root)
  {
    var rec := UidRecord(c.entry, c.name, Some(w.parents[|w.parents| - 1]), Some(ref.entry), true);
    PutRecord(w.t.uidDict.values, w.t.partDict.values, root, iss.uid, rec, None);
    RecordsOkSame(w.t.uidDict.values[iss.uid := rec], w.t.partDict.values,
                  Enter(w, iss, c, ref).t.uidDict.values, Enter(w, iss, c, ref).t.partDict.values, root);
  }

  lemma {:induction false} RecordsOkSame(ud: UidMap, pd: PartMap, ud2: UidMap, pd2: PartMap, root: Uid)
    requires RecordsOk(ud, pd, root) && ud == ud2 && pd == pd2
    ensures RecordsOk(ud2, pd2, root)
  {
  }

  lemma {:induction false} EnterKeeps(w: Walk, iss: Issue, c: Component, ref: Label)
    requires Ready(w) && ref.Assembly? && iss.uid !in w.t.uidDict.values
    ensures Keeps(w.t, Enter(w, iss, c, ref).t)
  {
  }

  lemma {:induction false} EnterParentsOk(w: Walk, iss: Issue, c: Component, ref: Label)
    requires Ready(w) && ParentsOk(w.parents, w.t.uidDict.values) && ref.Assembly?
    requires iss.uid !in w.t.uidDict.values
    ensures ParentsOk(Enter(w, iss, c, ref).parents, Enter(w, iss, c, ref).t.uidDict.values)
  {
    ParentsOkPush(w.parents, w.t.uidDict.values, iss.uid,
                  UidRecord(c.entry, c.name, Some(w.parents[|w.parents| - 1]), Some(ref.entry), true));
  }

  lemma {:induction false} CountedPut(share: ShareDict, ud: UidMap, uid: Uid, rec: UidRecord)
    requires Counted(share, ud) && uid in Issued(share)
    ensures Counted(share, ud[uid := rec])
  {
  }

  /** Each step of the walk, as written or repaired, keeps the tables
      consistent and never changes or drops an earlier record. */
  lemma {:induction false} ParseOneConsistent(c: Component, w: Walk, root: Uid, repaired: bool)
    requires Consistent(w, root) && ComponentDotFree(c)
    ensures Consistent(ParseOne(c, w, repaired), root) && Keeps(w.t, ParseOne(c, w, repaired).t)
    decreases c, 1
  {
    if c.ref.Some? && c.ref.value.Assembly? {
      ParseOneAssemblyConsistent(c, w, root, repaired);
    } else {
      ParseOneLeafConsistent(c, w, root, repaired);
    }
  }

  lemma {:induction false} ParseOneAssemblyConsistent(c: Component, w: Walk, root: Uid, repaired: bool)
    requires Consistent(w, root) && ComponentDotFree(c)
    requires c.ref.Some? && c.ref.value.Assembly?
    ensures Consistent(ParseOne(c, w, repaired), root) && Keeps(w.t, ParseOne(c, w, repaired).t)
    decreases c, 0
  {
    var iss := GetUidFromEntry(w.t.share, c.entry);
    var ref := c.ref.value;
    var w2 := Enter(w, iss, c, ref);
    AssemblyConsistent(w, root, c, ref);
    AssemblyStep(c, w, repaired);
    if |ref.comps| > 0 || repaired {
      var r := ParseComponents(ref.comps, w2, repaired);
      ParseComponentsConsistent(ref.comps, w2, root, repaired);
      KeepsTrans(w.t, w2.t, r.t);
    }
  }

  lemma {:induction false} ParseOneLeafConsistent(c: Component, w: Walk, root: Uid, repaired: bool)
    requires Consistent(w, root) && DotFree(c.entry)
    requires !(c.ref.Some? && c.ref.value.Assembly?)
    ensures Consistent(ParseOne(c, w, repaired), root) && Keeps(w.t, ParseOne(c, w, repaired).t)
  {
    var iss := GetUidFromEntry(w.t.share, c.entry);
    if c.ref.Some? {
      assert ParseOne(c, w, repaired)
        == w.(t := AddLeaf(w.t.(share := iss.share), iss.uid, c, c.ref.value, w.parents[|w.parents| - 1], w.assyLocs));
      LeafConsistent(w, root, c, c.ref.value);
    } else {
      assert ParseOne(c, w, repaired) == w.(t := w.t.(share := iss.share));
      TakeUid(w.t.share, w.t.uidDict.values, c.entry);
    }
  }

  lemma {:induction false} ParseSeqConsistent(comps: seq<Component>, w: Walk, root: Uid, repaired: bool)
    requires Consistent(w, root) && EntriesDotFree(comps)
    ensures Consistent(ParseSeq(comps, w, repaired), root) && Keeps(w.t, ParseSeq(comps, w, repaired).t)
    decreases comps, 0
  {
    if |comps| > 0 {
      var w1 := ParseOne(comps[0], w, repaired);
      ParseOneConsistent(comps[0], w, root, repaired);
      assert EntriesDotFree(comps[1..]) by {
        forall i | 0 <= i < |comps[1..]|
          ensures ComponentDotFree(comps[1..][i])
        {
          assert comps[1..][i] == comps[i + 1];
        }
      }
      ParseSeqConsistent(comps[1..], w1, root, repaired);
      KeepsTrans(w.t, w1.t, ParseSeq(comps[1..], w1, repaired).t);
    }
  }

  lemma {:induction false} ParseComponentsConsistent(comps: seq<Component>, w: Walk, root: Uid, repaired: bool)
    requires Consistent(w, root) && EntriesDotFree(comps)
    ensures var r := ParseComponents(comps, w, repaired);
      && Counted(r.t.share, r.t.uidDict.values)
      && RecordsOk(r.t.uidDict.values, r.t.partDict.values, root) && Keeps(w.t, r.t)
      && ParentsOk(r.parents, r.t.uidDict.values)
    ensures |w.parents| >= 2 && |w.assyEntries| >= 2 && |w.assyLocs| >= 2 ==>
      Consistent(ParseComponents(comps, w, repaired), root)
    decreases comps, 2
  {
    var s := ParseSeq(comps, w, repaired);
    ParseSeqConsistent(comps, w, root, repaired);
    var r := Pop(s);
    assert r.parents <= s.parents;
    ParentsOkPrefix(r.parents, s.parents, s.t.uidDict.values);
  }

  // The parent links have no cycle: a record is always filed after its parent.

  /** Every record's parent was filed before it, so following parent links
      moves strictly towards the front of `uid_dict`'s key order and can
      never come back to a record already passed. */
  ghost predicate ParentsFirst(d: Dict<Uid, UidRecord>) {
    forall i :: 0 <= i < |d.keys| ==> ParentBefore(d, i)
  }

  /** The parent of the `i`-th key, if any, is an earlier key. */
  ghost predicate ParentBefore(d: Dict<Uid, UidRecord>, i: int) {
    forall j :: 0 <= i < |d.keys| && 0 <= j < |d.keys| && ParentOf(d.values, d.keys[i]) == Some(d.keys[j]) ==> j < i
  }

  /** Every parent named by a record has a record itself. */
  ghost predicate ParentsKnown(ud: UidMap) {
    forall u :: ParentOf(ud, u).Some? ==> ParentOf(ud, u).value in ud
  }

  /** Filing a new record under a parent that already has one keeps every
      parent in front of its child. */
  lemma {:induction false} PutParentsFirst(d: Dict<Uid, UidRecord>, uid: Uid, rec: UidRecord)
    requires d.Valid() && ParentsFirst(d) && ParentsKnown(d.values) && uid !in d.values
    requires rec.parentUid.Some? && rec.parentUid.value in d.values
    ensures ParentsFirst(Put(d, uid, rec))
  {
    var r := Put(d, uid, rec);
    var n := |d.keys|;
    assert r.keys == d.keys + [uid];
    forall i | 0 <= i < |r.keys|
      ensures ParentBefore(r, i)
    {
      forall j | 0 <= j < |r.keys| && ParentOf(r.values, r.keys[i]) == Some(r.keys[j])
        ensures j < i
      {
        if i < n {
          assert r.keys[i] == d.keys[i] && d.keys[i] in d.values;
          assert ParentOf(r.values, d.keys[i]) == ParentOf(d.values, d.keys[i]);
          if j == n {
            assert false;
          }
          assert r.keys[j] == d.keys[j];
          assert ParentBefore(d, i);
        } else if j == n {
          assert false;
        }
      }
    }
  }

  /** One step of the walk files each new record under the top of the
      parent stack, which already has a record. */
  lemma {:induction false} ParseOneFirst(c: Component, w: Walk, root: Uid, repaired: bool)
    requires Consistent(w, root) && ComponentDotFree(c) && ParentsFirst(w.t.uidDict)
    ensures ParentsFirst(ParseOne(c, w, repaired).t.uidDict)
    decreases c, 2
  {
    if c.ref.Some? && c.ref.value.Assembly? {
      AssemblyFirst(c, w, root, repaired);
    } else {
      assert IsAssyRecord(w.t.uidDict.values, w.parents[|w.parents| - 1]);
      assert ParentsKnown(w.t.uidDict.values);
      TakeUid(w.t.share, w.t.uidDict.values, c.entry);
      LeafFirst(c, w, repaired);
    }
  }

  /** A step over a component that is not an assembly files at most one
      record, under the top of the parent stack. */
  lemma {:induction false} LeafFirst(c: Component, w: Walk, repaired: bool)
    requires Ready(w) && ParentsFirst(w.t.uidDict) && ParentsKnown(w.t.uidDict.values)
    requires GetUidFromEntry(w.t.share, c.entry).uid !in w.t.uidDict.values
    requires w.parents[|w.parents| - 1] in w.t.uidDict.values
    requires !(c.ref.Some? && c.ref.value.Assembly?)
    ensures ParentsFirst(ParseOne(c, w, repaired).t.uidDict)
  {
    var uid := GetUidFromEntry(w.t.share, c.entry).uid;
    LeafUids(c, w, repaired);
    if c.ref.Some? {
      PutParentsFirst(w.t.uidDict, uid, UidRecord(c.entry, c.name, Some(w.parents[|w.parents| - 1]), Some(c.ref.value.entry), false));
    }
  }

  /** The uid table after a step over a component that is not an
      assembly: one record more when it refers to a label. */
  lemma {:induction false} LeafUids(c: Component, w: Walk, repaired: bool)
    requires Ready(w) && !(c.ref.Some? && c.ref.value.Assembly?)
    ensures ParseOne(c, w, repaired).t.uidDict
         == if c.ref.Some?
            then Put(w.t.uidDict, GetUidFromEntry(w.t.share, c.entry).uid,
                     UidRecord(c.entry, c.name, Some(w.parents[|w.parents| - 1]), Some(c.ref.value.entry), false))
            else w.t.uidDict
  {
  }

  /** Entering an assembly files its record under the top of the parent
      stack. */
  lemma {:induction false} EnterFirst(c: Component, w: Walk)
    requires Ready(w) && ParentsFirst(w.t.uidDict) && ParentsKnown(w.t.uidDict.values)
    requires GetUidFromEntry(w.t.share, c.entry).uid !in w.t.uidDict.values
    requires w.parents[|w.parents| - 1] in w.t.uidDict.values
    requires c.ref.Some? && c.ref.value.Assembly?
    ensures ParentsFirst(Enter(w, GetUidFromEntry(w.t.share, c.entry), c, c.ref.value).t.uidDict)
  {
    var iss := GetUidFromEntry(w.t.share, c.entry);
    var rec := UidRecord(c.entry, c.name, Some(w.parents[|w.parents| - 1]), Some(c.ref.value.entry), true);
    EnterUids(w, iss, c, c.ref.value);
    PutParentsFirst(w.t.uidDict, iss.uid, rec);
  }

  /** Entering an assembly puts exactly its record into the uid table. */
  lemma {:induction false} EnterUids(w: Walk, iss: Issue, c: Component, ref: Label)
    requires Ready(w) && ref.Assembly?
    ensures Enter(w, iss, c, ref).t.uidDict
         == Put(w.t.uidDict, iss.uid, UidRecord(c.entry, c.name, Some(w.parents[|w.parents| - 1]), Some(ref.entry), true))
  {
  }

  lemma {:induction false} AssemblyFirst(c: Component, w: Walk, root: Uid, repaired: bool)
    requires Consistent(w, root) && ComponentDotFree(c) && ParentsFirst(w.t.uidDict)
    requires c.ref.Some? && c.ref.value.Assembly?
    ensures ParentsFirst(ParseOne(c, w, repaired).t.uidDict)
    decreases c, 1
  {
    var ref := c.ref.value;
    var w2 := Enter(w, GetUidFromEntry(w.t.share, c.entry), c, ref);
    assert ParentsFirst(w2.t.uidDict) by {
      assert IsAssyRecord(w.t.uidDict.values, w.parents[|w.parents| - 1]);
      assert ParentsKnown(w.t.uidDict.values);
      TakeUid(w.t.share, w.t.uidDict.values, c.entry);
      EnterFirst(c, w);
    }
    assert Consistent(w2, root) by {
      AssemblyConsistent(w, root, c, ref);
    }
    AssemblyStep(c, w, repaired);
    if |ref.comps| > 0 || repaired {
      ParseComponentsFirst(ref.comps, w2, root, repaired);
    }
  }

  lemma {:induction false} ParseSeqFirst(comps: seq<Component>, w: Walk, root: Uid, repaired: bool)
    requires Consistent(w, root) && EntriesDotFree(comps) && ParentsFirst(w.t.uidDict)
    ensures ParentsFirst(ParseSeq(comps, w, repaired).t.uidDict)
    decreases comps, 0
  {
    if |comps| > 0 {
      var w1 := ParseOne(comps[0], w, repaired);
      assert ParentsFirst(w1.t.uidDict) && Consistent(w1, root) by {
        OneFirst(comps[0], w, root, repaired);
      }
      assert EntriesDotFree(comps[1..]) by {
        EntriesDotFreeSlice(comps, 1, |comps|);
        assert comps[1..|comps|] == comps[1..];
      }
      ParseSeqFirst(comps[1..], w1, root, repaired);
      ParseSeqStep(comps, w, repaired);
    }
  }

  /** One step keeps both the walk invariant and parents first. */
  lemma {:induction false} OneFirst(c: Component, w: Walk, root: Uid, repaired: bool)
    requires Consistent(w, root) && ComponentDotFree(c) && ParentsFirst(w.t.uidDict)
    ensures ParentsFirst(ParseOne(c, w, repaired).t.uidDict) && Consistent(ParseOne(c, w, repaired), root)
    decreases c, 3
  {
    ParseOneFirst(c, w, root, repaired);
    ParseOneConsistent(c, w, root, repaired);
  }

  lemma {:induction false} ParseComponentsFirst(comps: seq<Component>, w: Walk, root: Uid, repaired: bool)
    requires Consistent(w, root) && EntriesDotFree(comps) && ParentsFirst(w.t.uidDict)
    ensures ParentsFirst(ParseComponents(comps, w, repaired).t.uidDict)
    decreases comps, 2
  {
    ParseSeqFirst(comps, w, root, repaired);
  }

  /** The record `parse_doc` files for the first root label. */
  function RootRecord(doc: Doc): UidRecord
    requires |doc.labels| > 0
  {
    UidRecord(doc.labels[0].entry, doc.labels[0].name, None, None, true)
  }

  lemma {:induction false} RootWalkConsistent(doc: Doc)
    requires |doc.labels| > 0 && DotFree(doc.labels[0].entry)
    ensures Consistent(RootWalk(doc), RootUid(doc))
    ensures RootWalk(doc).t.uidDict.values == map[RootUid(doc) := RootRecord(doc)]
    ensures RootWalk(doc).t.partDict.values == map[]
    ensures RootWalk(doc).t.share == Seed[doc.labels[0].entry := NextSerial(Seed, doc.labels[0].entry)]
  {
    assert DotFreeKeys(Seed);
    GetUidIsFresh(Seed, doc.labels[0].entry);
    var w := RootWalk(doc);
    assert w.parents == [RootUid(doc)];
  }

  /** What a parse of a document with a root label and dot-free entries
      leaves behind, as written or repaired: the root label's record is
      there, unchanged, with no parent and marked as an assembly; it is the
      only record without a parent; every other record's parent is an
      assembly record; exactly the records that are not assemblies have a
      part; and every recorded uid is one the counters account for. */
  lemma ParseDocConsistent(doc: Doc, repaired: bool)
    requires |doc.labels| > 0 && DotFree(doc.labels[0].entry)
    requires EntriesDotFree(ComponentsOf(doc.labels[0]))
    ensures var t := ParseDoc(doc, repaired).w.t;
      && RootUid(doc) in t.uidDict.values && t.uidDict.values[RootUid(doc)] == RootRecord(doc)
      && RecordsOk(t.uidDict.values, t.partDict.values, RootUid(doc))
      && ParentsFirst(t.uidDict)
      && Counted(t.share, t.uidDict.values)
  {
    RootWalkConsistent(doc);
    var w0 := RootWalk(doc);
    assert ParentsFirst(w0.t.uidDict) by {
      assert w0.t.uidDict.keys == [RootUid(doc)];
    }
    var comps := ComponentsOf(doc.labels[0]);
    if |comps| > 0 {
      ParseComponentsConsistent(comps, w0, RootUid(doc), repaired);
      ParseComponentsFirst(comps, w0, RootUid(doc), repaired);
    }
  }

  /** Walking `a + b` is walking `a`, then `b` from where `a` stopped. */
  lemma {:induction false} ParseSeqAppend(a: seq<Component>, b: seq<Component>, w: Walk, repaired: bool)
    requires Ready(w)
    ensures ParseSeq(a + b, w, repaired) == ParseSeq(b, ParseSeq(a, w, repaired), repaired)
    decreases |a|
  {
    if |a| == 0 {
      assert a + b == b;
    } else {
      assert (a + b)[0] == a[0];
      assert (a + b)[1..] == a[1..] + b;
      ParseSeqAppend(a[1..], b, ParseOne(a[0], w, repaired), repaired);
    }
  }

  /** The record one step files for a component that refers to a label:
      under the uid the counters issue for its entry, with the current
      parent, and marked as an assembly exactly when the referred label is
      one. The steps after it leave that record alone. */
  lemma {:induction false} ParseOneRecord(c: Component, w: Walk, root: Uid, repaired: bool)
    requires Consistent(w, root) && ComponentDotFree(c) && c.ref.Some?
    ensures var u := GetUidFromEntry(w.t.share, c.entry).uid;
      var ud := ParseOne(c, w, repaired).t.uidDict.values;
      && u in ud
      && ud[u] == UidRecord(c.entry, c.name, Some(w.parents[|w.parents| - 1]), Some(c.ref.value.entry), c.ref.value.Assembly?)
  {
    if c.ref.value.Assembly? {
      AssemblyRecord(c, w, root, repaired);
    } else {
      LeafRecord(c, w, repaired);
    }
  }

  lemma {:induction false} LeafRecord(c: Component, w: Walk, repaired: bool)
    requires Ready(w) && c.ref.Some? && c.ref.value.Simple?
    ensures var u := GetUidFromEntry(w.t.share, c.entry).uid;
      var ud := ParseOne(c, w, repaired).t.uidDict.values;
      && u in ud
      && ud[u] == UidRecord(c.entry, c.name, Some(w.parents[|w.parents| - 1]), Some(c.ref.value.entry), false)
  {
    var iss := GetUidFromEntry(w.t.share, c.entry);
    assert ParseOne(c, w, repaired)
      == w.(t := AddLeaf(w.t.(share := iss.share), iss.uid, c, c.ref.value, w.parents[|w.parents| - 1], w.assyLocs));
  }

  lemma {:induction false} AssemblyRecord(c: Component, w: Walk, root: Uid, repaired: bool)
    requires Consistent(w, root) && ComponentDotFree(c) && c.ref.Some? && c.ref.value.Assembly?
    ensures var u := GetUidFromEntry(w.t.share, c.entry).uid;
      var ud := ParseOne(c, w, repaired).t.uidDict.values;
      && u in ud
      && ud[u] == UidRecord(c.entry, c.name, Some(w.parents[|w.parents| - 1]), Some(c.ref.value.entry), true)
  {
    var iss := GetUidFromEntry(w.t.share, c.entry);
    var rec := UidRecord(c.entry, c.name, Some(w.parents[|w.parents| - 1]), Some(c.ref.value.entry), true);
    assert Enter(w, iss, c, c.ref.value).t.uidDict.values[iss.uid] == rec;
    EnteredRecordKept(c, w, root, repaired);
  }

  /** The record filed on entering an assembly component survives the walk
      over the assembly's components. */
  lemma {:induction false} EnteredRecordKept(c: Component, w: Walk, root: Uid, repaired: bool)
    requires Consistent(w, root) && ComponentDotFree(c) && c.ref.Some? && c.ref.value.Assembly?
    ensures var iss := GetUidFromEntry(w.t.share, c.entry);
      var a := Enter(w, iss, c, c.ref.value).t.uidDict.values;
      var b := ParseOne(c, w, repaired).t.uidDict.values;
      iss.uid in a && iss.uid in b && b[iss.uid] == a[iss.uid]
  {
    var iss := GetUidFromEntry(w.t.share, c.entry);
    EnteredKeeps(c, w, root, repaired);
    KeepsRecord(Enter(w, iss, c, c.ref.value).t, ParseOne(c, w, repaired).t, iss.uid);
  }

  lemma {:induction false} KeepsRecord(a: Tables, b: Tables, u: Uid)
    requires Keeps(a, b) && u in a.uidDict.values
    ensures u in b.uidDict.values && b.uidDict.values[u] == a.uidDict.values[u]
  {
  }

  lemma {:induction false} EnteredKeeps(c: Component, w: Walk, root: Uid, repaired: bool)
    requires Consistent(w, root) && ComponentDotFree(c) && c.ref.Some? && c.ref.value.Assembly?
    ensures Keeps(Enter(w, GetUidFromEntry(w.t.share, c.entry), c, c.ref.value).t, ParseOne(c, w, repaired).t)
  {
    var iss := GetUidFromEntry(w.t.share, c.entry);
    var ref := c.ref.value;
    var w2 := Enter(w, iss, c, ref);
    AssemblyConsistent(w, root, c, ref);
    AssemblyStep(c, w, repaired);
    if |ref.comps| > 0 || repaired {
      ParseComponentsConsistent(ref.comps, w2, root, repaired);
    }
  }

  /** The `m`-th component of the first root label, when its entry was not
      visited before it in the walk, is recorded under its entry with serial
      0, with the root as parent: the uid `addComponent` returns for a
      component it has just added. This holds for the repaired walk, and for
      the walk as written when no empty sub-assembly comes before the
      component: an earlier empty one changes the parent. */
  lemma TopComponentRecord(doc: Doc, m: nat)
    requires |doc.labels| > 0 && DotFree(doc.labels[0].entry)
    requires EntriesDotFree(ComponentsOf(doc.labels[0]))
    requires m < |ComponentsOf(doc.labels[0])|
    requires var comps := ComponentsOf(doc.labels[0]);
      && comps[m].ref.Some?
      && comps[m].entry !in Visits(comps[..m])
      && comps[m].entry != doc.labels[0].entry && comps[m].entry != TopEntry
    ensures var c := ComponentsOf(doc.labels[0])[m];
      var u := MakeUid(c.entry, 0);
      var ud := ParseDoc(doc, true).w.t.uidDict.values;
      && u in ud
      && ud[u] == UidRecord(c.entry, c.name, Some(RootUid(doc)), Some(c.ref.value.entry), c.ref.value.Assembly?)
    ensures NoEmptyAssembly(ComponentsOf(doc.labels[0])[..m]) ==>
      var c := ComponentsOf(doc.labels[0])[m];
      var u := MakeUid(c.entry, 0);
      var ud := ParseDoc(doc, false).w.t.uidDict.values;
      && u in ud
      && ud[u] == UidRecord(c.entry, c.name, Some(RootUid(doc)), Some(c.ref.value.entry), c.ref.value.Assembly?)
  {
    TopRecordSurvives(doc, m, true);
    TopSplit(doc, m);
    if NoEmptyAssembly(ComponentsOf(doc.labels[0])[..m]) {
      TopRecordSurvives(doc, m, false);
      TopSplitAsWritten(doc, m);
    }
  }

  /** The record one step files survives the steps over `rest` after it. */
  lemma {:induction false} RecordSurvives(c: Component, w: Walk, rest: seq<Component>, root: Uid, u: Uid, parent: Uid, repaired: bool)
    requires Consistent(w, root) && ComponentDotFree(c) && c.ref.Some? && EntriesDotFree(rest)
    requires u == GetUidFromEntry(w.t.share, c.entry).uid && parent == w.parents[|w.parents| - 1]
    ensures var ud := ParseSeq(rest, ParseOne(c, w, repaired), repaired).t.uidDict.values;
      && u in ud
      && ud[u] == UidRecord(c.entry, c.name, Some(parent), Some(c.ref.value.entry), c.ref.value.Assembly?)
  {
    var w2 := ParseOne(c, w, repaired);
    ParseOneRecord(c, w, root, repaired);
    ParseOneConsistent(c, w, root, repaired);
    ParseSeqConsistent(rest, w2, root, repaired);
  }

  /** The repaired walk over the first `m` components of the first root label. */
  function PrefixWalk(doc: Doc, m: nat): Walk
    requires |doc.labels| > 0 && m <= |ComponentsOf(doc.labels[0])|
  {
    ParseSeq(ComponentsOf(doc.labels[0])[..m], RootWalk(doc), true)
  }

  /** Before the `m`-th top component: the walk is consistent, back at the
      root, and the component's entry has not been counted yet. */
  lemma {:induction false} TopPrefix(doc: Doc, m: nat)
    requires |doc.labels| > 0 && DotFree(doc.labels[0].entry)
    requires EntriesDotFree(ComponentsOf(doc.labels[0]))
    requires m < |ComponentsOf(doc.labels[0])|
    requires var comps := ComponentsOf(doc.labels[0]);
      && comps[m].entry !in Visits(comps[..m])
      && comps[m].entry != doc.labels[0].entry && comps[m].entry != TopEntry
    ensures Consistent(PrefixWalk(doc, m), RootUid(doc))
    ensures PrefixWalk(doc, m).parents[|PrefixWalk(doc, m).parents| - 1] == RootUid(doc)
    ensures ComponentsOf(doc.labels[0])[m].entry !in PrefixWalk(doc, m).t.share
  {
    var comps := ComponentsOf(doc.labels[0]);
    var w0 := RootWalk(doc);
    RootWalkConsistent(doc);
    EntriesDotFreeSlice(comps, 0, m);
    assert comps[0..m] == comps[..m];
    ParseSeqIsRef(comps[..m], w0);
    ParseSeqShare(comps[..m], w0, true);
    ParseSeqConsistent(comps[..m], w0, RootUid(doc), true);
    IssueAllUntouched(w0.t.share, Visits(comps[..m]), comps[m].entry);
  }

  /** The `m`-th top component, reached with its entry not yet counted,
      gets serial 0, and its record, filed under the root, survives the
      components after it. */
  lemma {:induction false} TopRecordSurvives(doc: Doc, m: nat, repaired: bool)
    requires |doc.labels| > 0 && DotFree(doc.labels[0].entry)
    requires EntriesDotFree(ComponentsOf(doc.labels[0]))
    requires m < |ComponentsOf(doc.labels[0])|
    requires var comps := ComponentsOf(doc.labels[0]);
      && comps[m].ref.Some?
      && comps[m].entry !in Visits(comps[..m])
      && comps[m].entry != doc.labels[0].entry && comps[m].entry != TopEntry
    ensures var comps := ComponentsOf(doc.labels[0]);
      var w1 := PrefixWalk(doc, m);
      var c := comps[m];
      var ud := ParseSeq(comps[m + 1..], ParseOne(c, w1, repaired), repaired).t.uidDict.values;
      && GetUidFromEntry(w1.t.share, c.entry).uid == MakeUid(c.entry, 0)
      && MakeUid(c.entry, 0) in ud
      && ud[MakeUid(c.entry, 0)] == UidRecord(c.entry, c.name, Some(RootUid(doc)), Some(c.ref.value.entry), c.ref.value.Assembly?)
  {
    var comps := ComponentsOf(doc.labels[0]);
    var w1 := PrefixWalk(doc, m);
    TopPrefix(doc, m);
    EntriesDotFreeSlice(comps, m + 1, |comps|);
    assert comps[m + 1..|comps|] == comps[m + 1..];
    RecordSurvives(comps[m], w1, comps[m + 1..], RootUid(doc), MakeUid(comps[m].entry, 0), RootUid(doc), repaired);
  }

  /** The repaired parse of the document is the walk up to the `m`-th top
      component, that component, then the rest. */
  lemma {:induction false} TopSplit(doc: Doc, m: nat)
    requires |doc.labels| > 0
    requires m < |ComponentsOf(doc.labels[0])|
    ensures var comps := ComponentsOf(doc.labels[0]);
      ParseDoc(doc, true).w.t
        == ParseSeq(comps[m + 1..], ParseOne(comps[m], PrefixWalk(doc, m), true), true).t
  {
    var comps := ComponentsOf(doc.labels[0]);
    var w0 := RootWalk(doc);
    assert comps == comps[..m] + comps[m..];
    ParseSeqAppend(comps[..m], comps[m..], w0, true);
    var w1 := ParseSeq(comps[..m], w0, true);
    assert comps[m..][0] == comps[m] && comps[m..][1..] == comps[m + 1..];
    assert ParseSeq(comps[m..], w1, true) == ParseSeq(comps[m + 1..], ParseOne(comps[m], w1, true), true);
  }

  /** As written, with no empty sub-assembly among the first `m` top
      components, the walk reaches the `m`-th one exactly as the repaired
      walk does. */
  lemma {:induction false} TopSplitAsWritten(doc: Doc, m: nat)
    requires |doc.labels| > 0
    requires m < |ComponentsOf(doc.labels[0])|
    requires NoEmptyAssembly(ComponentsOf(doc.labels[0])[..m])
    ensures var comps := ComponentsOf(doc.labels[0]);
      ParseDoc(doc, false).w.t
        == ParseSeq(comps[m + 1..], ParseOne(comps[m], PrefixWalk(doc, m), false), false).t
  {
    var comps := ComponentsOf(doc.labels[0]);
    var w0 := RootWalk(doc);
    assert comps == comps[..m] + comps[m..];
    ParseSeqAppend(comps[..m], comps[m..], w0, false);
    ParseSeqBalanced(comps[..m], w0);
    var w1 := ParseSeq(comps[..m], w0, false);
    assert comps[m..][0] == comps[m] && comps[m..][1..] == comps[m + 1..];
    assert ParseSeq(comps[m..], w1, false) == ParseSeq(comps[m + 1..], ParseOne(comps[m], w1, false), false);
  }

  /** A leaf component is filed under the top of the parent stack and
      moved by the product of the location stack. */
  lemma LeafStep(b: Component, w: Walk, repaired: bool)
    requires Ready(w) && b.ref.Some? && b.ref.value.Simple?
    ensures var u := GetUidFromEntry(w.t.share, b.entry).uid;
      var t := ParseOne(b, w, repaired).t;
      && u in t.uidDict.values && u in t.partDict.values
      && t.uidDict.values[u].parentUid == Some(w.parents[|w.parents| - 1])
      && t.partDict.values[u].loc == Mul(Compose(w.assyLocs), b.loc)
  {
    var ib := GetUidFromEntry(w.t.share, b.entry);
    assert ParseOne(b, w, repaired)
      == w.(t := AddLeaf(w.t.(share := ib.share), ib.uid, b, b.ref.value, w.parents[|w.parents| - 1], w.assyLocs));
  }

  /** As written, a component that refers to an assembly with no
      components leaves its push on the stacks: a leaf component that
      follows it is filed under it and moved by its location as well. */
  lemma EmptySubAssemblyMisplacesSibling(a: Component, b: Component, w: Walk)
    requires Ready(w)
    requires a.ref.Some? && a.ref.value.Assembly? && |a.ref.value.comps| == 0
    requires b.ref.Some? && b.ref.value.Simple?
    ensures var wa := ParseOne(a, w, false);
      var u := GetUidFromEntry(wa.t.share, b.entry).uid;
      var t := ParseOne(b, wa, false).t;
      && u in t.uidDict.values && u in t.partDict.values
      && t.uidDict.values[u].parentUid == Some(GetUidFromEntry(w.t.share, a.entry).uid)
      && t.partDict.values[u].loc == Mul(Mul(Compose(w.assyLocs), a.loc), b.loc)
  {
    var iss := GetUidFromEntry(w.t.share, a.entry);
    var wa := ParseOne(a, w, false);
    assert wa == Enter(w, iss, a, a.ref.value);
    assert wa.assyLocs[..|wa.assyLocs| - 1] == w.assyLocs;
    LeafStep(b, wa, false);
  }

  /** Repaired, entering an assembly with no components is undone at once,
      so by `LeafStep` a leaf that follows is filed under the enclosing
      assembly and moved by the enclosing locations only. */
  lemma RepairedEmptyAssembly(a: Component, w: Walk)
    requires Ready(w)
    requires a.ref.Some? && a.ref.value.Assembly? && |a.ref.value.comps| == 0
    ensures SameStacks(ParseOne(a, w, true), w)
  {
    var w2 := Enter(w, GetUidFromEntry(w.t.share, a.entry), a, a.ref.value);
    assert ParseSeq(a.ref.value.comps, w2, true) == w2;
    assert ParseOne(a, w, true) == ParseComponents(a.ref.value.comps, w2, true);
  }
}

=== FILE: kodacad.dfy ===
/** The 3-D commands of the application script: new workplanes from three
    points or two faces, extrude and revolve of the active workplane's
    profile, and fillet of edges of the active part. Like the 2-D commands,
    each either finds its input on the stacks and acts, or registers its
    collector. The solids themselves are left to the kernel; the model
    records what each command asks the document for. */
module KodaCad {
  import opened Wrappers
  import opened Text
  import opened OrderedDicts
  import opened LabelTree
  import opened MainWindow
  import opened M2D
  import opened DocEdit

  // The active assembly

  /** `get_tag_of_active_asy`: the label number new parts go under, 1 (the
      top assembly) unless an assembly is active and records the entry of
      the label it refers to; then the number after that entry's last ':'. */
  function TagOfActiveAsy(s: Session): (r: Result<int>)
    ensures !Truthy(s.activeAsyUID) ==> r == Ok(1)
    ensures Truthy(s.activeAsyUID) && s.activeAsyUID.value !in s.labels ==> r == Err(KeyError)
    ensures Truthy(s.activeAsyUID) && s.activeAsyUID.value in s.labels ==>
      var info := s.labels[s.activeAsyUID.value];
      && (!info.isAssy || !Truthy(info.refEntry) ==> r == Ok(1))
      && (info.isAssy && Truthy(info.refEntry) ==>
            && (r.Ok? <==> TagOf(info.refEntry.value).Some?)
            && (r.Ok? ==> r.value == TagOf(info.refEntry.value).value)
            && (r.Err? ==> r.error == ValueError))
  {
    if !Truthy(s.activeAsyUID) then Ok(1)
    else if s.activeAsyUID.value !in s.labels then Err(KeyError)
    else
      var info := s.labels[s.activeAsyUID.value];
      if info.isAssy && Truthy(info.refEntry) then
        match TagOf(info.refEntry.value)
        case Some(n) => Ok(n)
        case None => Err(ValueError)
      else Ok(1)
  }

  /** An active assembly referring to root label `prefix:n` puts new parts
      under label n. */
  lemma TagOfActiveAsyIsReferredLabel(s: Session, prefix: string, n: nat)
    requires Truthy(s.activeAsyUID) && s.activeAsyUID.value in s.labels
    requires s.labels[s.activeAsyUID.value].isAssy
    requires s.labels[s.activeAsyUID.value].refEntry == Some(prefix + ":" + NatToString(n))
    ensures TagOfActiveAsy(s) == Ok(n)
  {
    TagOfChild(prefix, n);
  }

  /** `get_inv_loc_of_active_asy`: the identity unless an assembly is
      active; then its recorded inverse location. */
  function InvLocOfActiveAsy(s: Session): (r: Result<Loc>)
    ensures !Truthy(s.activeAsyUID) ==> r == Ok(Identity)
    ensures Truthy(s.activeAsyUID) ==>
      if s.activeAsyUID.value in s.labels then r == Ok(s.labels[s.activeAsyUID.value].invLoc)
      else r == Err(KeyError)
  {
    if !Truthy(s.activeAsyUID) then Ok(Identity)
    else if s.activeAsyUID.value in s.labels then Ok(s.labels[s.activeAsyUID.value].invLoc)
    else Err(KeyError)
  }

  /** Where new parts go: the tag and inverse location, or the error the
      first of the two lookups raises. */
  datatype Placing = Placing(tag: int, loc: Loc)

  function ActiveTarget(s: Session): (r: Result<Placing>)
    ensures r.Ok? <==> TagOfActiveAsy(s).Ok? && InvLocOfActiveAsy(s).Ok?
    ensures r.Ok? ==> r.value == Placing(TagOfActiveAsy(s).value, InvLocOfActiveAsy(s).value)
    ensures TagOfActiveAsy(s).Err? ==> r == Err(TagOfActiveAsy(s).error)
  {
    match TagOfActiveAsy(s)
    case Err(e) => Err(e)
    case Ok(tag) =>
      match InvLocOfActiveAsy(s)
      case Err(e) => Err(e)
      case Ok(loc) => Ok(Placing(tag, loc))
  }

  /** With no active assembly new parts go under the top assembly, unmoved. */
  lemma NoActiveAsyTarget(s: Session)
    requires !Truthy(s.activeAsyUID)
    ensures ActiveTarget(s) == Ok(Placing(1, Identity))
  {
  }

  // Collecting picks

  datatype Kind = VertexKind | EdgeKind | FaceKind

  predicate IsKind(p: Pick, kind: Kind) {
    match kind
    case VertexKind => p.Vertex?
    case EdgeKind => p.Edge?
    case FaceKind => p.Face?
  }

  /** How many picks `topods_Vertex`/`topods_Edge`/`topods_Face` convert
      before the first pick of another kind makes the kernel raise. */
  function Convertible(picks: seq<Pick>, kind: Kind): (n: nat)
    ensures n <= |picks|
    ensures forall i :: 0 <= i < n ==> IsKind(picks[i], kind)
    ensures n < |picks| ==> !IsKind(picks[n], kind)
  {
    if |picks| == 0 || !IsKind(picks[0], kind) then 0
    else 1 + Convertible(picks[1..], kind)
  }

  /** A collector's loop `for shape in shapeList: stack.append(topods_X(shape))`
      over the face or edge stack. */
  function PushFaces(s: Session, picks: seq<Pick>): (r: Session)
    ensures Convertible(picks, FaceKind) == |picks| ==> r == s.(faceStack := s.faceStack + picks)
    ensures Convertible(picks, FaceKind) < |picks| ==>
      r == Raise(s.(faceStack := s.faceStack + picks[..Convertible(picks, FaceKind)]), RuntimeError)
  {
    var n := Convertible(picks, FaceKind);
    if n == |picks| then
      assert picks[..n] == picks;
      s.(faceStack := s.faceStack + picks)
    else Raise(s.(faceStack := s.faceStack + picks[..n]), RuntimeError)
  }

  function PushEdges(s: Session, picks: seq<Pick>): (r: Session)
    ensures Convertible(picks, EdgeKind) == |picks| ==> r == s.(edgeStack := s.edgeStack + picks)
    ensures Convertible(picks, EdgeKind) < |picks| ==>
      r == Raise(s.(edgeStack := s.edgeStack + picks[..Convertible(picks, EdgeKind)]), RuntimeError)
  {
    var n := Convertible(picks, EdgeKind);
    if n == |picks| then s.(edgeStack := s.edgeStack + picks)
    else Raise(s.(edgeStack := s.edgeStack + picks[..n]), RuntimeError)
  }

  /** The same loop over the 3-D point stack: each vertex's point. */
  function PushPoints(s: Session, picks: seq<Pick>): (r: Session)
    ensures Convertible(picks, VertexKind) == |picks| ==> r == s.(ptStack := s.ptStack + Vertices(picks))
    ensures Convertible(picks, VertexKind) < |picks| ==>
      r == Raise(s.(ptStack := s.ptStack + Vertices(picks[..Convertible(picks, VertexKind)])), RuntimeError)
    ensures |r.ptStack| == |s.ptStack| + Convertible(picks, VertexKind)
  {
    var n := Convertible(picks, VertexKind);
    AllVertices(picks[..n]);
    if n == |picks| then
      assert picks[..n] == picks;
      s.(ptStack := s.ptStack + Vertices(picks))
    else Raise(s.(ptStack := s.ptStack + Vertices(picks[..n])), RuntimeError)
  }

  /** Picks that are all vertices give one point each. */
  lemma {:induction false} AllVertices(picks: seq<Pick>)
    requires forall i :: 0 <= i < |picks| ==> picks[i].Vertex?
    ensures |Vertices(picks)| == |picks|
    ensures forall i :: 0 <= i < |picks| ==> Vertices(picks)[i] == picks[i].at
    decreases |picks|
  {
    if |picks| > 0 {
      AllVertices(picks[1..]);
    }
  }

  // Workplanes

  /** `wpBy3Pts`: the last three points, taken as p1, origin and u-point
      in the order they were picked, place a new workplane (w along p1 to
      origin, u along origin to u-point) which becomes active; fewer than
      three points raise IndexError once the stack is popped empty. */
  function WpBy3Pts(s: Session): (r: Session)
    requires s.wpDict.Valid()
    ensures |s.ptStack| == 0 ==> r == RegisterCallback(s, WpBy3PtsC)
    ensures 0 < |s.ptStack| < 3 ==> r == Raise(s.(ptStack := []), IndexError)
    ensures |s.ptStack| >= 3 ==>
      var n := |s.ptStack|;
      && r.activeWpUID == Some(WpName(s.wpNmbr))
      && ActiveWp(r) == Some(Workplane(By3Pts(s.ptStack[n - 3], s.ptStack[n - 2], s.ptStack[n - 1]), [], []))
      && r.wpNmbr == s.wpNmbr + 1
      && r.callback.None?
  {
    var n := |s.ptStack|;
    if n == 0 then RegisterCallback(s, WpBy3PtsC)
    else if n < 3 then Raise(s.(ptStack := []), IndexError)
    else
      var p3 := s.ptStack[n - 1];
      var p2 := s.ptStack[n - 2];
      var p1 := s.ptStack[n - 3];
      var made := GetWpUid(s.(ptStack := s.ptStack[..n - 3]), Workplane(By3Pts(p1, p2, p3), [], []));
      ClearCallback(made.s)
  }

  /** `wpBy3PtsC`: fires when the third point arrives. */
  function WpBy3PtsCollect(s: Session, picks: seq<Pick>): (r: Session)
    requires s.wpDict.Valid()
    ensures Convertible(picks, VertexKind) < |picks| ==> r == PushPoints(s, picks)
    ensures Convertible(picks, VertexKind) == |picks| && |s.ptStack| + |picks| != 3 ==>
      r == PushPoints(s, picks)
    ensures Convertible(picks, VertexKind) == |picks| && |s.ptStack| + |picks| == 3 ==>
      r == WpBy3Pts(s.(ptStack := s.ptStack + Vertices(picks)))
  {
    var t := PushPoints(s, picks);
    if Convertible(picks, VertexKind) == |picks| && |t.ptStack| == 3 then WpBy3Pts(t) else t
  }

  /** Three vertices picked in one go, on an empty point stack: the first
      is p1, the second the origin, the third gives the u direction. */
  lemma WpBy3PtsPickOrder(s: Session, a: Pnt, b: Pnt, c: Pnt)
    requires s.wpDict.Valid() && |s.ptStack| == 0
    ensures var r := WpBy3PtsCollect(s, [Vertex(a), Vertex(b), Vertex(c)]);
      && r.activeWpUID == Some(WpName(s.wpNmbr))
      && ActiveWp(r) == Some(Workplane(By3Pts(a, b, c), [], []))
      && r.callback.None? && r.ptStack == []
  {
    var picks := [Vertex(a), Vertex(b), Vertex(c)];
    assert Convertible(picks, VertexKind) == 3 by {
      assert picks[1..] == [Vertex(b), Vertex(c)];
      assert picks[1..][1..] == [Vertex(c)];
    }
    AllVertices(picks);
  }

  /** `wpOnFace`: the face picked last gives the u direction, the one
      before it the plane; one face alone raises IndexError. */
  function WpOnFace(s: Session): (r: Session)
    requires s.wpDict.Valid()
    ensures |s.faceStack| == 0 ==> r == RegisterCallback(s, WpOnFaceC)
    ensures |s.faceStack| == 1 ==> r == Raise(s.(faceStack := []), IndexError)
    ensures |s.faceStack| >= 2 ==>
      var n := |s.faceStack|;
      && r.activeWpUID == Some(WpName(s.wpNmbr))
      && ActiveWp(r) == Some(Workplane(OnFace(s.faceStack[n - 2], s.faceStack[n - 1]), [], []))
      && r.wpNmbr == s.wpNmbr + 1
      && r.callback.None?
  {
    var n := |s.faceStack|;
    if n == 0 then RegisterCallback(s, WpOnFaceC)
    else if n == 1 then Raise(s.(faceStack := []), IndexError)
    else
      var faceU := s.faceStack[n - 1];
      var faceW := s.faceStack[n - 2];
      var made := GetWpUid(s.(faceStack := s.faceStack[..n - 2]), Workplane(OnFace(faceW, faceU), [], []));
      ClearCallback(made.s)
  }

  /** `wpOnFaceC`: fires when the second face arrives. */
  function WpOnFaceCollect(s: Session, picks: seq<Pick>): (r: Session)
    requires s.wpDict.Valid()
    ensures Convertible(picks, FaceKind) < |picks| ==> r == PushFaces(s, picks)
    ensures Convertible(picks, FaceKind) == |picks| && |s.faceStack| + |picks| != 2 ==>
      r == PushFaces(s, picks)
    ensures Convertible(picks, FaceKind) == |picks| && |s.faceStack| + |picks| == 2 ==>
      r == WpOnFace(s.(faceStack := s.faceStack + picks))
  {
    var t := PushFaces(s, picks);
    if Convertible(picks, FaceKind) == |picks| && |t.faceStack| == 2 then WpOnFace(t) else t
  }

  /** Three vertices picked one at a time, as the status prompts ask for
      them, on an empty point stack: the first two picks are only pushed,
      and the third places the workplane with the first pick as p1, the
      second as origin and the third giving the u direction. */
  lemma WpBy3PtsOneAtATime(s: Session, a: Pnt, b: Pnt, c: Pnt)
    requires s.wpDict.Valid() && |s.ptStack| == 0
    ensures WpBy3PtsCollect(s, [Vertex(a)]) == s.(ptStack := [a])
    ensures WpBy3PtsCollect(s.(ptStack := [a]), [Vertex(b)]) == s.(ptStack := [a, b])
    ensures var r := WpBy3PtsCollect(WpBy3PtsCollect(WpBy3PtsCollect(s, [Vertex(a)]), [Vertex(b)]), [Vertex(c)]);
      && r.activeWpUID == Some(WpName(s.wpNmbr))
      && ActiveWp(r) == Some(Workplane(By3Pts(a, b, c), [], []))
      && r.callback.None? && r.ptStack == []
  {
    assert Convertible([Vertex(a)], VertexKind) == 1 by {
      assert [Vertex(a)][1..] == [];
    }
    assert Convertible([Vertex(b)], VertexKind) == 1 by {
      assert [Vertex(b)][1..] == [];
    }
    assert Convertible([Vertex(c)], VertexKind) == 1 by {
      assert [Vertex(c)][1..] == [];
    }
    OnePick(Vertex(a));
    OnePick(Vertex(b));
    OnePick(Vertex(c));
    var s2 := s.(ptStack := [a, b]);
    assert WpBy3PtsCollect(s2, [Vertex(c)]) == WpBy3Pts(s.(ptStack := [a, b, c]));
  }

  /** Two faces picked one at a time: the first sets the plane, the
      second the u direction. */
  lemma WpOnFacePickOrder(s: Session, f: nat, g: nat)
    requires s.wpDict.Valid() && |s.faceStack| == 0
    ensures var r := WpOnFaceCollect(WpOnFaceCollect(s, [Face(f)]), [Face(g)]);
      && r.activeWpUID == Some(WpName(s.wpNmbr))
      && ActiveWp(r) == Some(Workplane(OnFace(Face(f), Face(g)), [], []))
      && r.callback.None? && r.faceStack == []
  {
    assert Convertible([Face(f)], FaceKind) == 1 by {
      assert [Face(f)][1..] == [];
    }
    assert Convertible([Face(g)], FaceKind) == 1 by {
      assert [Face(g)][1..] == [];
    }
    var s1 := WpOnFaceCollect(s, [Face(f)]);
    assert s1.faceStack == [Face(f)];
    assert s1.faceStack + [Face(g)] == [Face(f), Face(g)];
  }

  // Extrude and revolve

  /** `extrude`: with exactly two inputs, the last is the part name and the
      one before it the length in the session's unit; the active
      workplane's profile is extruded by it into a new part under the
      active assembly, and the callback is cleared. An unreadable length
      raises ValueError, no active workplane AttributeError, and a profile
      that does not close into a wire leaves the command waiting. */
  function Extrude(s: Session, k: Kernel): (r: Session)
    ensures ActiveTarget(s).Err? ==> r == Raise(s, ActiveTarget(s).error)
    ensures ActiveTarget(s).Ok? && |s.lineEditStack| != 2 ==> r == RegisterCallback(s, ExtrudeC)
    ensures ActiveTarget(s).Ok? && |s.lineEditStack| == 2 && k.float(s.lineEditStack[0]).None? ==>
      r == Raise(s.(lineEditStack := []), ValueError)
    ensures ActiveTarget(s).Ok? && |s.lineEditStack| == 2 && k.float(s.lineEditStack[0]).Some? && ActiveWp(s).None? ==>
      r == Raise(s.(lineEditStack := []), AttributeError)
    ensures ActiveTarget(s).Ok? && |s.lineEditStack| == 2 && k.float(s.lineEditStack[0]).Some? && ActiveWp(s).Some?
            && !k.makeWire(ActiveWp(s).value) ==>
      r == s.(lineEditStack := [])
    ensures r.log == s.log || |r.log| == |s.log| + 1
    ensures |r.log| == |s.log| + 1 ==>
      && ActiveTarget(s).Ok? && |s.lineEditStack| == 2
      && k.float(s.lineEditStack[0]).Some? && ActiveWp(s).Some?
      && r.log[|s.log|] == Extruded(s.activeWpUID.value, s.lineEditStack[1],
           InMm(k.float(s.lineEditStack[0]).value, s.unitscale), ActiveTarget(s).value.tag, ActiveTarget(s).value.loc)
      && r.callback.None? && r.lineEditStack == []
  {
    match ActiveTarget(s)
    case Err(e) => Raise(s, e)
    case Ok(target) =>
      if |s.lineEditStack| == 2 then
        var name := s.lineEditStack[1];
        var text := s.lineEditStack[0];
        var t := s.(lineEditStack := []);
        match k.float(text)
        case None => Raise(t, ValueError)
        case Some(v) =>
          match ActiveWp(s)
          case None => Raise(t, AttributeError)
          case Some(wp) =>
            if !k.makeWire(wp) then t
            else
              var e := Extruded(s.activeWpUID.value, name, InMm(v, s.unitscale), target.tag, target.loc);
              ClearCallback(t.(log := t.log + [e]))
      else RegisterCallback(s, ExtrudeC)
  }

  /** `extrudeC`: fires when the second input arrives. */
  function ExtrudeCollect(s: Session, k: Kernel): (r: Session)
    ensures |s.lineEditStack| == 2 ==> r == Extrude(s, k)
    ensures |s.lineEditStack| != 2 ==> r == s
  {
    if |s.lineEditStack| == 2 then Extrude(s, k) else s
  }

  /** The length is entered first and the name second: a closed profile on
      the active workplane becomes a part with that name and length, under
      the active assembly. */
  lemma ExtrudeNameIsLastInput(s: Session, k: Kernel, length: string, name: string)
    requires ActiveTarget(s).Ok? && ActiveWp(s).Some? && k.makeWire(ActiveWp(s).value)
    requires s.lineEditStack == [length, name] && k.float(length).Some?
    ensures var r := ExtrudeCollect(s, k);
      && r.log == s.log + [Extruded(s.activeWpUID.value, name, InMm(k.float(length).value, s.unitscale),
                                     ActiveTarget(s).value.tag, ActiveTarget(s).value.loc)]
      && r.callback.None? && r.lineEditStack == [] && r.fault == s.fault
  {
  }

  /** Starting `extrude` with no input registers its collector; the
      length typed first is held until the name arrives, and then the part
      is made with that name and length. */
  lemma ExtrudeByTyping(s: Session, k: Kernel, length: string, name: string)
    requires s.callback.None? && |s.lineEditStack| == 0
    requires ActiveTarget(s).Ok? && ActiveWp(s).Some? && k.makeWire(ActiveWp(s).value)
    requires k.float(length).Some?
    ensures Extrude(s, k) == s.(callback := Some(ExtrudeC))
    ensures var s1 := s.(callback := Some(ExtrudeC), lineEditStack := [length]);
      ExtrudeCollect(s1, k) == s1
    ensures var r := ExtrudeCollect(s.(callback := Some(ExtrudeC), lineEditStack := [length, name]), k);
      && r.log == s.log + [Extruded(s.activeWpUID.value, name, InMm(k.float(length).value, s.unitscale),
                                    ActiveTarget(s).value.tag, ActiveTarget(s).value.loc)]
      && r.callback.None? && r.lineEditStack == []
  {
    var s2 := s.(callback := Some(ExtrudeC), lineEditStack := [length, name]);
    assert ActiveTarget(s2) == ActiveTarget(s);
    ExtrudeNameIsLastInput(s2, k, length, name);
  }

  /** `revolve`: with some input and exactly two points, the first point
      picked is the axis origin and the second gives its direction; the
      last input is the part name. All stacks are cleared before the
      profile is revolved. */
  function Revolve(s: Session, k: Kernel): (r: Session)
    ensures ActiveTarget(s).Err? ==> r == Raise(s, ActiveTarget(s).error)
    ensures ActiveTarget(s).Ok? && !(|s.lineEditStack| > 0 && |s.ptStack| == 2) ==> r == RegisterCallback(s, RevolveC)
    ensures ActiveTarget(s).Ok? && |s.lineEditStack| > 0 && |s.ptStack| == 2 ==>
      && r.lineEditStack == [] && r.ptStack == [] && r.xyPtStack == [] && r.floatStack == []
      && r.edgeStack == [] && r.faceStack == []
    ensures r.log == s.log || |r.log| == |s.log| + 1
    ensures |r.log| == |s.log| + 1 ==>
      && ActiveTarget(s).Ok? && |s.lineEditStack| > 0 && |s.ptStack| == 2 && ActiveWp(s).Some?
      && r.log[|s.log|] == Revolved(s.activeWpUID.value, Top(s.lineEditStack), s.ptStack[0], s.ptStack[1],
                                    ActiveTarget(s).value.tag, ActiveTarget(s).value.loc)
      && r.callback.None?
  {
    match ActiveTarget(s)
    case Err(e) => Raise(s, e)
    case Ok(target) =>
      if |s.lineEditStack| > 0 && |s.ptStack| == 2 then
        var p2 := s.ptStack[1];
        var p1 := s.ptStack[0];
        var name := Top(s.lineEditStack);
        var t := ClearAllStacks(s);
        match ActiveWp(s)
        case None => Raise(t, AttributeError)
        case Some(wp) =>
          if !k.makeWire(wp) then t
          else ClearCallback(t.(log := t.log + [Revolved(s.activeWpUID.value, name, p1, p2, target.tag, target.loc)]))
      else RegisterCallback(s, RevolveC)
  }

  /** `revolveC`: vertices go on the point stack, and the command fires
      once there is a name and exactly two points. */
  function RevolveCollect(s: Session, picks: seq<Pick>, k: Kernel): (r: Session)
    ensures Convertible(picks, VertexKind) < |picks| ==>
      r == Raise(s.(ptStack := s.ptStack + Vertices(picks[..Convertible(picks, VertexKind)])), RuntimeError)
    ensures Convertible(picks, VertexKind) == |picks| && !(|s.lineEditStack| > 0 && |s.ptStack| + |picks| == 2) ==>
      r == s.(ptStack := s.ptStack + Vertices(picks))
    ensures Convertible(picks, VertexKind) == |picks| && |s.lineEditStack| > 0 && |s.ptStack| + |picks| == 2 ==>
      r == Revolve(s.(ptStack := s.ptStack + Vertices(picks)), k)
  {
    var t := PushPoints(s, picks);
    if Convertible(picks, VertexKind) == |picks| && |t.lineEditStack| > 0 && |t.ptStack| == 2 then Revolve(t, k)
    else t
  }

  /** Two axis points picked one at a time, then the name typed: the first
      pick is the axis origin. */
  lemma RevolveAxisFromPicks(s: Session, k: Kernel, a: Pnt, b: Pnt, name: string)
    requires ActiveTarget(s).Ok? && ActiveWp(s).Some? && k.makeWire(ActiveWp(s).value)
    requires |s.ptStack| == 0 && |s.lineEditStack| == 0
    ensures var s2 := RevolveCollect(RevolveCollect(s, [Vertex(a)], k), [Vertex(b)], k);
      var r := Revolve(s2.(lineEditStack := [name]), k);
      && s2.ptStack == [a, b]
      && r.log == s.log + [Revolved(s.activeWpUID.value, name, a, b, ActiveTarget(s).value.tag, ActiveTarget(s).value.loc)]
      && r.callback.None?
  {
    TwoAxisPicks(s, k, a, b);
    assert ActiveTarget(s.(ptStack := [a, b], lineEditStack := [name])) == ActiveTarget(s);
  }

  /** Each of two single vertex picks is pushed, and with no text typed
      the collector waits for more. */
  lemma TwoAxisPicks(s: Session, k: Kernel, a: Pnt, b: Pnt)
    requires |s.ptStack| == 0 && |s.lineEditStack| == 0
    ensures RevolveCollect(RevolveCollect(s, [Vertex(a)], k), [Vertex(b)], k) == s.(ptStack := [a, b])
  {
    assert Convertible([Vertex(a)], VertexKind) == 1 by {
      assert [Vertex(a)][1..] == [];
    }
    assert Convertible([Vertex(b)], VertexKind) == 1 by {
      assert [Vertex(b)][1..] == [];
    }
    OnePick(Vertex(a));
    OnePick(Vertex(b));
  }

  // Fillet

  /** The active part's uid as `setActivePart` reads it: `win.activePartUID`,
      which is `0` (never a key) when unset. */
  predicate IsPartKey(s: Session, u: Option<string>) {
    u.Some? && u.value in s.parts.values
  }

  /** `fillet`: with a radius typed and edges picked, the radius is
      popped; an unreadable radius, no active part or an edge not on the
      active part clears the callback and stops. Otherwise the edges are
      consumed, the kernel rounds them, a result replaces the part's shape,
      and the part is made active again (KeyError if its uid is not a
      part) before the callback is cleared. */
  function Fillet(s: Session, k: Kernel): (r: Session)
    ensures !(|s.lineEditStack| > 0 && |s.edgeStack| > 0) ==> r == RegisterCallback(s, FilletC)
    ensures |s.lineEditStack| > 0 && |s.edgeStack| > 0 ==>
      var t := s.(lineEditStack := Pop(s.lineEditStack));
      && (k.float(Top(s.lineEditStack)).None? ==> r == ClearCallback(t))
      && (k.float(Top(s.lineEditStack)).Some? && s.activePart.None? ==> r == ClearCallback(t))
      && (k.float(Top(s.lineEditStack)).Some? && s.activePart.Some?
            && (exists e :: e in s.edgeStack && e !in k.edgesOf(s.activePart.value))
          ==> r == ClearCallback(t))
    ensures r.log == s.log || |r.log| == |s.log| + 1
    ensures |r.log| == |s.log| + 1 ==>
      && |s.lineEditStack| > 0 && |s.edgeStack| > 0
      && k.float(Top(s.lineEditStack)).Some? && s.activePart.Some?
      && (forall e :: e in s.edgeStack ==> e in k.edgesOf(s.activePart.value))
      && k.fillet(s.activePart.value, InMm(k.float(Top(s.lineEditStack)).value, s.unitscale), s.edgeStack).Some?
    ensures r.parts.keys == s.parts.keys
  {
    if |s.lineEditStack| > 0 && |s.edgeStack| > 0 then
      var text := Top(s.lineEditStack);
      var t := s.(lineEditStack := Pop(s.lineEditStack));
      match k.float(text)
      case None => ClearCallback(t)
      case Some(v) =>
        match s.activePart
        case None => ClearCallback(t)
        case Some(part) =>
          if exists e :: e in s.edgeStack && e !in k.edgesOf(part) then ClearCallback(t)
          else
            var radius := InMm(v, s.unitscale);
            var u := s.activePartUID;
            var t2 := t.(edgeStack := []);
            var t3 := match k.fillet(part, radius, s.edgeStack)
              case None => t2
              case Some(newPart) =>
                var parts := if IsPartKey(t2, u) then Dict(t2.parts.keys, t2.parts.values[u.value := newPart]) else t2.parts;
                t2.(log := t2.log + [Filleted(u.GetOr(""), radius, s.edgeStack, newPart)], parts := parts);
            if IsPartKey(t3, u) then
              ClearCallback(t3.(activePartUID := u, activePart := Some(t3.parts.values[u.value])))
            else Raise(t3, KeyError)
    else RegisterCallback(s, FilletC)
  }

  /** `filletC`: edges go on the edge stack; the command runs once there
      are edges and a typed radius. */
  function FilletCollect(s: Session, picks: seq<Pick>, k: Kernel): (r: Session)
    ensures Convertible(picks, EdgeKind) < |picks| ==> r == PushEdges(s, picks)
    ensures Convertible(picks, EdgeKind) == |picks| && |s.edgeStack + picks| > 0 && |s.lineEditStack| > 0 ==>
      r == Fillet(s.(edgeStack := s.edgeStack + picks), k)
  {
    var t := PushEdges(s, picks);
    if Convertible(picks, EdgeKind) == |picks| && |t.edgeStack| > 0 && |t.lineEditStack| > 0 then Fillet(t, k)
    else t
  }

  /** A successful fillet of edges of the active part replaces the part's
      shape with the kernel's result, keeps it active and consumes the
      edges and the radius. */
  lemma FilletReplacesActivePart(s: Session, k: Kernel, u: string, part: Shape, text: string, newPart: Shape)
    requires s.activePartUID == Some(u) && u in s.parts.values && s.activePart == Some(part)
    requires |s.edgeStack| > 0 && (forall e :: e in s.edgeStack ==> e in k.edgesOf(part))
    requires s.lineEditStack == [text] && k.float(text).Some?
    requires k.fillet(part, InMm(k.float(text).value, s.unitscale), s.edgeStack) == Some(newPart)
    ensures var r := Fillet(s, k);
      && r.parts.values == s.parts.values[u := newPart]
      && r.activePart == Some(newPart) && r.activePartUID == Some(u)
      && r.log == s.log + [Filleted(u, InMm(k.float(text).value, s.unitscale), s.edgeStack, newPart)]
      && r.edgeStack == [] && r.lineEditStack == [] && r.callback.None?
  {
  }

  /** An edge that is not on the active part stops the fillet: nothing is
      rounded and the command is cancelled. */
  lemma FilletForeignEdgeAborts(s: Session, k: Kernel, part: Shape, e: Pick)
    requires |s.lineEditStack| > 0 && e in s.edgeStack && s.activePart == Some(part)
    requires e !in k.edgesOf(part) && k.float(Top(s.lineEditStack)).Some?
    ensures Fillet(s, k).log == s.log && Fillet(s, k).parts == s.parts && Fillet(s, k).callback.None?
  {
  }
}

=== FILE: label_tree.dfy ===
/** The kernel's document, reduced to what the bookkeeping reads: a list of
    labels at the document root, each either a simple shape or an assembly
    whose components refer to other labels. Kernel objects (shapes,
    locations, colours) are opaque handles. */
module LabelTree {
  import opened Wrappers

  /** A location (placement). Products and inverses are kept as terms: the
      model never evaluates them, it only records which were formed. */
  datatype Loc = Identity | LocId(id: nat) | Mul(left: Loc, right: Loc) | Inverted(inner: Loc)

  /** A shape handle; `Moved` is a shape displaced by a location. */
  datatype Shape = ShapeId(id: nat) | Moved(base: Shape, place: Loc)

  datatype Color = ColorId(id: nat)

  /** A component label: its own entry, name and location, and the label it
      refers to (None when the kernel reports that it is not a reference). */
  datatype Component = Component(entry: string, name: string, loc: Loc, ref: Option<Label>)

  /** A referred label: a simple shape, or an assembly of components. */
  datatype Label =
    | Simple(entry: string, name: string, shape: Shape, color: Color)
    | Assembly(entry: string, name: string, comps: seq<Component>)

  /** The labels at the document root (`GetShapes`), in order, and the
      location of the first one. */
  datatype Doc = Doc(labels: seq<Label>, topLoc: Loc)

  /** The shape `GetShape` reports for a component that refers to the
      simple shape `ref`: the referred shape placed by the component's own
      location. It is read through the reference, so it follows every
      change to the referred label. */
  function ComponentShape(c: Component, ref: Label): Shape
    requires ref.Simple?
  {
    Moved(ref.shape, c.loc)
  }

  /** The components `GetComponents` reports for a label: none for a
      simple shape. */
  function ComponentsOf(l: Label): seq<Component> {
    if l.Assembly? then l.comps else []
  }

  /** Every assembly the components refer to, at any depth, has at least one
      component. */
  predicate NoEmptyAssembly(comps: seq<Component>)
    decreases comps
  {
    forall i :: 0 <= i < |comps| ==> ComponentNoEmptyAssembly(comps[i])
  }

  predicate ComponentNoEmptyAssembly(c: Component)
    decreases c
  {
    c.ref.Some? && c.ref.value.Assembly? ==>
      |c.ref.value.comps| > 0 && NoEmptyAssembly(c.ref.value.comps)
  }

  /** No component entry, at any depth, contains a '.'. */
  predicate EntriesDotFree(comps: seq<Component>)
    decreases comps
  {
    forall i :: 0 <= i < |comps| ==> ComponentDotFree(comps[i])
  }

  predicate ComponentDotFree(c: Component)
    decreases c
  {
    && '.' !in c.entry
    && (c.ref.Some? && c.ref.value.Assembly? ==> EntriesDotFree(c.ref.value.comps))
  }

  lemma EntriesDotFreeSlice(comps: seq<Component>, lo: nat, hi: nat)
    requires EntriesDotFree(comps) && lo <= hi <= |comps|
    ensures EntriesDotFree(comps[lo..hi])
  {
    forall i | 0 <= i < hi - lo
      ensures ComponentDotFree(comps[lo..hi][i])
    {
      assert comps[lo..hi][i] == comps[lo + i];
    }
  }
}

=== FILE: m2d.dfy ===
/** The 2-D drawing commands on the active workplane: each command either
    finds enough input on the stacks and draws, or registers its collector
    and waits; the collector turns picked vertices and typed text into
    points and numbers and calls the command again once there are enough. */
module M2D {
  import opened Wrappers
  import opened Text
  import opened OrderedDicts
  import opened MainWindow

  /** A length typed in the session's unit, in mm. */
  function InMm(v: real, unitscale: real): real {
    v * unitscale
  }

  /** `win.activeWp`: the workplane stored under the active uid. */
  function ActiveWp(s: Session): Option<Workplane> {
    if s.activeWpUID.Some? && s.activeWpUID.value in s.wpDict.values
    then Some(s.wpDict.values[s.activeWpUID.value]) else None
  }

  /** The active workplane object, changed in place: the dictionary keeps
      its keys and every other workplane. */
  function UpdateActiveWp(s: Session, wp: Workplane): (r: Session)
    requires ActiveWp(s).Some?
    ensures ActiveWp(r) == Some(wp)
    ensures r.wpDict.keys == s.wpDict.keys && r.wpDict.values.Keys == s.wpDict.values.Keys
    ensures forall u :: u in s.wpDict.values && Some(u) != s.activeWpUID ==> r.wpDict.values[u] == s.wpDict.values[u]
    ensures r.(wpDict := s.wpDict) == s
  {
    s.(wpDict := Dict(s.wpDict.keys, s.wpDict.values[s.activeWpUID.value := wp]))
  }

  /** The active workplane receives a drawing call; with no active
      workplane the call raises AttributeError. */
  function Draw(s: Session, call: Sketch): (r: Session)
    ensures ActiveWp(s).None? ==> r == Raise(s, AttributeError)
    ensures ActiveWp(s).Some? ==>
      && ActiveWp(r) == Some(ActiveWp(s).value.(calls := ActiveWp(s).value.calls + [call]))
      && r.wpDict.keys == s.wpDict.keys
      && r.(wpDict := s.wpDict) == s
  {
    match ActiveWp(s)
    case None => Raise(s, AttributeError)
    case Some(wp) => UpdateActiveWp(s, wp.(calls := wp.calls + [call]))
  }

  /** The vertices among the picks, in pick order. */
  function Vertices(picks: seq<Pick>): (r: seq<Pnt>)
    ensures |r| <= |picks|
  {
    if |picks| == 0 then []
    else (if picks[0].Vertex? then [picks[0].at] else []) + Vertices(picks[1..])
  }

  /** Each point in the coordinates of workplane `wp`. */
  function InPlane(k: Kernel, wp: Workplane, pts: seq<Pnt>): (r: seq<Pt2>)
    ensures |r| == |pts|
    ensures forall i :: 0 <= i < |pts| ==> r[i] == k.toLocal(wp, pts[i])
  {
    if |pts| == 0 then [] else [k.toLocal(wp, pts[0])] + InPlane(k, wp, pts[1..])
  }

  /** `add_vertex_to_xyPtStack`: one 2-D point per picked vertex, in pick
      order; other shapes are skipped. Converting a vertex needs the
      active workplane's transform, so without one the first vertex raises
      AttributeError. */
  function AddVertices(s: Session, picks: seq<Pick>, k: Kernel): (r: Session)
    ensures ActiveWp(s).Some? ==>
      r == s.(xyPtStack := s.xyPtStack + InPlane(k, ActiveWp(s).value, Vertices(picks)))
    ensures ActiveWp(s).None? && |Vertices(picks)| > 0 ==> r == Raise(s, AttributeError)
    ensures |Vertices(picks)| == 0 ==> r == s
  {
    match ActiveWp(s)
    case Some(wp) => s.(xyPtStack := s.xyPtStack + InPlane(k, wp, Vertices(picks)))
    case None => if |Vertices(picks)| > 0 then Raise(s, AttributeError) else s
  }

  /** Picks delivered in two batches give the same points as one batch:
      the order of the picks is the order of the points. */
  lemma {:induction false} VerticesAppend(a: seq<Pick>, b: seq<Pick>)
    ensures Vertices(a + b) == Vertices(a) + Vertices(b)
    decreases |a|
  {
    if |a| == 0 {
      assert a + b == b;
    } else {
      assert (a + b)[0] == a[0];
      assert (a + b)[1..] == a[1..] + b;
      VerticesAppend(a[1..], b);
    }
  }

  /** A vertex contributes its point, any other pick nothing. */
  lemma OnePick(p: Pick)
    ensures p.Vertex? ==> Vertices([p]) == [p.at]
    ensures !p.Vertex? ==> Vertices([p]) == []
  {
    assert [p][1..] == [];
  }

  /** `processLineEdit`: the last input is popped. Text with a comma that
      splits into exactly two numbers pushes the point, scaled to mm; other
      text that is a number pushes it, unscaled, as a float; anything else
      pushes nothing. */
  function ProcessLineEdit(s: Session, k: Kernel): (r: Session)
    requires |s.lineEditStack| > 0
    ensures r.lineEditStack == Pop(s.lineEditStack)
    ensures |r.xyPtStack| + |r.floatStack| <= |s.xyPtStack| + |s.floatStack| + 1
    ensures r.(lineEditStack := s.lineEditStack, xyPtStack := s.xyPtStack, floatStack := s.floatStack) == s
    ensures ',' !in Top(s.lineEditStack) ==> r.xyPtStack == s.xyPtStack
    ensures ',' in Top(s.lineEditStack) ==> r.floatStack == s.floatStack
  {
    var text := Top(s.lineEditStack);
    var t := s.(lineEditStack := Pop(s.lineEditStack));
    if ',' in text then
      var pieces := Split(text, ',');
      if |pieces| == 2 && k.float(pieces[0]).Some? && k.float(pieces[1]).Some? then
        t.(xyPtStack := t.xyPtStack + [Pt2(InMm(k.float(pieces[0]).value, s.unitscale), InMm(k.float(pieces[1]).value, s.unitscale))])
      else t
    else
      match k.float(text)
      case Some(v) => t.(floatStack := t.floatStack + [v])
      case None => t
  }

  /** `"x,y"` with two numbers becomes the point (x, y) in mm. */
  lemma {:induction false} TypedPoint(s: Session, k: Kernel, xs: string, ys: string)
    requires ',' !in xs && ',' !in ys
    requires k.float(xs).Some? && k.float(ys).Some?
    requires |s.lineEditStack| > 0 && Top(s.lineEditStack) == xs + [','] + ys
    ensures ProcessLineEdit(s, k).xyPtStack
      == s.xyPtStack + [Pt2(InMm(k.float(xs).value, s.unitscale), InMm(k.float(ys).value, s.unitscale))]
    ensures ProcessLineEdit(s, k).floatStack == s.floatStack
  {
    SplitAppend(xs, ',', ys);
    SplitWithoutSeparator(xs, ',');
    SplitWithoutSeparator(ys, ',');
    var text := Top(s.lineEditStack);
    assert Split(text, ',') == [xs, ys];
    assert ',' in text by {
      assert text[|xs|] == ',';
    }
    var pieces := Split(text, ',');
    assert |pieces| == 2 && pieces[0] == xs && pieces[1] == ys;
  }

  /** A typed `x,y` reaching a collector with no picks adds the point. */
  lemma TypedPointCollected(s: Session, k: Kernel, xs: string, ys: string)
    requires ',' !in xs && ',' !in ys
    requires k.float(xs).Some? && k.float(ys).Some?
    requires s.lineEditStack == [xs + [','] + ys]
    ensures Collect(s, [], k) == s.(lineEditStack := [],
      xyPtStack := s.xyPtStack + [Pt2(InMm(k.float(xs).value, s.unitscale), InMm(k.float(ys).value, s.unitscale))])
  {
    assert Vertices([]) == [];
    assert AddVertices(s, [], k) == s;
    TypedPoint(s, k, xs, ys);
  }

  /** Text with two or more commas is dropped. */
  lemma {:induction false} TooManyCommas(s: Session, k: Kernel, a: string, b: string)
    requires |s.lineEditStack| > 0 && Top(s.lineEditStack) == a + [','] + b && ',' in b
    ensures ProcessLineEdit(s, k).xyPtStack == s.xyPtStack
    ensures ProcessLineEdit(s, k).floatStack == s.floatStack
  {
    SplitAppend(a, ',', b);
    var pieces := Split(b, ',');
    CountZero(b, ',');
    assert |Split(a + [','] + b, ',')| == |Split(a, ',')| + |pieces| >= 3;
    assert Top(s.lineEditStack)[|a|] == ',';
  }

  /** A typed number without a comma is pushed as it is, unscaled. */
  lemma TypedNumber(s: Session, k: Kernel)
    requires |s.lineEditStack| > 0 && ',' !in Top(s.lineEditStack)
    ensures k.float(Top(s.lineEditStack)).Some? ==>
      ProcessLineEdit(s, k).floatStack == s.floatStack + [k.float(Top(s.lineEditStack)).value]
    ensures k.float(Top(s.lineEditStack)).None? ==> ProcessLineEdit(s, k).floatStack == s.floatStack
  {
  }

  /** The step every vertex collector starts with: picked vertices, then
      one typed input if there is one. */
  function Collect(s: Session, picks: seq<Pick>, k: Kernel): (r: Session)
    ensures r.callback == s.callback && r.wpDict == s.wpDict && ActiveWp(r) == ActiveWp(s)
  {
    var a := AddVertices(s, picks, k);
    if Raises(s, picks) || |a.lineEditStack| == 0 then a else ProcessLineEdit(a, k)
  }

  /** The session once the picked vertices are on the point stack, in the
      active workplane's coordinates and in pick order. */
  function Picked(s: Session, picks: seq<Pick>, k: Kernel): Session
    requires ActiveWp(s).Some?
  {
    s.(xyPtStack := s.xyPtStack + InPlane(k, ActiveWp(s).value, Vertices(picks)))
  }

  /** Whether `add_vertex_to_xyPtStack` raises on these picks. */
  predicate Raises(s: Session, picks: seq<Pick>) {
    ActiveWp(s).None? && |Vertices(picks)| > 0
  }

  // Construction lines

  /** `clineH`: with a point, a horizontal line through the last one, the
      rest discarded; otherwise the collector is registered. */
  function ClineH(s: Session): (r: Session)
    ensures |s.xyPtStack| > 0 ==> r == Draw(s.(xyPtStack := []), HCl(Top(s.xyPtStack)))
    ensures |s.xyPtStack| == 0 ==> r.callback == Some(ClineHC) && |r.lineEditStack| == 0
  {
    if |s.xyPtStack| > 0 then Draw(s.(xyPtStack := []), HCl(Top(s.xyPtStack)))
    else RegisterCallback(s, ClineHC).(xyPtStack := [], lineEditStack := [])
  }

  /** `clineHC`: a typed number y becomes the point (0, y) in mm. */
  function ClineHCollect(s: Session, picks: seq<Pick>, k: Kernel): (r: Session)
    ensures Raises(s, picks) ==> r == Raise(s, AttributeError)
    ensures ActiveWp(s).Some? && |s.lineEditStack| == 0 && |s.floatStack| == 0 ==>
      var p := Picked(s, picks, k);
      r == if |p.xyPtStack| > 0 then ClineH(p) else p
  {
    var b := Collect(s, picks, k);
    if Raises(s, picks) then b
    else
      var c := if |b.floatStack| > 0
        then b.(floatStack := Pop(b.floatStack), xyPtStack := b.xyPtStack + [Pt2(0.0, InMm(Top(b.floatStack), b.unitscale))])
        else b;
      if |c.xyPtStack| > 0 then ClineH(c) else c
  }

  function ClineV(s: Session): (r: Session)
    ensures |s.xyPtStack| > 0 ==> r == Draw(s.(xyPtStack := []), VCl(Top(s.xyPtStack)))
    ensures |s.xyPtStack| == 0 ==> r.callback == Some(ClineVC) && |r.lineEditStack| == 0
  {
    if |s.xyPtStack| > 0 then Draw(s.(xyPtStack := []), VCl(Top(s.xyPtStack)))
    else RegisterCallback(s, ClineVC).(xyPtStack := [], lineEditStack := [])
  }

  /** `clineVC`: a typed number x becomes the point (x, 0) in mm. */
  function ClineVCollect(s: Session, picks: seq<Pick>, k: Kernel): (r: Session)
    ensures Raises(s, picks) ==> r == Raise(s, AttributeError)
    ensures ActiveWp(s).Some? && |s.lineEditStack| == 0 && |s.floatStack| == 0 ==>
      var p := Picked(s, picks, k);
      r == if |p.xyPtStack| > 0 then ClineV(p) else p
  {
    var b := Collect(s, picks, k);
    if Raises(s, picks) then b
    else
      var c := if |b.floatStack| > 0
        then b.(floatStack := Pop(b.floatStack), xyPtStack := b.xyPtStack + [Pt2(InMm(Top(b.floatStack), b.unitscale), 0.0)])
        else b;
      if |c.xyPtStack| > 0 then ClineV(c) else c
  }

  function ClineHV(s: Session): (r: Session)
    ensures |s.xyPtStack| > 0 ==> r == Draw(s.(xyPtStack := []), HVCl(Top(s.xyPtStack)))
    ensures |s.xyPtStack| == 0 ==> r.callback == Some(ClineHVC) && |r.lineEditStack| == 0
  {
    if |s.xyPtStack| > 0 then Draw(s.(xyPtStack := []), HVCl(Top(s.xyPtStack)))
    else RegisterCallback(s, ClineHVC).(xyPtStack := [], lineEditStack := [])
  }

  function ClineHVCollect(s: Session, picks: seq<Pick>, k: Kernel): (r: Session)
    ensures Raises(s, picks) ==> r == Raise(s, AttributeError)
    ensures ActiveWp(s).Some? && |s.lineEditStack| == 0 ==>
      var p := Picked(s, picks, k);
      r == if |p.xyPtStack| > 0 then ClineHV(p) else p
  {
    var b := Collect(s, picks, k);
    if !Raises(s, picks) && |b.xyPtStack| > 0 then ClineHV(b) else b
  }

  /** `cline2Pts`: with exactly two points, a line through them, the
      earlier one first. */
  function Cline2Pts(s: Session): (r: Session)
    ensures |s.xyPtStack| == 2 ==> r == Draw(s.(xyPtStack := []), Acl(s.xyPtStack[0], s.xyPtStack[1]))
    ensures |s.xyPtStack| != 2 ==> r.callback == Some(Cline2PtsC) && |r.xyPtStack| == 0
  {
    if |s.xyPtStack| == 2 then Draw(s.(xyPtStack := []), Acl(s.xyPtStack[0], s.xyPtStack[1]))
    else RegisterCallback(s, Cline2PtsC).(xyPtStack := [], lineEditStack := [])
  }

  function Cline2PtsCollect(s: Session, picks: seq<Pick>, k: Kernel): (r: Session)
    ensures Raises(s, picks) ==> r == Raise(s, AttributeError)
    ensures ActiveWp(s).Some? && |s.lineEditStack| == 0 ==>
      var p := Picked(s, picks, k);
      r == if |p.xyPtStack| == 2 then Cline2Pts(p) else p
  {
    var b := Collect(s, picks, k);
    if !Raises(s, picks) && |b.xyPtStack| == 2 then Cline2Pts(b) else b
  }

  /** `clineAng`: a point and an angle (in degrees, not scaled). The stack
      is cleared only after the draw, so a raise leaves the older points. */
  function ClineAng(s: Session): (r: Session)
    ensures |s.xyPtStack| > 0 && |s.floatStack| > 0 && ActiveWp(s).Some? ==>
      r.xyPtStack == [] && r.floatStack == Pop(s.floatStack)
      && ActiveWp(r) == Some(ActiveWp(s).value.(calls := ActiveWp(s).value.calls + [AclAngle(Top(s.xyPtStack), Top(s.floatStack))]))
    ensures !(|s.xyPtStack| > 0 && |s.floatStack| > 0) ==>
      r.callback == Some(ClineAngC) && r.xyPtStack == [] && r.floatStack == [] && r.lineEditStack == []
  {
    if |s.xyPtStack| > 0 && |s.floatStack| > 0 then
      var t := s.(floatStack := Pop(s.floatStack), xyPtStack := Pop(s.xyPtStack));
      if ActiveWp(s).None? then Raise(t, AttributeError)
      else Draw(t, AclAngle(Top(s.xyPtStack), Top(s.floatStack))).(xyPtStack := [])
    else RegisterCallback(s, ClineAngC).(xyPtStack := [], floatStack := [], lineEditStack := [])
  }

  function ClineAngCollect(s: Session, picks: seq<Pick>, k: Kernel): (r: Session)
    ensures Raises(s, picks) ==> r == Raise(s, AttributeError)
    ensures ActiveWp(s).Some? && |s.lineEditStack| == 0 ==>
      var p := Picked(s, picks, k);
      r == if |p.xyPtStack| > 0 && |p.floatStack| > 0 then ClineAng(p) else p
  {
    var b := Collect(s, picks, k);
    if !Raises(s, picks) && |b.xyPtStack| > 0 && |b.floatStack| > 0 then ClineAng(b) else b
  }

  /** `clineLinBisec`: the perpendicular bisector of two points; its
      starter clears nothing. */
  function ClineLinBisec(s: Session): (r: Session)
    ensures |s.xyPtStack| == 2 ==> r == Draw(s.(xyPtStack := []), LbCl(s.xyPtStack[0], s.xyPtStack[1]))
    ensures |s.xyPtStack| != 2 ==> r == RegisterCallback(s, ClineLinBisecC)
  {
    if |s.xyPtStack| == 2 then Draw(s.(xyPtStack := []), LbCl(s.xyPtStack[0], s.xyPtStack[1]))
    else RegisterCallback(s, ClineLinBisecC)
  }

  /** `clineLinBisecC` reads picks only; typed input stays on its stack. */
  function ClineLinBisecCollect(s: Session, picks: seq<Pick>, k: Kernel): (r: Session)
    ensures Raises(s, picks) ==> r == Raise(s, AttributeError)
    ensures ActiveWp(s).Some? ==>
      var p := Picked(s, picks, k);
      r == if |p.xyPtStack| == 2 then ClineLinBisec(p) else p
  {
    var a := AddVertices(s, picks, k);
    if !Raises(s, picks) && |a.xyPtStack| == 2 then ClineLinBisec(a) else a
  }

  /** The drawing call for a circle: a construction circle for `ccirc`,
      a profile circle for `circle`. */
  function CircleCall(construction: bool, c: Pt2, rad: Radius): Sketch {
    if construction then CCircle(c, rad) else Circle(c, rad)
  }

  /** The circle both `ccirc` and `circle` draw from the stacks: centre and
      a second point, or centre and a typed radius in mm. Both stacks end
      empty; without a workplane `wp.p2p_dist` or `wp.circle` raises after
      the pops. */
  function CircleFrom(s: Session, construction: bool): (r: Session)
    requires |s.xyPtStack| == 2 || (|s.xyPtStack| > 0 && |s.floatStack| > 0)
    ensures |s.xyPtStack| == 2 && ActiveWp(s).None? ==> r == Raise(s.(xyPtStack := []), AttributeError)
    ensures |s.xyPtStack| == 2 && ActiveWp(s).Some? ==>
      var wp := ActiveWp(s).value;
      var c := s.xyPtStack[0];
      && ActiveWp(r) == Some(wp.(calls := wp.calls + [CircleCall(construction, c, Dist(c, s.xyPtStack[1]))]))
      && r.xyPtStack == [] && r.floatStack == []
      && r.(wpDict := s.wpDict, xyPtStack := s.xyPtStack, floatStack := s.floatStack) == s
    ensures |s.xyPtStack| != 2 && ActiveWp(s).None? ==>
      r == Raise(s.(xyPtStack := Pop(s.xyPtStack), floatStack := Pop(s.floatStack)), AttributeError)
    ensures |s.xyPtStack| != 2 && ActiveWp(s).Some? ==>
      var wp := ActiveWp(s).value;
      var rad := Given(InMm(Top(s.floatStack), s.unitscale));
      && ActiveWp(r) == Some(wp.(calls := wp.calls + [CircleCall(construction, Top(s.xyPtStack), rad)]))
      && r.xyPtStack == [] && r.floatStack == []
      && r.(wpDict := s.wpDict, xyPtStack := s.xyPtStack, floatStack := s.floatStack) == s
  {
    if |s.xyPtStack| == 2 then
      var p1 := s.xyPtStack[0];
      var p2 := s.xyPtStack[1];
      if ActiveWp(s).None? then Raise(s.(xyPtStack := []), AttributeError)
      else Draw(s.(xyPtStack := []), CircleCall(construction, p1, Dist(p1, p2))).(floatStack := [])
    else
      var t := s.(xyPtStack := Pop(s.xyPtStack), floatStack := Pop(s.floatStack));
      if ActiveWp(s).None? then Raise(t, AttributeError)
      else Draw(t, CircleCall(construction, Top(s.xyPtStack), Given(InMm(Top(s.floatStack), s.unitscale)))).(xyPtStack := [], floatStack := [])
  }

  /** `ccirc`: a construction circle, or the collector is registered. */
  function Ccirc(s: Session): (r: Session)
    ensures |s.xyPtStack| == 2 || (|s.xyPtStack| > 0 && |s.floatStack| > 0) ==> r == CircleFrom(s, true)
    ensures !(|s.xyPtStack| == 2 || (|s.xyPtStack| > 0 && |s.floatStack| > 0)) ==>
      r.callback == Some(CcircC) && r.xyPtStack == [] && r.floatStack == [] && r.lineEditStack == []
  {
    if |s.xyPtStack| == 2 || (|s.xyPtStack| > 0 && |s.floatStack| > 0) then CircleFrom(s, true)
    else RegisterCallback(s, CcircC).(xyPtStack := [], floatStack := [], lineEditStack := [])
  }

  /** `ccircC`: fires on two points, then again on a point and a number. */
  function CcircCollect(s: Session, picks: seq<Pick>, k: Kernel): (r: Session)
    ensures Raises(s, picks) ==> r == Raise(s, AttributeError)
    ensures ActiveWp(s).Some? && |s.lineEditStack| == 0 && |s.floatStack| == 0 ==>
      var p := Picked(s, picks, k);
      r == if |p.xyPtStack| == 2 then Ccirc(p) else p
  {
    var b := Collect(s, picks, k);
    if Raises(s, picks) then b
    else
      var c := if |b.xyPtStack| == 2 then Ccirc(b) else b;
      if |c.xyPtStack| > 0 && |c.floatStack| > 0 then Ccirc(c) else c
  }

  // Profile geometry

  /** `line`: with exactly two points, a line from the earlier to the later. */
  function LineCmd(s: Session): (r: Session)
    ensures |s.xyPtStack| == 2 ==> r == Draw(s.(xyPtStack := []), Line(s.xyPtStack[0], s.xyPtStack[1]))
    ensures |s.xyPtStack| != 2 ==> r == RegisterCallback(s, LineC).(xyPtStack := [])
  {
    if |s.xyPtStack| == 2 then Draw(s.(xyPtStack := []), Line(s.xyPtStack[0], s.xyPtStack[1]))
    else RegisterCallback(s, LineC).(xyPtStack := [])
  }

  function LineCollect(s: Session, picks: seq<Pick>, k: Kernel): (r: Session)
    ensures Raises(s, picks) ==> r == Raise(s, AttributeError)
    ensures ActiveWp(s).Some? && |s.lineEditStack| == 0 ==>
      var p := Picked(s, picks, k);
      r == if |p.xyPtStack| == 2 then LineCmd(p) else p
  {
    var b := Collect(s, picks, k);
    if !Raises(s, picks) && |b.xyPtStack| == 2 then LineCmd(b) else b
  }

  /** `rect`: with exactly two points, the rectangle with them as
      opposite corners, the earlier first. */
  function RectCmd(s: Session): (r: Session)
    ensures |s.xyPtStack| == 2 ==> r == Draw(s.(xyPtStack := []), Rect(s.xyPtStack[0], s.xyPtStack[1]))
    ensures |s.xyPtStack| != 2 ==> r == RegisterCallback(s, RectC).(xyPtStack := [])
  {
    if |s.xyPtStack| == 2 then Draw(s.(xyPtStack := []), Rect(s.xyPtStack[0], s.xyPtStack[1]))
    else RegisterCallback(s, RectC).(xyPtStack := [])
  }

  function RectCollect(s: Session, picks: seq<Pick>, k: Kernel): (r: Session)
    ensures Raises(s, picks) ==> r == Raise(s, AttributeError)
    ensures ActiveWp(s).Some? && |s.lineEditStack| == 0 ==>
      var p := Picked(s, picks, k);
      r == if |p.xyPtStack| == 2 then RectCmd(p) else p
  {
    var b := Collect(s, picks, k);
    if !Raises(s, picks) && |b.xyPtStack| == 2 then RectCmd(b) else b
  }

  /** `circle`: a profile circle, or the collector is registered. */
  function CircleCmd(s: Session): (r: Session)
    ensures |s.xyPtStack| == 2 || (|s.xyPtStack| > 0 && |s.floatStack| > 0) ==> r == CircleFrom(s, false)
    ensures !(|s.xyPtStack| == 2 || (|s.xyPtStack| > 0 && |s.floatStack| > 0)) ==>
      r.callback == Some(CircleC) && r.xyPtStack == [] && r.floatStack == [] && r.lineEditStack == []
  {
    if |s.xyPtStack| == 2 || (|s.xyPtStack| > 0 && |s.floatStack| > 0) then CircleFrom(s, false)
    else RegisterCallback(s, CircleC).(xyPtStack := [], floatStack := [], lineEditStack := [])
  }

  function CircleCollect(s: Session, picks: seq<Pick>, k: Kernel): (r: Session)
    ensures Raises(s, picks) ==> r == Raise(s, AttributeError)
    ensures ActiveWp(s).Some? && |s.lineEditStack| == 0 && |s.floatStack| == 0 ==>
      var p := Picked(s, picks, k);
      r == if |p.xyPtStack| == 2 then CircleCmd(p) else p
  {
    var b := Collect(s, picks, k);
    if Raises(s, picks) then b
    else
      var c := if |b.xyPtStack| == 2 then CircleCmd(b) else b;
      if |c.xyPtStack| > 0 && |c.floatStack| > 0 then CircleCmd(c) else c
  }

  /** `arcc2p`: three points, taken as centre, start and end in pick order. */
  function Arcc2pCmd(s: Session): (r: Session)
    ensures |s.xyPtStack| == 3 ==>
      if ActiveWp(s).None? then r == Raise(s.(xyPtStack := []), AttributeError)
      else r == Draw(s.(xyPtStack := []), Arcc2p(s.xyPtStack[0], s.xyPtStack[1], s.xyPtStack[2])).(floatStack := [])
    ensures |s.xyPtStack| != 3 ==> r == RegisterCallback(s, Arcc2pC).(xyPtStack := [])
  {
    if |s.xyPtStack| == 3 then
      var d := Draw(s.(xyPtStack := []), Arcc2p(s.xyPtStack[0], s.xyPtStack[1], s.xyPtStack[2]));
      if ActiveWp(s).None? then d else d.(floatStack := [])
    else RegisterCallback(s, Arcc2pC).(xyPtStack := [])
  }

  function Arcc2pCollect(s: Session, picks: seq<Pick>, k: Kernel): (r: Session)
    ensures Raises(s, picks) ==> r == Raise(s, AttributeError)
    ensures ActiveWp(s).Some? && |s.lineEditStack| == 0 ==>
      var p := Picked(s, picks, k);
      r == if |p.xyPtStack| == 3 then Arcc2pCmd(p) else p
  {
    var b := Collect(s, picks, k);
    if !Raises(s, picks) && |b.xyPtStack| == 3 then Arcc2pCmd(b) else b
  }

  /** `arc3p`: three points popped as start, end and a third point on the
      arc, so the last pick is the start and the first pick the third
      point. */
  function Arc3pCmd(s: Session): (r: Session)
    ensures |s.xyPtStack| == 3 ==>
      if ActiveWp(s).None? then r == Raise(s.(xyPtStack := []), AttributeError)
      else r == Draw(s.(xyPtStack := []), Arc3p(s.xyPtStack[2], s.xyPtStack[1], s.xyPtStack[0])).(floatStack := [])
    ensures |s.xyPtStack| != 3 ==> r == RegisterCallback(s, Arc3pC).(xyPtStack := [])
  {
    if |s.xyPtStack| == 3 then
      var d := Draw(s.(xyPtStack := []), Arc3p(s.xyPtStack[2], s.xyPtStack[1], s.xyPtStack[0]));
      if ActiveWp(s).None? then d else d.(floatStack := [])
    else RegisterCallback(s, Arc3pC).(xyPtStack := [])
  }

  function Arc3pCollect(s: Session, picks: seq<Pick>, k: Kernel): (r: Session)
    ensures Raises(s, picks) ==> r == Raise(s, AttributeError)
    ensures ActiveWp(s).Some? && |s.lineEditStack| == 0 ==>
      var p := Picked(s, picks, k);
      r == if |p.xyPtStack| == 3 then Arc3pCmd(p) else p
  {
    var b := Collect(s, picks, k);
    if !Raises(s, picks) && |b.xyPtStack| == 3 then Arc3pCmd(b) else b
  }

  // Deleting profile elements

  /** The `while shapeStack` loop of `delEl`: pop the top pick, remove it
      from the edge list if it is there, repeat. */
  function Drain(edges: seq<Pick>, stack: seq<Pick>): (r: seq<Pick>)
    ensures |r| <= |edges|
    decreases |stack|
  {
    if |stack| == 0 then edges
    else Drain(RemoveFirst(edges, Top(stack)), Pop(stack))
  }

  /** The picks of `edges` that are not in `gone`, in order: the reference
      the deletion loop is compared with. */
  function Without(edges: seq<Pick>, gone: seq<Pick>): (r: seq<Pick>)
    ensures |r| <= |edges|
  {
    if |edges| == 0 then []
    else (if edges[0] in gone then [] else [edges[0]]) + Without(edges[1..], gone)
  }

  predicate Distinct(edges: seq<Pick>) {
    forall i, j :: 0 <= i < j < |edges| ==> edges[i] != edges[j]
  }

  /** Exactly the edges outside `gone` survive. */
  lemma {:induction false} WithoutMembers(edges: seq<Pick>, gone: seq<Pick>, e: Pick)
    ensures e in Without(edges, gone) <==> e in edges && e !in gone
    decreases |edges|
  {
    if |edges| > 0 {
      WithoutMembers(edges[1..], gone, e);
      assert edges == [edges[0]] + edges[1..];
    }
  }

  lemma {:induction false} WithoutAppend(a: seq<Pick>, b: seq<Pick>, gone: seq<Pick>)
    ensures Without(a + b, gone) == Without(a, gone) + Without(b, gone)
    decreases |a|
  {
    if |a| == 0 {
      assert a + b == b;
    } else {
      assert (a + b)[0] == a[0];
      assert (a + b)[1..] == a[1..] + b;
      WithoutAppend(a[1..], b, gone);
    }
  }

  lemma {:induction false} WithoutNone(edges: seq<Pick>, gone: seq<Pick>)
    requires forall e :: e in edges ==> e !in gone
    ensures Without(edges, gone) == edges
    decreases |edges|
  {
    if |edges| > 0 {
      assert edges[0] in edges;
      WithoutNone(edges[1..], gone);
    }
  }

  lemma {:induction false} WithoutTwice(edges: seq<Pick>, a: seq<Pick>, b: seq<Pick>)
    ensures Without(Without(edges, a), b) == Without(edges, b + a)
    decreases |edges|
  {
    if |edges| > 0 {
      WithoutTwice(edges[1..], a, b);
      var w := Without(edges, a);
      if edges[0] in a {
        assert w == Without(edges[1..], a);
      } else {
        assert w == [edges[0]] + Without(edges[1..], a);
        assert w[0] == edges[0] && w[1..] == Without(edges[1..], a);
      }
    }
  }

  lemma {:induction false} WithoutDistinct(edges: seq<Pick>, gone: seq<Pick>)
    requires Distinct(edges)
    ensures Distinct(Without(edges, gone))
    decreases |edges|
  {
    if |edges| > 0 {
      var rest := edges[1..];
      assert Distinct(rest) by {
        forall i, j | 0 <= i < j < |rest|
          ensures rest[i] != rest[j]
        {
          assert rest[i] == edges[i + 1] && rest[j] == edges[j + 1];
        }
      }
      WithoutDistinct(rest, gone);
      var w := Without(rest, gone);
      WithoutMembers(rest, gone, edges[0]);
      if edges[0] !in gone {
        assert edges[0] !in rest by {
          forall j | 0 <= j < |rest|
            ensures rest[j] != edges[0]
          {
            assert rest[j] == edges[j + 1];
          }
        }
        var r := [edges[0]] + w;
        forall i, j | 0 <= i < j < |r|
          ensures r[i] != r[j]
        {
          assert r[j] == w[j - 1];
          if i > 0 {
            assert r[i] == w[i - 1];
          }
        }
      }
    }
  }

  /** In a list without repeats an element does not come back later. */
  lemma NotLater(edges: seq<Pick>, i: nat)
    requires Distinct(edges) && i < |edges|
    ensures edges[i] !in edges[i + 1..]
  {
    var post := edges[i + 1..];
    forall j | 0 <= j < |post|
      ensures post[j] != edges[i]
    {
      assert post[j] == edges[i + 1 + j];
    }
  }

  /** On a list without repeats, `remove` is filtering the element out. */
  lemma RemoveFirstIsWithout(edges: seq<Pick>, x: Pick)
    requires Distinct(edges)
    ensures RemoveFirst(edges, x) == Without(edges, [x])
  {
    if x in edges {
      var i := IndexOf(edges, x);
      NotLater(edges, i);
      RemovePresent(edges[..i], x, edges[i + 1..]);
      assert edges == edges[..i] + [x] + edges[i + 1..];
    } else {
      WithoutNone(edges, [x]);
    }
  }

  lemma RemovePresent(pre: seq<Pick>, x: Pick, post: seq<Pick>)
    requires x !in pre && x !in post
    ensures Without(pre + [x] + post, [x]) == pre + post
  {
    WithoutAppend(pre, [x] + post, [x]);
    assert pre + [x] + post == pre + ([x] + post);
    assert ([x] + post)[1..] == post;
    assert Without([x] + post, [x]) == Without(post, [x]);
    WithoutNone(pre, [x]);
    WithoutNone(post, [x]);
  }

  /** Draining removes exactly the picked edges, keeping the order of the
      others, when the edge list has no repeats. */
  lemma {:induction false} DrainIsWithout(edges: seq<Pick>, stack: seq<Pick>)
    requires Distinct(edges)
    ensures Drain(edges, stack) == Without(edges, stack)
    decreases |stack|
  {
    if |stack| == 0 {
      WithoutNone(edges, []);
    } else {
      var x := Top(stack);
      RemoveFirstIsWithout(edges, x);
      WithoutDistinct(edges, [x]);
      DrainIsWithout(Without(edges, [x]), Pop(stack));
      WithoutTwice(edges, [x], Pop(stack));
      PopTop(stack);
    }
  }


  /** `delEl`: with picks waiting, every picked profile element leaves the
      active workplane's edge list; otherwise the collector is registered. */
  function DelEl(s: Session): (r: Session)
    ensures |s.shapeStack| > 0 && ActiveWp(s).Some? ==>
      && r.shapeStack == []
      && ActiveWp(r) == Some(ActiveWp(s).value.(edgeList := Drain(ActiveWp(s).value.edgeList, s.shapeStack)))
      && r.(wpDict := s.wpDict, shapeStack := s.shapeStack) == s
    ensures |s.shapeStack| > 0 && ActiveWp(s).None? ==> r == Raise(s.(shapeStack := Pop(s.shapeStack)), AttributeError)
    ensures |s.shapeStack| == 0 ==> r == RegisterCallback(s, DelElC).(xyPtStack := [])
  {
    if |s.shapeStack| > 0 then
      match ActiveWp(s)
      case None => Raise(s.(shapeStack := Pop(s.shapeStack)), AttributeError)
      case Some(wp) => UpdateActiveWp(s.(shapeStack := []), wp.(edgeList := Drain(wp.edgeList, s.shapeStack)))
    else RegisterCallback(s, DelElC).(xyPtStack := [])
  }

  /** `delElC`: every pick goes on `shapeStack`, then the deletion runs. */
  function DelElCollect(s: Session, picks: seq<Pick>): (r: Session)
    ensures |s.shapeStack + picks| > 0 ==> r == DelEl(s.(shapeStack := s.shapeStack + picks))
  {
    var t := s.(shapeStack := s.shapeStack + picks);
    if |t.shapeStack| > 0 then DelEl(t) else t
  }

  /** Deleting picked elements from an edge list without repeats leaves
      exactly the elements that were not picked, in their order. */
  lemma DelElRemovesPicked(s: Session, picks: seq<Pick>)
    requires ActiveWp(s).Some? && Distinct(ActiveWp(s).value.edgeList)
    requires |s.shapeStack| == 0 && |picks| > 0
    ensures var r := DelElCollect(s, picks);
      && ActiveWp(r).Some?
      && ActiveWp(r).value.edgeList == Without(ActiveWp(s).value.edgeList, picks)
      && r.shapeStack == []
  {
    assert s.shapeStack + picks == picks;
    DrainIsWithout(ActiveWp(s).value.edgeList, picks);
  }

  // Which pick becomes which argument

  /** One picked vertex, with no typed input waiting, adds its point in
      the active workplane's coordinates and nothing else. */
  lemma OneVertex(s: Session, a: Pnt, k: Kernel)
    requires ActiveWp(s).Some? && |s.lineEditStack| == 0
    ensures Collect(s, [Vertex(a)], k) == s.(xyPtStack := s.xyPtStack + [k.toLocal(ActiveWp(s).value, a)])
  {
    OnePick(Vertex(a));
  }

  /** Picking the two end points of a line one after the other draws the
      line from the first pick to the second and empties the point stack. */
  lemma LineFromTwoPicks(s: Session, a: Pnt, b: Pnt, k: Kernel)
    requires ActiveWp(s).Some? && |s.xyPtStack| == 0 && |s.lineEditStack| == 0
    ensures var wp := ActiveWp(s).value;
      var r := LineCollect(LineCollect(s, [Vertex(a)], k), [Vertex(b)], k);
      && ActiveWp(r) == Some(wp.(calls := wp.calls + [Line(k.toLocal(wp, a), k.toLocal(wp, b))]))
      && r.xyPtStack == []
  {
    var wp := ActiveWp(s).value;
    OneVertex(s, a, k);
    var s1 := LineCollect(s, [Vertex(a)], k);
    assert s1.xyPtStack == [k.toLocal(wp, a)];
    OneVertex(s1, b, k);
  }

  /** A point typed as `x,y` counts as a pick: after the first end point
      of a line is picked, the second may be typed instead. */
  lemma LineEndTyped(s: Session, k: Kernel, a: Pnt, xs: string, ys: string)
    requires ActiveWp(s).Some? && |s.xyPtStack| == 0 && |s.lineEditStack| == 0
    requires ',' !in xs && ',' !in ys && k.float(xs).Some? && k.float(ys).Some?
    ensures LineCollect(s, [Vertex(a)], k) == s.(xyPtStack := [k.toLocal(ActiveWp(s).value, a)])
    ensures var wp := ActiveWp(s).value;
      var p := k.toLocal(wp, a);
      var q := Pt2(InMm(k.float(xs).value, s.unitscale), InMm(k.float(ys).value, s.unitscale));
      var r := LineCollect(s.(xyPtStack := [p], lineEditStack := [xs + [','] + ys]), [], k);
      && ActiveWp(r) == Some(wp.(calls := wp.calls + [Line(p, q)]))
      && r.xyPtStack == [] && r.lineEditStack == []
  {
    var wp := ActiveWp(s).value;
    var p := k.toLocal(wp, a);
    var q := Pt2(InMm(k.float(xs).value, s.unitscale), InMm(k.float(ys).value, s.unitscale));
    OneVertex(s, a, k);
    var t := s.(xyPtStack := [p], lineEditStack := [xs + [','] + ys]);
    TypedPointCollected(t, k, xs, ys);
    assert Vertices([]) == [];
    assert LineCollect(t, [], k) == LineCmd(t.(lineEditStack := [], xyPtStack := [p, q]));
  }

  /** The same for a rectangle's two corners. */
  lemma RectFromTwoPicks(s: Session, a: Pnt, b: Pnt, k: Kernel)
    requires ActiveWp(s).Some? && |s.xyPtStack| == 0 && |s.lineEditStack| == 0
    ensures var wp := ActiveWp(s).value;
      var r := RectCollect(RectCollect(s, [Vertex(a)], k), [Vertex(b)], k);
      && ActiveWp(r) == Some(wp.(calls := wp.calls + [Rect(k.toLocal(wp, a), k.toLocal(wp, b))]))
      && r.xyPtStack == []
  {
    var wp := ActiveWp(s).value;
    OneVertex(s, a, k);
    var s1 := RectCollect(s, [Vertex(a)], k);
    assert s1.xyPtStack == [k.toLocal(wp, a)];
    OneVertex(s1, b, k);
  }

  /** Three picks for `arc3p`, one at a time: the last pick is the start
      point and the first pick the third point on the arc. */
  lemma Arc3pFromThreePicks(s: Session, a: Pnt, b: Pnt, c: Pnt, k: Kernel)
    requires ActiveWp(s).Some? && |s.xyPtStack| == 0 && |s.lineEditStack| == 0
    ensures var wp := ActiveWp(s).value;
      var r := Arc3pCollect(Arc3pCollect(Arc3pCollect(s, [Vertex(a)], k), [Vertex(b)], k), [Vertex(c)], k);
      && ActiveWp(r) == Some(wp.(calls := wp.calls + [Arc3p(k.toLocal(wp, c), k.toLocal(wp, b), k.toLocal(wp, a))]))
      && r.xyPtStack == [] && r.floatStack == []
  {
    var wp := ActiveWp(s).value;
    OneVertex(s, a, k);
    var s1 := Arc3pCollect(s, [Vertex(a)], k);
    assert s1.xyPtStack == [k.toLocal(wp, a)];
    OneVertex(s1, b, k);
    var s2 := Arc3pCollect(s1, [Vertex(b)], k);
    assert s2.xyPtStack == [k.toLocal(wp, a), k.toLocal(wp, b)];
    OneVertex(s2, c, k);
  }

  /** Three picks for `arcc2p`: centre, start and end in pick order. */
  lemma Arcc2pFromThreePicks(s: Session, a: Pnt, b: Pnt, c: Pnt, k: Kernel)
    requires ActiveWp(s).Some? && |s.xyPtStack| == 0 && |s.lineEditStack| == 0
    ensures var wp := ActiveWp(s).value;
      var r := Arcc2pCollect(Arcc2pCollect(Arcc2pCollect(s, [Vertex(a)], k), [Vertex(b)], k), [Vertex(c)], k);
      && ActiveWp(r) == Some(wp.(calls := wp.calls + [Arcc2p(k.toLocal(wp, a), k.toLocal(wp, b), k.toLocal(wp, c))]))
      && r.xyPtStack == [] && r.floatStack == []
  {
    var wp := ActiveWp(s).value;
    OneVertex(s, a, k);
    var s1 := Arcc2pCollect(s, [Vertex(a)], k);
    assert s1.xyPtStack == [k.toLocal(wp, a)];
    OneVertex(s1, b, k);
    var s2 := Arcc2pCollect(s1, [Vertex(b)], k);
    assert s2.xyPtStack == [k.toLocal(wp, a), k.toLocal(wp, b)];
    OneVertex(s2, c, k);
  }

  /** A picked centre and a typed radius give a construction circle whose
      radius is the number in mm; both stacks end empty. */
  lemma CcircFromPickAndNumber(s: Session, a: Pnt, text: string, k: Kernel)
    requires ActiveWp(s).Some? && |s.xyPtStack| == 0 && |s.floatStack| == 0
    requires s.lineEditStack == [text] && ',' !in text && k.float(text).Some?
    ensures var wp := ActiveWp(s).value;
      var r := CcircCollect(s, [Vertex(a)], k);
      && ActiveWp(r) == Some(wp.(calls := wp.calls + [CCircle(k.toLocal(wp, a), Given(InMm(k.float(text).value, s.unitscale)))]))
      && r.xyPtStack == [] && r.floatStack == [] && r.lineEditStack == []
  {
    OnePick(Vertex(a));
    var wp := ActiveWp(s).value;
    var b := Collect(s, [Vertex(a)], k);
    assert b.xyPtStack == [k.toLocal(wp, a)];
    assert b.floatStack == [k.float(text).value];
  }

  /** Two picked points give a profile circle through the second pick. */
  lemma CircleFromTwoPicks(s: Session, a: Pnt, b: Pnt, k: Kernel)
    requires ActiveWp(s).Some? && |s.lineEditStack| == 0 && |s.xyPtStack| == 0
    ensures var wp := ActiveWp(s).value;
      var pa := k.toLocal(wp, a);
      var r := CircleCollect(s, [Vertex(a), Vertex(b)], k);
      && ActiveWp(r) == Some(wp.(calls := wp.calls + [Circle(pa, Dist(pa, k.toLocal(wp, b)))]))
      && r.xyPtStack == [] && r.floatStack == []
  {
    var wp := ActiveWp(s).value;
    OnePick(Vertex(a));
    OnePick(Vertex(b));
    VerticesAppend([Vertex(a)], [Vertex(b)]);
    assert [Vertex(a)] + [Vertex(b)] == [Vertex(a), Vertex(b)];
    var c := Collect(s, [Vertex(a), Vertex(b)], k);
    assert c.xyPtStack == [k.toLocal(wp, a), k.toLocal(wp, b)];
  }

  /** One picked point draws both construction lines through it, and the
      collector stays registered for the next point. */
  lemma ClineHVFromPick(s: Session, a: Pnt, k: Kernel)
    requires ActiveWp(s).Some? && |s.xyPtStack| == 0 && |s.lineEditStack| == 0
    ensures var wp := ActiveWp(s).value;
      var r := ClineHVCollect(s, [Vertex(a)], k);
      && ActiveWp(r) == Some(wp.(calls := wp.calls + [HVCl(k.toLocal(wp, a))]))
      && r.xyPtStack == [] && r.callback == s.callback
  {
    OnePick(Vertex(a));
  }

  /** Two points picked one after the other: the construction line runs
      through them with the first pick first. */
  lemma Cline2PtsFromTwoPicks(s: Session, a: Pnt, b: Pnt, k: Kernel)
    requires ActiveWp(s).Some? && |s.xyPtStack| == 0 && |s.lineEditStack| == 0
    ensures var wp := ActiveWp(s).value;
      var r := Cline2PtsCollect(Cline2PtsCollect(s, [Vertex(a)], k), [Vertex(b)], k);
      && ActiveWp(r) == Some(wp.(calls := wp.calls + [Acl(k.toLocal(wp, a), k.toLocal(wp, b))]))
      && r.xyPtStack == []
  {
    var wp := ActiveWp(s).value;
    OneVertex(s, a, k);
    var s1 := Cline2PtsCollect(s, [Vertex(a)], k);
    assert s1.xyPtStack == [k.toLocal(wp, a)];
    OneVertex(s1, b, k);
  }

  /** A picked point, then an angle typed in degrees: the line goes
      through the point at that angle, unscaled, and both stacks end
      empty. */
  lemma ClineAngFromPickAndAngle(s: Session, a: Pnt, text: string, k: Kernel)
    requires ActiveWp(s).Some? && |s.xyPtStack| == 0 && |s.floatStack| == 0 && |s.lineEditStack| == 0
    requires ',' !in text && k.float(text).Some?
    ensures var wp := ActiveWp(s).value;
      var s1 := ClineAngCollect(s, [Vertex(a)], k);
      var r := ClineAngCollect(s1.(lineEditStack := s1.lineEditStack + [text]), [], k);
      && s1 == s.(xyPtStack := [k.toLocal(wp, a)])
      && ActiveWp(r) == Some(wp.(calls := wp.calls + [AclAngle(k.toLocal(wp, a), k.float(text).value)]))
      && r.xyPtStack == [] && r.floatStack == [] && r.lineEditStack == []
  {
    var wp := ActiveWp(s).value;
    OneVertex(s, a, k);
    var s1 := ClineAngCollect(s, [Vertex(a)], k);
    assert s1 == s.(xyPtStack := [k.toLocal(wp, a)]);
    var t := s1.(lineEditStack := [text]);
    assert Vertices([]) == [];
    assert Collect(t, [], k) == t.(lineEditStack := [], floatStack := [k.float(text).value]);
  }

  /** Two points picked one after the other: their perpendicular bisector,
      first pick first; typed input is left on its stack. */
  lemma ClineLinBisecFromTwoPicks(s: Session, a: Pnt, b: Pnt, k: Kernel)
    requires ActiveWp(s).Some? && |s.xyPtStack| == 0
    ensures var wp := ActiveWp(s).value;
      var r := ClineLinBisecCollect(ClineLinBisecCollect(s, [Vertex(a)], k), [Vertex(b)], k);
      && ActiveWp(r) == Some(wp.(calls := wp.calls + [LbCl(k.toLocal(wp, a), k.toLocal(wp, b))]))
      && r.xyPtStack == [] && r.lineEditStack == s.lineEditStack
  {
    var wp := ActiveWp(s).value;
    OnePick(Vertex(a));
    OnePick(Vertex(b));
    var s1 := ClineLinBisecCollect(s, [Vertex(a)], k);
    assert s1 == s.(xyPtStack := [k.toLocal(wp, a)]);
  }

  /** A typed number y alone draws the horizontal line through (0, y mm). */
  lemma ClineHFromNumber(s: Session, text: string, k: Kernel)
    requires ActiveWp(s).Some? && |s.xyPtStack| == 0
    requires s.lineEditStack == [text] && ',' !in text && k.float(text).Some?
    ensures var wp := ActiveWp(s).value;
      var r := ClineHCollect(s, [], k);
      && ActiveWp(r) == Some(wp.(calls := wp.calls + [HCl(Pt2(0.0, InMm(k.float(text).value, s.unitscale)))]))
      && r.xyPtStack == [] && r.floatStack == s.floatStack
  {
    assert Vertices([]) == [];
  }

  /** A typed number x alone draws the vertical line through (x mm, 0). */
  lemma ClineVFromNumber(s: Session, text: string, k: Kernel)
    requires ActiveWp(s).Some? && |s.xyPtStack| == 0
    requires s.lineEditStack == [text] && ',' !in text && k.float(text).Some?
    ensures var wp := ActiveWp(s).value;
      var r := ClineVCollect(s, [], k);
      && ActiveWp(r) == Some(wp.(calls := wp.calls + [VCl(Pt2(InMm(k.float(text).value, s.unitscale), 0.0))]))
      && r.xyPtStack == [] && r.floatStack == s.floatStack
  {
    assert Vertices([]) == [];
  }
}

=== FILE: mainwindow.dfy ===
/** The main window's session state: the pick and input stacks the
    interactive commands collect into, the registered collector callback,
    the draw list, the workplane dictionary and counter, the unit setting
    and the transparency table. Qt widgets, the 3D view and the kernel's
    geometry are replaced by opaque values and by the oracles in `Kernel`. */
module MainWindow {
  import opened Wrappers
  import opened Text
  import opened OrderedDicts
  import opened LabelTree

  /** A 2-D point `(x, y)` in workplane coordinates. */
  datatype Pt2 = Pt2(x: real, y: real)

  /** A 3-D point (`gp_Pnt`). */
  datatype Pnt = Pnt(x: real, y: real, z: real)

  /** A shape the user picked in the 3D view, by topological kind. */
  datatype Pick = Vertex(at: Pnt) | Edge(id: nat) | Face(id: nat) | Solid(id: nat)

  /** The radius given to `wp.circle`: `wp.p2p_dist(p1, p2)` or a number. */
  datatype Radius = Dist(p1: Pt2, p2: Pt2) | Given(r: real)

  /** The drawing calls a workplane receives, with their arguments in the
      order they are passed. */
  datatype Sketch =
    | HCl(p: Pt2)
    | VCl(p: Pt2)
    | HVCl(p: Pt2)
    | Acl(p1: Pt2, p2: Pt2)
    | AclAngle(p: Pt2, angle: real)
    | LbCl(p1: Pt2, p2: Pt2)
    | CCircle(center: Pt2, radius: Radius)
    | Line(p1: Pt2, p2: Pt2)
    | Rect(p1: Pt2, p2: Pt2)
    | Circle(center: Pt2, radius: Radius)
    | Arcc2p(pc: Pt2, ps: Pt2, pe: Pt2)
    | Arc3p(ps: Pt2, pe: Pt2, p3: Pt2)

  /** How a workplane was constructed: the default one, from three points
      (w from p1 towards the origin, u from the origin towards the third
      point) or from a plane face and a face giving the u direction. */
  datatype Placement = Default | By3Pts(p1: Pnt, origin: Pnt, uPoint: Pnt) | OnFace(face: Pick, faceU: Pick)

  /** A workplane object: how it was placed, the drawing calls it received,
      and its profile edge list (filled by the workplane's own drawing code,
      which is not part of this model). */
  datatype Workplane = Workplane(placement: Placement, calls: seq<Sketch>, edgeList: seq<Pick>)

  /** The collector callbacks an interactive command can register. */
  datatype Op =
    | ClineHC | ClineVC | ClineHVC | Cline2PtsC | ClineAngC | ClineLinBisecC | CcircC
    | LineC | RectC | CircleC | Arcc2pC | Arc3pC | DelElC
    | WpBy3PtsC | WpOnFaceC | ExtrudeC | RevolveC | FilletC

  /** What `doc.label_dict[uid]` holds for an assembly: whether it is one,
      the entry of the label it refers to, and its inverse location. */
  datatype LabelInfo = LabelInfo(isAssy: bool, refEntry: Option<string>, invLoc: Loc)

  /** Document changes a command asks for, in the order asked. */
  datatype Event =
    | Extruded(wp: string, name: string, length: real, tag: int, loc: Loc)
    | Revolved(wp: string, name: string, axisFrom: Pnt, axisTo: Pnt, tag: int, loc: Loc)
    | Filleted(uid: string, radius: real, edges: seq<Pick>, result: Shape)

  /** The session. `None` stands for the source's `0` in the active uids and
      for an unset callback or clicked item; `parts` is the document's part
      dictionary and `labels` its label dictionary, as the session reads
      them; `fault` is the exception the last callback let escape. */
  datatype Session = Session(
    units: string,
    unitscale: real,
    drawList: seq<string>,
    floatStack: seq<real>,
    xyPtStack: seq<Pt2>,
    ptStack: seq<Pnt>,
    edgeStack: seq<Pick>,
    faceStack: seq<Pick>,
    shapeStack: seq<Pick>,
    lineEditStack: seq<string>,
    callback: Option<Op>,
    transparency: map<string, real>,
    wpDict: Dict<string, Workplane>,
    wpNmbr: nat,
    activeWpUID: Option<string>,
    activeAsyUID: Option<string>,
    activePartUID: Option<string>,
    activePart: Option<Shape>,
    itemClicked: Option<string>,
    parts: Dict<string, Shape>,
    labels: map<string, LabelInfo>,
    log: seq<Event>,
    fault: Option<PyError>)

  /** The kernel and parsing calls the session depends on, as oracles:
      Python's `float()` on a text (None for ValueError), a 3-D point in a
      workplane's own coordinates, `wp.makeWire()`, the edges of a shape,
      and the fillet builder (None when it raises RuntimeError). */
  datatype Kernel = Kernel(
    float: string -> Option<real>,
    toLocal: (Workplane, Pnt) -> Pt2,
    makeWire: Workplane -> bool,
    edgesOf: Shape -> seq<Pick>,
    fillet: (Shape, real, seq<Pick>) -> Option<Shape>)

  /** `_unitDict`. */
  function UnitScale(units: string): Option<real> {
    if units == "mm" then Some(1.0)
    else if units == "in" then Some(25.4)
    else if units == "ft" then Some(304.8)
    else None
  }

  /** The uid `get_wp_uid` gives the n-th workplane. */
  function WpName(n: nat): string {
    "wp" + NatToString(n)
  }

  lemma WpNameInjective(m: nat, n: nat)
    requires WpName(m) == WpName(n)
    ensures m == n
  {
    assert WpName(m)[2..] == NatToString(m);
    assert WpName(n)[2..] == NatToString(n);
    NatToStringInjective(m, n);
  }

  /** The state right after the window is built, over a loaded document. */
  function Start(parts: Dict<string, Shape>, labels: map<string, LabelInfo>): (s: Session)
    ensures s.units == "mm" && UnitScale(s.units) == Some(s.unitscale)
    ensures s.wpNmbr == 1 && s.callback.None?
  {
    Session("mm", 1.0, [], [], [], [], [], [], [], [], None, map[], Empty(), 1,
            None, None, None, None, None, parts, labels, [], None)
  }

  /** What the session keeps true: the dictionaries are well formed, the
      scale is the one the unit name selects, every workplane uid was made
      from a counter value below the current one, and the active workplane
      is in the dictionary. */
  ghost predicate Valid(s: Session) {
    && s.wpDict.Valid()
    && s.parts.Valid()
    && UnitScale(s.units) == Some(s.unitscale)
    && s.wpNmbr >= 1
    && (forall n: nat :: n >= s.wpNmbr ==> WpName(n) !in s.wpDict.values)
    && (s.activeWpUID.Some? ==> s.activeWpUID.value in s.wpDict.values)
  }

  lemma StartValid(parts: Dict<string, Shape>, labels: map<string, LabelInfo>)
    requires parts.Valid()
    ensures Valid(Start(parts, labels))
  {
  }

  function Top<T>(xs: seq<T>): T
    requires |xs| > 0
  {
    xs[|xs| - 1]
  }

  function Pop<T>(xs: seq<T>): seq<T>
    requires |xs| > 0
  {
    xs[..|xs| - 1]
  }

  lemma PopTop<T>(xs: seq<T>)
    requires |xs| > 0
    ensures Pop(xs) + [Top(xs)] == xs
  {
  }

  /** The exception `e` escapes the current callback: the state is left as
      it was at the raise. */
  function Raise(s: Session, e: PyError): (r: Session)
    ensures r.fault == Some(e)
  {
    s.(fault := Some(e))
  }

  /** `xs.index(x)`: the position of the first occurrence. */
  function IndexOf<T(==)>(xs: seq<T>, x: T): (i: nat)
    requires x in xs
    ensures i < |xs| && xs[i] == x && x !in xs[..i]
    decreases |xs|
  {
    if xs[0] == x then 0
    else
      var j := IndexOf(xs[1..], x);
      assert xs[..j + 1] == [xs[0]] + xs[1..][..j];
      j + 1
  }

  /** `list.remove(x)` on a list known to hold `x`, and nothing otherwise:
      the first occurrence goes, everything else keeps its order. */
  function RemoveFirst<T(==)>(xs: seq<T>, x: T): (r: seq<T>)
    ensures x !in xs ==> r == xs
    ensures x in xs ==> |r| == |xs| - 1 && r == xs[..IndexOf(xs, x)] + xs[IndexOf(xs, x) + 1..]
    ensures multiset(r) == multiset(xs) - multiset{x}
  {
    if x in xs then
      var i := IndexOf(xs, x);
      assert xs == xs[..i] + [x] + xs[i + 1..];
      xs[..i] + xs[i + 1..]
    else xs
  }

  /** `setUnits`. */
  function SetUnits(s: Session, units: string): (r: Session)
    ensures units == "mm" ==> r.units == "mm" && r.unitscale == 1.0
    ensures units == "in" ==> r.units == "in" && r.unitscale == 25.4
    ensures units == "ft" ==> r.units == "ft" && r.unitscale == 304.8
    ensures units != "mm" && units != "in" && units != "ft" ==> r == s
    ensures r.(units := s.units, unitscale := s.unitscale) == s
  {
    match UnitScale(units)
    case Some(scale) => s.(units := units, unitscale := scale)
    case None => s
  }

  /** The scale always matches the unit name, whatever is asked. */
  lemma SetUnitsKeepsValid(s: Session, units: string)
    requires Valid(s)
    ensures Valid(SetUnits(s, units))
    ensures SetUnits(SetUnits(s, units), units) == SetUnits(s, units)
  {
  }

  datatype Named = Named(s: Session, uid: string)

  /** `get_wp_uid`: names the workplane after the counter, bumps the
      counter, stores the workplane, makes it active and draws it. */
  function GetWpUid(s: Session, wp: Workplane): (r: Named)
    requires s.wpDict.Valid()
    ensures r.uid == WpName(s.wpNmbr)
    ensures r.s.wpNmbr == s.wpNmbr + 1
    ensures r.s.wpDict.values == s.wpDict.values[r.uid := wp]
    ensures r.s.activeWpUID == Some(r.uid)
    ensures r.s.drawList == s.drawList + [r.uid]
    ensures r.s.(wpNmbr := s.wpNmbr, wpDict := s.wpDict, activeWpUID := s.activeWpUID, drawList := s.drawList) == s
  {
    var uid := WpName(s.wpNmbr);
    Named(s.(wpNmbr := s.wpNmbr + 1, wpDict := Put(s.wpDict, uid, wp),
             activeWpUID := Some(uid), drawList := s.drawList + [uid]), uid)
  }

  /** The uid is new: no workplane held it before, it goes last in the
      dictionary's order, and the session stays valid. */
  lemma GetWpUidFresh(s: Session, wp: Workplane)
    requires Valid(s)
    ensures GetWpUid(s, wp).uid !in s.wpDict.values
    ensures GetWpUid(s, wp).s.wpDict.keys == s.wpDict.keys + [GetWpUid(s, wp).uid]
    ensures Valid(GetWpUid(s, wp).s)
  {
    var r := GetWpUid(s, wp);
    forall n: nat | n >= r.s.wpNmbr
      ensures WpName(n) !in r.s.wpDict.values
    {
      if WpName(n) == r.uid {
        WpNameInjective(n, s.wpNmbr);
      }
    }
  }

  /** Two workplanes made one after the other get different uids. */
  lemma {:induction false} SuccessiveWpUidsDiffer(s: Session, w1: Workplane, w2: Workplane)
    requires Valid(s)
    ensures GetWpUid(GetWpUid(s, w1).s, w2).uid != GetWpUid(s, w1).uid
    ensures GetWpUid(GetWpUid(s, w1).s, w2).uid == WpName(s.wpNmbr + 1)
  {
    var a := GetWpUid(s, w1);
    GetWpUidFresh(s, w1);
    GetWpUidFresh(a.s, w2);
  }

  /** `drawAll`: every part, in part-dictionary order, then every
      workplane, in workplane-dictionary order. */
  function DrawAll(s: Session): (r: Session)
    ensures |r.drawList| == |s.parts.keys| + |s.wpDict.keys|
    ensures r.drawList[..|s.parts.keys|] == s.parts.keys
    ensures r.drawList[|s.parts.keys|..] == s.wpDict.keys
    ensures r.(drawList := s.drawList) == s
  {
    s.(drawList := s.parts.keys + s.wpDict.keys)
  }

  /** After `drawAll` exactly the parts and workplanes are drawn, each
      once when no workplane uid is also a part uid. */
  lemma DrawAllDrawsEverything(s: Session)
    requires Valid(s)
    ensures forall u :: u in DrawAll(s).drawList <==> u in s.parts.values || u in s.wpDict.values
    ensures (forall u :: u in s.parts.values ==> u !in s.wpDict.values) ==>
      forall i, j :: 0 <= i < j < |DrawAll(s).drawList| ==> DrawAll(s).drawList[i] != DrawAll(s).drawList[j]
  {
    var d := DrawAll(s).drawList;
    var n := |s.parts.keys|;
    if forall u :: u in s.parts.values ==> u !in s.wpDict.values {
      forall i, j | 0 <= i < j < |d|
        ensures d[i] != d[j]
      {
        if j < n {
          assert d[i] == s.parts.keys[i] && d[j] == s.parts.keys[j];
        } else if i >= n {
          assert d[i] == s.wpDict.keys[i - n] && d[j] == s.wpDict.keys[j - n];
        } else {
          assert d[i] in s.parts.values && d[j] in s.wpDict.values;
        }
      }
    }
  }

  /** `drawAddPart`: appends, so a key can be listed twice. */
  function DrawAddPart(s: Session, key: string): (r: Session)
    ensures |r.drawList| == |s.drawList| + 1 && Top(r.drawList) == key
    ensures r.drawList[..|s.drawList|] == s.drawList
    ensures r.(drawList := s.drawList) == s
  {
    s.(drawList := s.drawList + [key])
  }

  /** `drawHidePart`: removes the first occurrence of a listed key. */
  function DrawHidePart(s: Session, key: string): (r: Session)
    ensures key !in s.drawList ==> r == s
    ensures key in s.drawList ==>
      r.drawList == s.drawList[..IndexOf(s.drawList, key)] + s.drawList[IndexOf(s.drawList, key) + 1..]
    ensures multiset(r.drawList) == multiset(s.drawList) - multiset{key}
    ensures r.(drawList := s.drawList) == s
  {
    s.(drawList := RemoveFirst(s.drawList, key))
  }

  /** Hiding a key that was just added to a list not holding it undoes the
      add; adding a key already listed and hiding it once leaves it listed. */
  lemma {:induction false} HideUndoesAdd(s: Session, key: string)
    ensures key !in s.drawList ==> DrawHidePart(DrawAddPart(s, key), key) == s
    ensures key in s.drawList ==> key in DrawHidePart(DrawAddPart(s, key), key).drawList
  {
    var a := DrawAddPart(s, key);
    var r := DrawHidePart(a, key);
    if key !in s.drawList {
      var i := IndexOf(a.drawList, key);
      assert a.drawList[..|s.drawList|] == s.drawList;
      assert i == |s.drawList|;
      assert r.drawList == s.drawList;
    } else {
      assert multiset(r.drawList) == multiset(s.drawList);
      assert key in multiset(s.drawList);
    }
  }

  /** `eraseAll`. */
  function EraseAll(s: Session): (r: Session)
    ensures |r.drawList| == 0
    ensures r.(drawList := s.drawList) == s
  {
    s.(drawList := [])
  }

  /** Once everything is erased there is nothing left to hide. */
  lemma HideAfterEraseAll(s: Session, key: string)
    ensures DrawHidePart(EraseAll(s), key) == EraseAll(s)
  {
  }

  /** `clearAllStacks`: every input stack but `shapeStack` is emptied. */
  function ClearAllStacks(s: Session): (r: Session)
    ensures |r.lineEditStack| == 0 && |r.floatStack| == 0 && |r.xyPtStack| == 0
    ensures |r.edgeStack| == 0 && |r.faceStack| == 0 && |r.ptStack| == 0
    ensures r.shapeStack == s.shapeStack
    ensures r.(lineEditStack := s.lineEditStack, floatStack := s.floatStack, xyPtStack := s.xyPtStack,
               edgeStack := s.edgeStack, faceStack := s.faceStack, ptStack := s.ptStack) == s
  {
    s.(lineEditStack := [], floatStack := [], xyPtStack := [], edgeStack := [], faceStack := [], ptStack := [])
  }

  /** `clearCallback`: with no callback nothing happens; otherwise the
      callback is unset and the stacks are cleared. */
  function ClearCallback(s: Session): (r: Session)
    ensures s.callback.None? ==> r == s
    ensures s.callback.Some? ==> r == ClearAllStacks(s).(callback := None)
    ensures r.callback.None? && r.shapeStack == s.shapeStack
  {
    if s.callback.Some? then ClearAllStacks(s).(callback := None) else s
  }

  /** Clearing twice is clearing once, and a cleared session holds no
      pending input. */
  lemma ClearCallbackIdempotent(s: Session)
    ensures ClearCallback(ClearCallback(s)) == ClearCallback(s)
    ensures s.callback.Some? ==> |ClearCallback(s).lineEditStack| == 0 && |ClearCallback(s).xyPtStack| == 0
  {
  }

  /** `registerCallback`: an existing callback is cleared, with its
      stacks, before the new one is installed. */
  function RegisterCallback(s: Session, op: Op): (r: Session)
    ensures r.callback == Some(op)
    ensures s.callback.Some? ==> r == ClearCallback(s).(callback := Some(op))
    ensures s.callback.None? ==> r == s.(callback := Some(op))
  {
    var t := if s.callback.Some? then ClearCallback(s) else s;
    t.(callback := Some(op))
  }

  /** Registering over a registered callback is registering on a cleared
      session: the pending input of the first command never reaches the
      second. */
  lemma RegisterReplaces(s: Session, a: Op, b: Op)
    ensures RegisterCallback(RegisterCallback(s, a), b) == RegisterCallback(ClearCallback(s), b).(
      lineEditStack := [], floatStack := [], xyPtStack := [], edgeStack := [], faceStack := [], ptStack := [])
    ensures ClearCallback(RegisterCallback(s, a)).callback.None?
  {
  }

  /** `setTransparent`: a clicked part gets transparency 0.6. */
  function SetTransparent(s: Session): (r: Session)
    ensures s.itemClicked.None? ==> r == s
    ensures s.itemClicked.Some? ==> r.itemClicked.None?
    ensures s.itemClicked.Some? && s.itemClicked.value in s.parts.values ==>
      r.transparency == s.transparency[s.itemClicked.value := 0.6]
    ensures s.itemClicked.Some? && s.itemClicked.value !in s.parts.values ==> r.transparency == s.transparency
  {
    match s.itemClicked
    case None => s
    case Some(uid) =>
      if uid in s.parts.values then s.(transparency := s.transparency[uid := 0.6], itemClicked := None)
      else s.(itemClicked := None)
  }

  /** `setOpaque`: a clicked part loses its transparency entry; a part
      with no entry raises KeyError (and stays clicked). */
  function SetOpaque(s: Session): (r: Session)
    ensures s.itemClicked.None? ==> r == s
    ensures s.itemClicked.Some? && s.itemClicked.value in s.parts.values && s.itemClicked.value !in s.transparency ==>
      r.fault == Some(KeyError) && r.transparency == s.transparency && r.itemClicked == s.itemClicked
    ensures s.itemClicked.Some? && s.itemClicked.value in s.parts.values && s.itemClicked.value in s.transparency ==>
      r.transparency.Keys == s.transparency.Keys - {s.itemClicked.value} && r.itemClicked.None? && r.fault == s.fault
    ensures s.itemClicked.Some? && s.itemClicked.value !in s.parts.values ==>
      r == s.(itemClicked := None)
    ensures forall u :: u in r.transparency ==> u in s.transparency && r.transparency[u] == s.transparency[u]
  {
    match s.itemClicked
    case None => s
    case Some(uid) =>
      if uid in s.parts.values then
        if uid in s.transparency then s.(transparency := s.transparency - {uid}, itemClicked := None)
        else Raise(s, KeyError)
      else s.(itemClicked := None)
  }

  /** Making a part transparent and then opaque again restores the
      transparency table of a part that had no entry. */
  lemma OpaqueUndoesTransparent(s: Session, uid: string)
    requires s.itemClicked == Some(uid) && uid in s.parts.values && uid !in s.transparency
    ensures SetOpaque(SetTransparent(s).(itemClicked := Some(uid))).transparency == s.transparency
    ensures SetOpaque(s).fault == Some(KeyError)
  {
    var t := SetTransparent(s).(itemClicked := Some(uid));
    assert t.transparency == s.transparency[uid := 0.6];
    assert SetOpaque(t).transparency == t.transparency - {uid};
    assert t.transparency - {uid} == s.transparency;
  }
}

=== FILE: ordered_dicts.dfy ===
/** Python dictionaries: a finite map that also remembers the order in
    which keys were first inserted (iteration order). */
module OrderedDicts {

  datatype Dict<K, V> = Dict(keys: seq<K>, values: map<K, V>) {

    /** The key list lists every key of the map exactly once. */
    ghost predicate Valid() {
      && (forall i, j :: 0 <= i < j < |keys| ==> keys[i] != keys[j])
      && values.Keys == (set x | x in keys)
    }
  }

  function Empty<K, V>(): (d: Dict<K, V>)
    ensures d.Valid() && |d.keys| == 0 && d.values == map[]
  {
    Dict([], map[])
  }

  /** `d[k] = v`: an existing key keeps its position, a new key goes last. */
  function Put<K, V>(d: Dict<K, V>, k: K, v: V): (r: Dict<K, V>)
    requires d.Valid()
    ensures r.Valid()
    ensures r.values == d.values[k := v]
    ensures k in d.values ==> r.keys == d.keys
    ensures k !in d.values ==> r.keys == d.keys + [k]
  {
    if k in d.values then Dict(d.keys, d.values[k := v])
    else Dict(d.keys + [k], d.values[k := v])
  }
}

=== FILE: serial.dfy ===
/** The uid scheme shared by `DocModel.get_uid_from_entry` and
    `StepAnalyzer.get_uid_from_entry`: a uid is the label entry, a dot and
    a per-entry serial number, so that several instances of one shared
    label can be told apart. */
module Serial {
  import opened Text

  /** `_share_dict`: entry -> highest serial number handed out so far. */
  type ShareDict = map<string, nat>

  /** The counters `parse_doc` and the analyzer's constructor start from. */
  const TopEntry: string := "0:1:1"
  const Seed: ShareDict := map[TopEntry := 0]

  /** The uid text `entry + '.' + str(n)`. */
  function MakeUid(entry: string, n: nat): string {
    entry + "." + NatToString(n)
  }

  predicate DotFree(entry: string) {
    '.' !in entry
  }

  predicate DotFreeKeys(share: ShareDict) {
    forall e :: e in share ==> DotFree(e)
  }

  /** Every uid the counters in `share` account for: serials 0 .. share[e]
      of every counted entry e. */
  ghost function Issued(share: ShareDict): set<string> {
    set e, k | e in share && 0 <= k <= share[e] :: MakeUid(e, k)
  }

  datatype Issue = Issue(uid: string, share: ShareDict)

  /** The serial the next call for `entry` hands out. */
  function NextSerial(share: ShareDict, entry: string): nat {
    if entry in share then share[entry] + 1 else 0
  }

  /** `get_uid_from_entry`: the serial is 0 for an unseen entry and one more
      than the stored serial otherwise; it is stored back. */
  function GetUidFromEntry(share: ShareDict, entry: string): (r: Issue)
    ensures entry in r.share
    ensures entry !in share ==> r.share[entry] == 0
    ensures entry in share ==> r.share[entry] == share[entry] + 1
    ensures r.uid == MakeUid(entry, r.share[entry])
    ensures r.share.Keys == share.Keys + {entry}
    ensures forall e :: e in share && e != entry ==> r.share[e] == share[e]
  {
    var value := if entry in share then share[entry] + 1 else 0;
    Issue(MakeUid(entry, value), share[entry := value])
  }

  /** A uid splits back into its entry and the decimal serial. */
  lemma SplitUid(entry: string, n: nat)
    requires DotFree(entry)
    ensures Split(MakeUid(entry, n), '.') == [entry, NatToString(n)]
  {
    DigitsHaveNo(NatToString(n), '.');
    assert MakeUid(entry, n) == Join([entry, NatToString(n)], '.');
    SplitJoin([entry, NatToString(n)], '.');
  }

  /** For dot-free entries the uid determines entry and serial. */
  lemma UidInjective(e1: string, n1: nat, e2: string, n2: nat)
    requires DotFree(e1) && DotFree(e2)
    requires MakeUid(e1, n1) == MakeUid(e2, n2)
    ensures e1 == e2 && n1 == n2
  {
    SplitUid(e1, n1);
    SplitUid(e2, n2);
    NatToStringInjective(n1, n2);
  }

  /** For one entry, whatever it contains, the uid determines the serial. */
  lemma SameEntryUidInjective(e: string, n1: nat, n2: nat)
    requires MakeUid(e, n1) == MakeUid(e, n2)
    ensures n1 == n2
  {
    var p := e + ".";
    assert MakeUid(e, n1)[|p|..] == NatToString(n1);
    assert MakeUid(e, n2)[|p|..] == NatToString(n2);
    NatToStringInjective(n1, n2);
  }

  /** The uid a call returns is one the counters did not yet account for,
      and afterwards they do: nothing handed out before can come back. */
  lemma GetUidIsFresh(share: ShareDict, entry: string)
    requires DotFree(entry) && DotFreeKeys(share)
    ensures GetUidFromEntry(share, entry).uid !in Issued(share)
    ensures GetUidFromEntry(share, entry).uid in Issued(GetUidFromEntry(share, entry).share)
    ensures Issued(share) <= Issued(GetUidFromEntry(share, entry).share)
  {
    var r := GetUidFromEntry(share, entry);
    var v := r.share[entry];
    if r.uid in Issued(share) {
      var e, k :| e in share && 0 <= k <= share[e] && MakeUid(e, k) == r.uid;
      UidInjective(e, k, entry, v);
      assert false;
    }
    assert r.uid == MakeUid(entry, v);
    forall u | u in Issued(share)
      ensures u in Issued(r.share)
    {
      var e, k :| e in share && 0 <= k <= share[e] && MakeUid(e, k) == u;
      assert e in r.share && k <= r.share[e];
    }
  }

  datatype Batch = Batch(uids: seq<string>, share: ShareDict)

  /** Issues uids for `entries` in order, threading the counters. */
  function IssueAll(share: ShareDict, entries: seq<string>): (r: Batch)
    ensures |r.uids| == |entries|
    decreases |entries|
  {
    if |entries| == 0 then Batch([], share)
    else
      var first := GetUidFromEntry(share, entries[0]);
      var rest := IssueAll(first.share, entries[1..]);
      Batch([first.uid] + rest.uids, rest.share)
  }

  /** No two calls hand out the same uid, as long as the entries (and the
      entries already counted) hold no '.'. */
  lemma {:induction false} IssueAllDistinct(share: ShareDict, entries: seq<string>)
    requires DotFreeKeys(share)
    requires forall i :: 0 <= i < |entries| ==> DotFree(entries[i])
    ensures var r := IssueAll(share, entries);
      && (forall i :: 0 <= i < |r.uids| ==> r.uids[i] !in Issued(share) && r.uids[i] in Issued(r.share))
      && (forall i, j :: 0 <= i < j < |r.uids| ==> r.uids[i] != r.uids[j])
      && Issued(share) <= Issued(r.share)
    decreases |entries|
  {
    if |entries| > 0 {
      var first := GetUidFromEntry(share, entries[0]);
      GetUidIsFresh(share, entries[0]);
      IssueAllDistinct(first.share, entries[1..]);
    }
  }

  function Repeat(entry: string, n: nat): (r: seq<string>)
    ensures |r| == n
  {
    if n == 0 then [] else [entry] + Repeat(entry, n - 1)
  }

  /** Repeated calls for one entry, whatever its text, return distinct uids
      with serials counting up by one. */
  lemma RepeatedEntryDistinct(share: ShareDict, entry: string, n: nat)
    ensures forall i :: 0 <= i < n ==>
      IssueAll(share, Repeat(entry, n)).uids[i] == MakeUid(entry, NextSerial(share, entry) + i)
    ensures forall i, j :: 0 <= i < j < n ==>
      IssueAll(share, Repeat(entry, n)).uids[i] != IssueAll(share, Repeat(entry, n)).uids[j]
  {
    var r := IssueAll(share, Repeat(entry, n));
    var base := NextSerial(share, entry);
    RepeatedEntrySerials(share, entry, n);
    forall i, j | 0 <= i < j < n
      ensures r.uids[i] != r.uids[j]
    {
      if r.uids[i] == r.uids[j] {
        SameEntryUidInjective(entry, base + i, base + j);
      }
    }
  }

  lemma {:induction false} RepeatedEntrySerials(share: ShareDict, entry: string, n: nat)
    ensures forall i :: 0 <= i < n ==>
      IssueAll(share, Repeat(entry, n)).uids[i] == MakeUid(entry, NextSerial(share, entry) + i)
    decreases n
  {
    if n > 0 {
      var es := Repeat(entry, n);
      var first := GetUidFromEntry(share, entry);
      assert es[1..] == Repeat(entry, n - 1);
      RepeatedEntrySerials(first.share, entry, n - 1);
      var r := IssueAll(share, es);
      var rest := IssueAll(first.share, Repeat(entry, n - 1));
      assert es[0] == entry;
      var base := NextSerial(share, entry);
      assert NextSerial(first.share, entry) == base + 1;
      assert r.uids == [first.uid] + rest.uids;
      forall i | 0 <= i < n
        ensures r.uids[i] == MakeUid(entry, base + i)
      {
        if i > 0 {
          assert r.uids[i] == rest.uids[i - 1];
        }
      }
    }
  }

  /** Issuing for `a + b` is issuing for `a`, then for `b` from where `a`
      left the counters. */
  lemma {:induction false} IssueAllAppend(share: ShareDict, a: seq<string>, b: seq<string>)
    ensures IssueAll(share, a + b).share == IssueAll(IssueAll(share, a).share, b).share
    ensures IssueAll(share, a + b).uids == IssueAll(share, a).uids + IssueAll(IssueAll(share, a).share, b).uids
    decreases |a|
  {
    if |a| > 0 {
      var first := GetUidFromEntry(share, a[0]);
      assert (a + b)[0] == a[0];
      assert (a + b)[1..] == a[1..] + b;
      IssueAllAppend(first.share, a[1..], b);
    } else {
      assert a + b == b;
    }
  }

  lemma IssueAllCons(share: ShareDict, entries: seq<string>)
    requires |entries| > 0
    ensures IssueAll(share, entries).share == IssueAll(GetUidFromEntry(share, entries[0]).share, entries[1..]).share
  {
  }

  /** The counters after a batch count exactly the entries counted before
      and the entries of the batch; an entry outside the batch keeps its
      counter. */
  lemma {:induction false} IssueAllUntouched(share: ShareDict, entries: seq<string>, e: string)
    requires e !in entries
    ensures e in IssueAll(share, entries).share <==> e in share
    ensures e in share ==> IssueAll(share, entries).share[e] == share[e]
    decreases |entries|
  {
    if |entries| > 0 {
      assert e != entries[0];
      assert e !in entries[1..];
      IssueAllUntouched(GetUidFromEntry(share, entries[0]).share, entries[1..], e);
    }
  }

  /** Counters over dot-free entries stay dot-free. */
  lemma {:induction false} IssueAllKeysDotFree(share: ShareDict, entries: seq<string>)
    requires DotFreeKeys(share)
    requires forall i :: 0 <= i < |entries| ==> DotFree(entries[i])
    ensures DotFreeKeys(IssueAll(share, entries).share)
    decreases |entries|
  {
    if |entries| > 0 {
      IssueAllKeysDotFree(GetUidFromEntry(share, entries[0]).share, entries[1..]);
    }
  }
}

=== FILE: stepanalyzer.dfy ===
/** `StepAnalyzer`: an indented text outline of a document's assembly
    structure, one line per component that refers to a label, numbered with
    the same uid scheme as `DocModel`. The analyzer keeps its text and its
    counters across calls. */
module StepAnalyzer {
  import opened Wrappers
  import opened Text
  import opened Serial
  import opened LabelTree
  import DocModel

  /** The analyzer's state: current indent, accumulated text, the file name
      it was built from (if any) and the uid counters. */
  datatype Analyzer = Analyzer(indent: int, output: string, fname: Option<string>, share: ShareDict)

  /** The constructor: no indent, no text, counters seeded once and never
      reset afterwards. */
  function New(fname: Option<string>): (a: Analyzer)
    ensures a.indent == 0 && a.output == "" && a.share == Seed && a.fname == fname
  {
    Analyzer(0, "", fname, Seed)
  }

  /** The first line of every dump and the blank line after it. */
  function Header(fname: Option<string>): string {
    if Truthy(fname) then "Assembly structure of file: " + fname.value + "\n\n"
    else "Assembly structure of doc:\n\n"
  }

  /** `'\t' * n`: no tabs for a zero or negative count. */
  function Tabs(n: int): (s: string)
    ensures |s| == if n <= 0 then 0 else n
    ensures forall i :: 0 <= i < |s| ==> s[i] == '\t'
    decreases if n <= 0 then 0 else n
  {
    if n <= 0 then "" else "\t" + Tabs(n - 1)
  }

  /** The line for the first root label, when it is an assembly. */
  function RootLine(uid: string, root: Label, nbr: nat): string {
    uid + "\t[" + root.entry + "] " + root.name + "\t" + "Number of labels at root = " + NatToString(nbr) + "\n"
  }

  /** The line for a component that refers to `ref`. */
  function ComponentLine(uid: string, indent: int, c: Component, ref: Label): string {
    uid + Tabs(indent) + "[" + c.entry + "] " + c.name + " => [" + ref.entry + "] " + ref.name + "\n"
  }

  /** One iteration of the loop in `find_components`. Every component takes
      a uid; one that refers to a label adds a line; one that refers to an
      assembly raises the indent, and the code as written (`repaired`
      false) descends only into an assembly that has components, so the
      raise for an empty one is never taken back. */
  function FindOne(c: Component, a: Analyzer, repaired: bool): (r: Analyzer)
    ensures r.fname == a.fname && a.output <= r.output
    decreases c, 1
  {
    var iss := GetUidFromEntry(a.share, c.entry);
    var a1 := a.(share := iss.share);
    match c.ref
    case None => a1
    case Some(ref) =>
      var a2 := a1.(output := a1.output + ComponentLine(iss.uid, a1.indent, c, ref));
      if ref.Simple? then a2
      else
        var a3 := a2.(indent := a2.indent + 1);
        if |ref.comps| > 0 || repaired then FindComponents(ref.comps, a3, repaired) else a3
  }

  function FindSeq(comps: seq<Component>, a: Analyzer, repaired: bool): (r: Analyzer)
    ensures r.fname == a.fname && a.output <= r.output
    decreases comps, 0
  {
    if |comps| == 0 then a else FindSeq(comps[1..], FindOne(comps[0], a, repaired), repaired)
  }

  /** `find_components(comps)`: the loop, then one step back out. */
  function FindComponents(comps: seq<Component>, a: Analyzer, repaired: bool): (r: Analyzer)
    ensures r.fname == a.fname && a.output <= r.output
    decreases comps, 2
  {
    var s := FindSeq(comps, a, repaired);
    s.(indent := s.indent - 1)
  }

  /** What a dump leaves behind and whether it raised: with no root label
      the kernel's `Value(1)` raises once the header is already written. */
  datatype Dumped = Dumped(a: Analyzer, raised: bool)

  /** `dump`: append the header, then (if the first root label is an
      assembly) its line and the outline of its components at indent 2.
      The text returned is the whole of `output`, earlier dumps included. */
  function Dump(a: Analyzer, doc: Doc, repaired: bool): (r: Dumped)
    ensures r.raised <==> |doc.labels| == 0
    ensures r.a.fname == a.fname && a.output + Header(a.fname) <= r.a.output
    ensures r.raised ==> r.a.output == a.output + Header(a.fname) && r.a.share == a.share
    ensures !r.raised && doc.labels[0].Simple? ==>
      r.a.output == a.output + Header(a.fname) && r.a.share == GetUidFromEntry(a.share, doc.labels[0].entry).share
    ensures !r.raised && doc.labels[0].Assembly? ==>
      a.output + Header(a.fname) + RootLine(GetUidFromEntry(a.share, doc.labels[0].entry).uid, doc.labels[0], |doc.labels|) <= r.a.output
    ensures repaired && !r.raised && doc.labels[0].Assembly? ==>
      var iss := GetUidFromEntry(a.share, doc.labels[0].entry);
      var o := OutSeq(doc.labels[0].comps, iss.share, 2);
      && r.a.output == a.output + Header(a.fname) + RootLine(iss.uid, doc.labels[0], |doc.labels|) + o.text
      && r.a.share == o.share
  {
    var a0 := a.(output := a.output + Header(a.fname), indent := 0);
    if |doc.labels| == 0 then Dumped(a0, true)
    else
      var root := doc.labels[0];
      var iss := GetUidFromEntry(a0.share, root.entry);
      var a1 := a0.(share := iss.share);
      if root.Simple? then Dumped(a1, false)
      else
        var a2 := a1.(output := a1.output + RootLine(iss.uid, root, |doc.labels|), indent := 2);
        assert a0.output + RootLine(iss.uid, root, |doc.labels|) == a2.output;
        assert repaired ==> FindSeq(root.comps, a2, true) == Emit(a2, OutSeq(root.comps, iss.share, 2)) by {
          if repaired {
            FindSeqIsOutline(root.comps, a2);
          }
        }
        assert |root.comps| == 0 ==> a2.output + OutSeq(root.comps, iss.share, 2).text == a2.output;
        if |root.comps| > 0 then Dumped(FindComponents(root.comps, a2, repaired), false) else Dumped(a2, false)
  }

  // The indentation: repaired, every descent is undone.

  lemma {:induction false} FindOneBalanced(c: Component, a: Analyzer)
    ensures FindOne(c, a, true).indent == a.indent
    decreases c, 1
  {
    if c.ref.Some? && c.ref.value.Assembly? {
      var iss := GetUidFromEntry(a.share, c.entry);
      var a3 := a.(share := iss.share, output := a.output + ComponentLine(iss.uid, a.indent, c, c.ref.value), indent := a.indent + 1);
      FindSeqBalanced(c.ref.value.comps, a3);
      assert FindOne(c, a, true) == FindComponents(c.ref.value.comps, a3, true);
    }
  }

  lemma {:induction false} FindSeqBalanced(comps: seq<Component>, a: Analyzer)
    ensures FindSeq(comps, a, true).indent == a.indent
    decreases comps, 0
  {
    if |comps| > 0 {
      FindOneBalanced(comps[0], a);
      FindSeqBalanced(comps[1..], FindOne(comps[0], a, true));
    }
  }

  /** As written, each empty sub-assembly met leaves the indent one higher. */
  lemma EmptyAssemblyRaisesIndent(c: Component, a: Analyzer)
    requires c.ref.Some? && c.ref.value.Assembly? && |c.ref.value.comps| == 0
    ensures FindOne(c, a, false).indent == a.indent + 1
    ensures FindOne(c, a, true).indent == a.indent
  {
    FindOneBalanced(c, a);
  }

  /** Without empty sub-assemblies the code as written is the repaired one. */
  lemma {:induction false} FindOneAsWritten(c: Component, a: Analyzer)
    requires ComponentNoEmptyAssembly(c)
    ensures FindOne(c, a, false) == FindOne(c, a, true)
    decreases c, 1
  {
    if c.ref.Some? && c.ref.value.Assembly? {
      var iss := GetUidFromEntry(a.share, c.entry);
      var a3 := a.(share := iss.share, output := a.output + ComponentLine(iss.uid, a.indent, c, c.ref.value), indent := a.indent + 1);
      FindSeqAsWritten(c.ref.value.comps, a3);
    }
  }

  lemma {:induction false} FindSeqAsWritten(comps: seq<Component>, a: Analyzer)
    requires NoEmptyAssembly(comps)
    ensures FindSeq(comps, a, false) == FindSeq(comps, a, true)
    decreases comps, 0
  {
    if |comps| > 0 {
      FindOneAsWritten(comps[0], a);
      assert NoEmptyAssembly(comps[1..]) by {
        forall i | 0 <= i < |comps[1..]|
          ensures ComponentNoEmptyAssembly(comps[1..][i])
        {
          assert comps[1..][i] == comps[i + 1];
        }
      }
      FindSeqAsWritten(comps[1..], FindOne(comps[0], a, true));
    }
  }

  // A reference outline without the mutable indent: the depth is passed
  // down, one more for the components of a referred assembly.

  datatype Out = Out(text: string, share: ShareDict)

  function OutOne(c: Component, share: ShareDict, depth: int): Out
    decreases c, 1
  {
    var iss := GetUidFromEntry(share, c.entry);
    match c.ref
    case None => Out("", iss.share)
    case Some(ref) =>
      var line := ComponentLine(iss.uid, depth, c, ref);
      if ref.Simple? then Out(line, iss.share)
      else
        var sub := OutSeq(ref.comps, iss.share, depth + 1);
        Out(line + sub.text, sub.share)
  }

  function OutSeq(comps: seq<Component>, share: ShareDict, depth: int): Out
    decreases comps, 0
  {
    if |comps| == 0 then Out("", share)
    else
      var first := OutOne(comps[0], share, depth);
      var rest := OutSeq(comps[1..], first.share, depth);
      Out(first.text + rest.text, rest.share)
  }

  /** The analyzer once the outline `o` is appended to its text. */
  function Emit(a: Analyzer, o: Out): (r: Analyzer)
    ensures r.indent == a.indent && r.fname == a.fname && r.share == o.share
  {
    a.(output := a.output + o.text, share := o.share)
  }

  /** Appending two outlines in turn appends their concatenation. */
  lemma EmitTwice(a: Analyzer, o1: Out, o2: Out)
    ensures Emit(Emit(a, o1), o2) == Emit(a, Out(o1.text + o2.text, o2.share))
  {
    assert a.output + o1.text + o2.text == a.output + (o1.text + o2.text);
  }

  /** Repaired, the walk appends exactly the reference outline at the
      current indent and leaves the indent where it was. */
  lemma {:induction false} FindOneIsOutline(c: Component, a: Analyzer)
    ensures FindOne(c, a, true) == Emit(a, OutOne(c, a.share, a.indent))
    decreases c, 2
  {
    if c.ref.Some? && c.ref.value.Assembly? {
      AssemblyIsOutline(c, a);
    } else if c.ref.None? {
      assert a.output + "" == a.output;
    }
  }

  lemma {:induction false} AssemblyIsOutline(c: Component, a: Analyzer)
    requires c.ref.Some? && c.ref.value.Assembly?
    ensures FindOne(c, a, true) == Emit(a, OutOne(c, a.share, a.indent))
    decreases c, 1
  {
    var iss := GetUidFromEntry(a.share, c.entry);
    var ref := c.ref.value;
    var line := Out(ComponentLine(iss.uid, a.indent, c, ref), iss.share);
    var a3 := Emit(a, line).(indent := a.indent + 1);
    var sub := OutSeq(ref.comps, iss.share, a.indent + 1);
    assert OutOne(c, a.share, a.indent) == Out(line.text + sub.text, sub.share);
    assert FindOne(c, a, true) == FindComponents(ref.comps, a3, true);
    FindSeqIsOutline(ref.comps, a3);
    EmitTwice(a, line, sub);
  }

  lemma {:induction false} FindSeqIsOutline(comps: seq<Component>, a: Analyzer)
    ensures FindSeq(comps, a, true) == Emit(a, OutSeq(comps, a.share, a.indent))
    decreases comps, 0
  {
    if |comps| == 0 {
      assert a.output + "" == a.output;
    } else {
      var first := OutOne(comps[0], a.share, a.indent);
      var a1 := FindOne(comps[0], a, true);
      var rest := OutSeq(comps[1..], first.share, a.indent);
      FindSeqStep(comps, a, true);
      FindOneIsOutline(comps[0], a);
      FindSeqIsOutline(comps[1..], a1);
      OutSeqStep(comps, a.share, a.indent);
      EmitTwice(a, first, rest);
    }
  }

  lemma {:induction false} FindSeqStep(comps: seq<Component>, a: Analyzer, repaired: bool)
    requires |comps| > 0
    ensures FindSeq(comps, a, repaired) == FindSeq(comps[1..], FindOne(comps[0], a, repaired), repaired)
  {
  }

  lemma {:induction false} OutSeqStep(comps: seq<Component>, share: ShareDict, depth: int)
    requires |comps| > 0
    ensures var first := OutOne(comps[0], share, depth);
      var rest := OutSeq(comps[1..], first.share, depth);
      OutSeq(comps, share, depth) == Out(first.text + rest.text, rest.share)
  {
  }

  /** The counters after an outline are those after issuing a uid for every
      visited entry in order, as in `DocModel`'s walk. */
  lemma {:induction false} OutOneShare(c: Component, share: ShareDict, depth: int)
    ensures OutOne(c, share, depth).share == IssueAll(share, DocModel.VisitsOne(c)).share
    decreases c, 1
  {
    var iss := GetUidFromEntry(share, c.entry);
    IssueAllCons(share, DocModel.VisitsOne(c));
    if c.ref.Some? && c.ref.value.Assembly? {
      assert DocModel.VisitsOne(c)[1..] == DocModel.Visits(c.ref.value.comps);
      OutSeqShare(c.ref.value.comps, iss.share, depth + 1);
    } else {
      assert DocModel.VisitsOne(c)[1..] == [];
    }
  }

  lemma {:induction false} OutSeqShare(comps: seq<Component>, share: ShareDict, depth: int)
    ensures OutSeq(comps, share, depth).share == IssueAll(share, DocModel.Visits(comps)).share
    decreases comps, 0
  {
    if |comps| > 0 {
      var first := OutOne(comps[0], share, depth);
      OutOneShare(comps[0], share, depth);
      OutSeqShare(comps[1..], first.share, depth);
      IssueAllAppend(share, DocModel.VisitsOne(comps[0]), DocModel.Visits(comps[1..]));
    }
  }

  /** A first dump by a new analyzer of a document whose first root label is
      an assembly: header, root line, then the outline of the top components
      at depth 2 (their components at depth 3, and so on); the indent ends
      at 1. Its counters end where `parse_doc`'s do on the same document. */
  lemma FirstDump(fname: Option<string>, doc: Doc)
    requires |doc.labels| > 0 && doc.labels[0].Assembly?
    ensures var root := doc.labels[0];
      var iss := GetUidFromEntry(Seed, root.entry);
      var r := Dump(New(fname), doc, true);
      && !r.raised
      && r.a.output == Header(fname) + RootLine(iss.uid, root, |doc.labels|) + OutSeq(root.comps, iss.share, 2).text
      && r.a.indent == (if |root.comps| > 0 then 1 else 2)
      && r.a.share == DocModel.ParseDoc(doc, true).w.t.share
  {
    var root := doc.labels[0];
    var iss := GetUidFromEntry(Seed, root.entry);
    FirstDumpText(fname, doc);
    DocModel.ParseDocShare(doc, true);
    IssueAllAppend(Seed, [root.entry], DocModel.Visits(root.comps));
    assert [root.entry][1..] == [];
    OutSeqShare(root.comps, iss.share, 2);
  }

  /** The text, indent and counters of a first dump, in terms of the
      reference outline. */
  lemma FirstDumpText(fname: Option<string>, doc: Doc)
    requires |doc.labels| > 0 && doc.labels[0].Assembly?
    ensures var root := doc.labels[0];
      var iss := GetUidFromEntry(Seed, root.entry);
      var r := Dump(New(fname), doc, true);
      var o := OutSeq(root.comps, iss.share, 2);
      && !r.raised
      && r.a.output == Header(fname) + RootLine(iss.uid, root, |doc.labels|) + o.text
      && r.a.indent == (if |root.comps| > 0 then 1 else 2)
      && r.a.share == o.share
  {
    var root := doc.labels[0];
    var iss := GetUidFromEntry(Seed, root.entry);
    var a2 := Analyzer(2, Header(fname) + RootLine(iss.uid, root, |doc.labels|), fname, iss.share);
    assert "" + Header(fname) == Header(fname);
    if |root.comps| > 0 {
      FindSeqIsOutline(root.comps, a2);
      assert Dump(New(fname), doc, true).a == FindComponents(root.comps, a2, true);
    } else {
      assert OutSeq(root.comps, iss.share, 2) == Out("", iss.share);
    }
  }

  /** A second dump by the same analyzer keeps the first text in front and
      numbers the top assembly afresh: its root line carries a different
      uid, because the counters were not reset. */
  lemma SecondDumpRenumbers(fname: Option<string>, doc: Doc)
    requires |doc.labels| > 0 && doc.labels[0].Assembly?
    requires DotFree(doc.labels[0].entry) && EntriesDotFree(doc.labels[0].comps)
    ensures var first := Dump(New(fname), doc, true).a;
      var second := Dump(first, doc, true).a;
      && first.output <= second.output
      && GetUidFromEntry(first.share, doc.labels[0].entry).uid != GetUidFromEntry(Seed, doc.labels[0].entry).uid
  {
    var first := Dump(New(fname), doc, true).a;
    assert first.share == IssueAll(Seed, DocModel.DocVisits(doc)).share by {
      FirstDump(fname, doc);
      DocModel.ParseDocShare(doc, true);
    }
    RootUidStaysCounted(doc);
    GetUidIsFresh(first.share, doc.labels[0].entry);
  }

  /** After issuing uids for every entry of a walk, the counters are still
      dot-free and account for the uid of the first root label. */
  lemma RootUidStaysCounted(doc: Doc)
    requires |doc.labels| > 0 && DotFree(doc.labels[0].entry)
    requires EntriesDotFree(ComponentsOf(doc.labels[0]))
    ensures var share := IssueAll(Seed, DocModel.DocVisits(doc)).share;
      DotFreeKeys(share) && GetUidFromEntry(Seed, doc.labels[0].entry).uid in Issued(share)
  {
    var root := doc.labels[0];
    var vs := DocModel.DocVisits(doc);
    DocModel.VisitsAreDotFree(ComponentsOf(root));
    assert DocModel.VisitsDotFree(vs) by {
      forall i | 0 <= i < |vs|
        ensures DotFree(vs[i])
      {
        if i > 0 {
          assert vs[i] == DocModel.Visits(ComponentsOf(root))[i - 1];
        }
      }
    }
    assert DotFreeKeys(Seed);
    IssueAllDistinct(Seed, vs);
    IssueAllKeysDotFree(Seed, vs);
    assert IssueAll(Seed, vs).uids[0] == GetUidFromEntry(Seed, root.entry).uid;
  }

  /** A component that refers to a label puts its line, at the current
      indent, right after the text before it. */
  lemma FindOneLine(c: Component, a: Analyzer, repaired: bool)
    requires c.ref.Some?
    ensures a.output + ComponentLine(GetUidFromEntry(a.share, c.entry).uid, a.indent, c, c.ref.value) <= FindOne(c, a, repaired).output
  {
    var iss := GetUidFromEntry(a.share, c.entry);
    var ref := c.ref.value;
    var a2 := a.(share := iss.share, output := a.output + ComponentLine(iss.uid, a.indent, c, ref));
    if ref.Assembly? && (|ref.comps| > 0 || repaired) {
      var a3 := a2.(indent := a2.indent + 1);
      assert FindOne(c, a, repaired) == FindComponents(ref.comps, a3, repaired);
    }
  }

  /** Stepping over a component that refers to an empty sub-assembly: its
      line, and the indent one higher as written, unchanged repaired. */
  lemma OverEmptyAssembly(a: Component, st: Analyzer, repaired: bool)
    requires a.ref.Some? && a.ref.value.Assembly? && |a.ref.value.comps| == 0
    ensures var iss := GetUidFromEntry(st.share, a.entry);
      FindOne(a, st, repaired)
        == st.(share := iss.share, output := st.output + ComponentLine(iss.uid, st.indent, a, a.ref.value),
               indent := if repaired then st.indent else st.indent + 1)
  {
    var iss := GetUidFromEntry(st.share, a.entry);
    var a3 := st.(share := iss.share, output := st.output + ComponentLine(iss.uid, st.indent, a, a.ref.value), indent := st.indent + 1);
    if repaired {
      assert FindOne(a, st, repaired) == FindComponents([], a3, true);
    }
  }

  /** As written, after a component that refers to an empty sub-assembly,
      the next sibling's line is indented one tab deeper than that
      component's own line. */
  lemma EmptySubAssemblyIndentsSibling(a: Component, b: Component, st: Analyzer)
    requires a.ref.Some? && a.ref.value.Assembly? && |a.ref.value.comps| == 0 && b.ref.Some?
    ensures var ia := GetUidFromEntry(st.share, a.entry);
      var ib := GetUidFromEntry(ia.share, b.entry);
      st.output + ComponentLine(ia.uid, st.indent, a, a.ref.value) + ComponentLine(ib.uid, st.indent + 1, b, b.ref.value)
        <= FindSeq([a, b], st, false).output
  {
    var wa := FindOne(a, st, false);
    OverEmptyAssembly(a, st, false);
    FindOneLine(b, wa, false);
    assert [a, b][1..] == [b];
    assert FindSeq([a, b], st, false) == FindSeq([b], wa, false) == FindOne(b, wa, false);
  }

  /** Repaired, the sibling's line has the same indent as the component
      before it. */
  lemma RepairedIndentsSibling(a: Component, b: Component, st: Analyzer)
    requires a.ref.Some? && a.ref.value.Assembly? && |a.ref.value.comps| == 0 && b.ref.Some?
    ensures var ia := GetUidFromEntry(st.share, a.entry);
      var ib := GetUidFromEntry(ia.share, b.entry);
      st.output + ComponentLine(ia.uid, st.indent, a, a.ref.value) + ComponentLine(ib.uid, st.indent, b, b.ref.value)
        <= FindSeq([a, b], st, true).output
  {
    var wa := FindOne(a, st, true);
    OverEmptyAssembly(a, st, true);
    FindOneLine(b, wa, true);
    assert [a, b][1..] == [b];
    assert FindSeq([a, b], st, true) == FindSeq([b], wa, true) == FindOne(b, wa, true);
  }
}

=== FILE: text.dfy ===
/** String operations used by the entry and uid code, with Python's meaning:
    `str.split` on a one-character separator, the inverse join, `str(n)` for
    a natural number and `int(s)` on a signed decimal string. */
module Text {
  import opened Wrappers

  /** `s.split(sep)` for a one-character separator: empty pieces are kept,
      so there is always one more piece than there are separators. */
  function Split(s: string, sep: char): (parts: seq<string>)
    ensures |parts| == Count(s, sep) + 1
    decreases |s|
  {
    if |s| == 0 then [""]
    else
      var rest := Split(s[1..], sep);
      if s[0] == sep then [""] + rest
      else [[s[0]] + rest[0]] + rest[1..]
  }

  /** No piece of a split holds the separator. */
  lemma {:induction false} SplitPiecesLackSeparator(s: string, sep: char)
    ensures forall i :: 0 <= i < |Split(s, sep)| ==> sep !in Split(s, sep)[i]
    decreases |s|
  {
    if |s| > 0 {
      SplitPiecesLackSeparator(s[1..], sep);
    }
  }

  /** Number of occurrences of `c` in `s`. */
  function Count(s: string, c: char): nat
    decreases |s|
  {
    if |s| == 0 then 0 else (if s[0] == c then 1 else 0) + Count(s[1..], c)
  }

  /** `sep.join(parts)`. */
  function Join(parts: seq<string>, sep: char): string
    requires |parts| >= 1
    decreases |parts|
  {
    if |parts| == 1 then parts[0] else parts[0] + [sep] + Join(parts[1..], sep)
  }

  /** Python's `parts[-1]`. */
  function Last(parts: seq<string>): string
    requires |parts| >= 1
  {
    parts[|parts| - 1]
  }

  lemma {:induction false} CountZero(s: string, c: char)
    ensures Count(s, c) == 0 <==> c !in s
    decreases |s|
  {
    if |s| > 0 {
      CountZero(s[1..], c);
      assert s == [s[0]] + s[1..];
    }
  }

  lemma {:induction false} SplitWithoutSeparator(s: string, sep: char)
    requires sep !in s
    ensures Split(s, sep) == [s]
  {
    CountZero(s, sep);
    var parts := Split(s, sep);
    if |s| > 0 {
      SplitWithoutSeparator(s[1..], sep);
      assert [s[0]] + s[1..] == s;
    }
  }

  lemma {:induction false} SplitAtFirst(a: string, sep: char, b: string)
    requires sep !in a
    ensures Split(a + [sep] + b, sep) == [a] + Split(b, sep)
    decreases |a|
  {
    if |a| == 0 {
      assert a + [sep] + b == [sep] + b;
      assert ([sep] + b)[1..] == b;
    } else {
      SplitAtFirst(a[1..], sep, b);
      assert (a + [sep] + b)[1..] == a[1..] + [sep] + b;
      assert [a[0]] + a[1..] == a;
    }
  }

  /** Splitting at a separator between two strings splits each side apart. */
  lemma {:induction false} SplitAppend(a: string, sep: char, b: string)
    ensures Split(a + [sep] + b, sep) == Split(a, sep) + Split(b, sep)
    decreases |a|
  {
    var s := a + [sep] + b;
    if |a| == 0 {
      assert s[1..] == b;
      SplitHead(s, sep);
    } else {
      SplitAppend(a[1..], sep, b);
      assert s[1..] == a[1..] + [sep] + b;
      SplitHead(s, sep);
      SplitHead(a, sep);
      ConsHead(a[0], a[0] == sep, Split(a[1..], sep), Split(b, sep));
    }
  }

  /** One step of `Split`, stated over the tail's pieces. */
  lemma SplitHead(s: string, sep: char)
    requires |s| > 0
    ensures Split(s, sep) == Glue(s[0], s[0] == sep, Split(s[1..], sep))
  {
  }

  function Glue(c: char, isSep: bool, rest: seq<string>): seq<string>
    requires |rest| > 0
  {
    if isSep then [""] + rest else [[c] + rest[0]] + rest[1..]
  }

  lemma ConsHead(c: char, isSep: bool, ra: seq<string>, rb: seq<string>)
    requires |ra| > 0
    ensures Glue(c, isSep, ra + rb) == Glue(c, isSep, ra) + rb
  {
    if !isSep {
      assert (ra + rb)[0] == ra[0];
      assert (ra + rb)[1..] == ra[1..] + rb;
    }
  }

  /** The piece after the last separator of `prefix + sep + piece`, when
      `piece` holds no separator, is `piece`. */
  lemma LastPiece(prefix: string, sep: char, piece: string)
    requires sep !in piece
    ensures Last(Split(prefix + [sep] + piece, sep)) == piece
  {
    SplitAppend(prefix, sep, piece);
    SplitWithoutSeparator(piece, sep);
  }

  /** Splitting a join gives back the pieces, provided none holds the separator. */
  lemma {:induction false} SplitJoin(parts: seq<string>, sep: char)
    requires |parts| >= 1
    requires forall i :: 0 <= i < |parts| ==> sep !in parts[i]
    ensures Split(Join(parts, sep), sep) == parts
    decreases |parts|
  {
    if |parts| == 1 {
      SplitWithoutSeparator(parts[0], sep);
    } else {
      SplitJoin(parts[1..], sep);
      SplitAtFirst(parts[0], sep, Join(parts[1..], sep));
      assert [parts[0]] + parts[1..] == parts;
    }
  }

  /** Joining the pieces of a split gives back the string. */
  lemma {:induction false} JoinSplit(s: string, sep: char)
    ensures Join(Split(s, sep), sep) == s
    decreases |s|
  {
    if |s| > 0 {
      JoinSplit(s[1..], sep);
      var rest := Split(s[1..], sep);
      assert [s[0]] + s[1..] == s;
      if s[0] == sep {
        assert ([""] + rest)[1..] == rest;
      } else {
        var parts := [[s[0]] + rest[0]] + rest[1..];
        assert parts[1..] == rest[1..];
        if |rest| > 1 {
          assert Join(rest, sep) == rest[0] + [sep] + Join(rest[1..], sep);
        }
      }
    }
  }

  predicate IsDigit(c: char) {
    '0' <= c <= '9'
  }

  /** A non-empty run of decimal digits. */
  predicate IsDigits(s: string) {
    |s| >= 1 && forall i :: 0 <= i < |s| ==> IsDigit(s[i])
  }

  function DigitChar(d: nat): (c: char)
    requires d < 10
    ensures IsDigit(c)
  {
    (('0' as int) + d) as char
  }

  function DigitValue(c: char): (d: nat)
    requires IsDigit(c)
    ensures d < 10
  {
    (c as int) - ('0' as int)
  }

  /** `str(n)`: the shortest decimal spelling of `n`. */
  function NatToString(n: nat): (s: string)
    ensures IsDigits(s)
    decreases n
  {
    if n < 10 then [DigitChar(n)] else NatToString(n / 10) + [DigitChar(n % 10)]
  }

  function DigitsValue(s: string): nat
    requires forall i :: 0 <= i < |s| ==> IsDigit(s[i])
    decreases |s|
  {
    if |s| == 0 then 0 else DigitsValue(s[..|s| - 1]) * 10 + DigitValue(s[|s| - 1])
  }

  /** `int(s)` for an optional sign followed by decimal digits; anything
      else is the ValueError case. */
  function ParseInt(s: string): (r: Option<int>)
    ensures r.Some? <==> IsDigits(s) || (|s| >= 2 && (s[0] == '-' || s[0] == '+') && IsDigits(s[1..]))
    ensures IsDigits(s) ==> r.Some? && r.value >= 0
  {
    if IsDigits(s) then Some(DigitsValue(s))
    else if |s| >= 2 && s[0] == '-' && IsDigits(s[1..]) then Some(-(DigitsValue(s[1..]) as int))
    else if |s| >= 2 && s[0] == '+' && IsDigits(s[1..]) then Some(DigitsValue(s[1..]))
    else None
  }

  lemma {:induction false} DigitsValueOfNatToString(n: nat)
    ensures DigitsValue(NatToString(n)) == n
    decreases n
  {
    var s := NatToString(n);
    if n >= 10 {
      DigitsValueOfNatToString(n / 10);
      assert s[..|s| - 1] == NatToString(n / 10);
    }
  }

  /** `int(str(n)) == n`. */
  lemma ParseNatToString(n: nat)
    ensures ParseInt(NatToString(n)) == Some(n)
  {
    DigitsValueOfNatToString(n);
  }

  /** Distinct numbers have distinct spellings. */
  lemma NatToStringInjective(m: nat, n: nat)
    requires NatToString(m) == NatToString(n)
    ensures m == n
  {
    ParseNatToString(m);
    ParseNatToString(n);
  }

  lemma DigitsHaveNo(s: string, c: char)
    requires IsDigits(s)
    requires !IsDigit(c)
    ensures c !in s
  {
  }
}

=== FILE: wrappers.dfy ===
/** Optional values, standing in for Python's `None`, and results that
    are either a value or the Python exception the code would raise. */
module Wrappers {

  datatype Option<+T> = None | Some(value: T) {

    /** Returns the value held in Some, or a default when None. */
    function GetOr(default: T): T {
      match this
      case Some(v) => v
      case None => default
    }
  }

  /** Python truthiness of an optional string: neither `None` nor empty. */
  predicate Truthy(s: Option<string>) {
    s.Some? && s.value != ""
  }

  /** The built-in exceptions the modelled code can raise. Kernel range
      errors reach Python as `RuntimeError`. */
  datatype PyError = ValueError | TypeError | KeyError | IndexError | AttributeError | RuntimeError | UnboundLocalError

  datatype Result<+T> = Ok(value: T) | Err(error: PyError)
}
